=== FILE: README.md ===
# Lightweight-Serialization: a verified model of the reflection codec

This project models the core of Lightweight-Serialization, a small object-graph codec for
Unity. An object that implements `ISerializable<T>` is written field by field through an
`ISerializer` and read back through an `IDeserializer`. The serializer and deserializer
have one backend here: YAML-like text, one `name:value` line per primitive.

- **Field dispatcher.** `ReflectionSerializer.SerializeField` / `DeserializeField` choose a
  branch by the declared type: int, uint, float, string, bool, enum, array, `List<>`,
  `Dictionary<,>`, self-serializable node, or unsupported. `Serialize` / `Deserialize` walk an
  object's fields in metadata-token order. A compiler-generated backing field
  (`<P>k__BackingField`) is written under its property's name `P`.
- **Collection envelopes.** A collection is written as:
  - a marker line holding the type name, or `null`;
  - a `name.Size` line;
  - one element per `name.Item[i]`; dictionaries write `name.Key[i]` then `name.Value[i]`.

  N-dimensional arrays write their dimensions as a `", "`-joined list. They visit cells by
  flat position, turning each position into an index tuple with `NDArrayIndexFromMemPos`.
- **Node scoping.** `WriteSerializable` / `ReadSerializable` write or read a type-tag line.
  They then extend the current base name by `.name` for the node's fields, and restore it.
- **YAML backend.** A line is:
  - one tab per `.`-separated segment of the full path beyond the first;
  - then the last segment, then `:`, then the value.

  The reader checks the expected prefix. On a mismatch it disposes the stream and throws.
- **Enum extensions.** `WriteEnum` / `ReadEnum` encode an enum as its integer value. The
  dispatcher encodes an enum by name.

## How the model is built

- **Modules.**
  - `Types` covers declared types, runtime values, field descriptors, the dispatcher's
    classification, the backing-field sanitiser and the field walk order.
  - `Text` covers invariant-culture int and bool text, `int.Parse`, `bool.Parse`, `Split`,
    `Join` and `ReadLine`'s line splitting.
  - `Paths` covers full names and the line prefix.
  - `EnumText` covers `Enum.ToString` and `Enum.Parse`.
  - `NDIndex` covers the position/index-tuple mapping.
- **Files and state.**
  - The file is the sequence of lines the writer handed to `WriteLine`.
  - `YamlWriter.YamlSerializer` is a class whose methods append to `lines` and keep `baseName`.
  - `YamlReader.YamlDeserializer` keeps a `cursor`, a `disposed` flag and `baseName`.
- **Specification functions.**
  - `Encoding` states, as functions of the value, the lines a write emits and the exception
    that stops it, if any.
  - `Decoding` states, as functions of the lines and a position, the value a read builds and
    the position after it, or the exception it throws.
- **Methods proved against the functions.**
  - `Serialization` and `Deserialization` hold the source's imperative code as methods with
    loops over the backend objects: the `for` loops, `array[i] = …`, `list.Add`,
    `dict.Add`, `arr.SetValue` and `field.SetValue`.
  - Each method is proved to do exactly what its `Encoding` or `Decoding` function says.
- **Round trip.** `RoundTrip` proves the codec's round trip over those functions. For every
  representable value of every supported declared type, `DeserializeField` over the lines
  `SerializeField` wrote returns the value and stops right after those lines. This extends to
  a whole object (`SerializeThenDeserialize`) and through the text file (`FileRoundTrip`).
- **Exceptions.** Each exception the source can raise is a `Failure` constructor, and a
  failed operation returns it. `RankMismatch` alone stands for two of them (see "## Left out"). Writes keep the lines emitted before the exception.
- **Reflection.** It is modelled as data:
  - a node value carries its runtime type name and its fields, each with name, declared
    type, metadata token and value;
  - the reader resolves a type tag in a `Registry`, a map from full type name to supertypes
    and fields;
  - `GetUninitializedObject` is `Decoding.Blank`, every field at `default`.
- **Floats** are carried as their invariant-culture text and are not interpreted.

## Model

| member | source | states |
|---|---|---|
| Paths.FullName | Scripts/Implementations/YAMLSerializer.cs:16 | the full name: the field name alone at top level, otherwise `base.name` |
| Paths.Extend | Scripts/ISerializer.cs:14 | the base name of a node's fields: the node's own full name |
| Paths.FieldName | Scripts/Implementations/YAMLSerializer.cs:17 | the last `.`-separated segment of the full name |
| Paths.Depth | Scripts/Implementations/YAMLSerializer.cs:18 | the tab count: segments of the padded full name, less one |
| Paths.LinePrefix | Scripts/Implementations/YAMLSerializer.cs:18 | `lineStart`: that many tabs, the field name, then `:` |
| Paths.LineText | Scripts/Implementations/YAMLSerializer.cs:19 | the text handed to `WriteLine`: the prefix, then the value |
| Paths.SizePath | Scripts/Extensions/CollectionSerializationExtensions.cs:24 | the name of a collection's size line, `name.Size` |
| Paths.ItemPath | Scripts/Extensions/CollectionSerializationExtensions.cs:26 | the name of element `i`, `name.Item[i]` |
| Paths.NDItemPath | Scripts/Extensions/CollectionSerializationExtensions.cs:100 | the name of an N-D cell, `name.Item[i0, i1, ...]` |
| Paths.KeyPath | Scripts/Extensions/CollectionSerializationExtensions.cs:15 | the name of key `i`, `name.Key[i]` |
| Paths.ValuePath | Scripts/Extensions/CollectionSerializationExtensions.cs:16 | the name of value `i`, `name.Value[i]` |
| Paths.NestedDepth | Scripts/Implementations/YAMLSerializer.cs:16-18 | a name under base `b` is `segments(b)` tabs deeper than at top level and keeps its own last segment as the field name |
| Paths.NestedSegments | Scripts/ISerializer.cs:14 | the segments of `b.name` are the segments of `b` followed by those of `name` |
| Paths.PaddingKeepsSegmentCount | Scripts/Implementations/YAMLSerializer.cs:18 | `PadLeft(1).PadRight(1)` never changes the number of `.`-segments, so the empty name sits at depth 0 |
| Paths.SuffixOneDeeper | Scripts/Implementations/YAMLSerializer.cs:16-18 | appending a dot-free `.suffix` adds exactly one tab and makes the suffix the field name |
| Paths.SizeLineOneDeeper | Scripts/Extensions/CollectionSerializationExtensions.cs:24 | the `x.Size` line sits one tab deeper than `x` with field name `Size` |
| Paths.ItemLineOneDeeper | Scripts/Extensions/CollectionSerializationExtensions.cs:26 | element `i` sits one tab deeper than its collection, under field name `Item[i]` |
| Paths.LeadingTabsOfPrefix | Scripts/Implementations/YAMLSerializer.cs:18 | the tab count of a prefix is recovered from the line, since a field name never starts with a tab |
| Paths.PrefixComparesDepthAndField | Scripts/Implementations/YAMLDeserializer.cs:16-20 | the reader's prefix check accepts a line exactly when depth and last segment agree, in both directions |
| Paths.SiblingPathsShareAPrefix | Scripts/Implementations/YAMLDeserializer.cs:20 | the check does not see the full path: under any two base names of the same depth a field has the same prefix, while its full names differ exactly when the base names do |
| Paths.WrittenLineIsOneLine | Scripts/Implementations/YAMLSerializer.cs:19 | a written line has no line break when its field name and value have none |
| Text.IntText | Scripts/Implementations/YAMLSerializer.cs:23 | `Int32.ToString` in the invariant culture: an optional `-`, then digits, with no `,` or `.` |
| Text.Trim | Scripts/Implementations/YAMLDeserializer.cs:29 | the text without the leading and trailing white space `int.Parse` skips |
| Text.ParseBool | Scripts/Implementations/YAMLDeserializer.cs:27 | `bool.Parse`: `true` or `false` in any ASCII letter case after trimming, otherwise a format error |
| Text.JoinInts | Scripts/Extensions/CollectionSerializationExtensions.cs:95 | `string.Join(", ", dims)`, with no `.` in it |
| Text.TextLines | Scripts/Implementations/YAMLDeserializer.cs:19 | the lines successive `ReadLine` calls return, split at `\r\n`, `\r` or `\n` |
| Text.FileText | Scripts/Implementations/YAMLSerializer.cs:19 | the file text left by `WriteLine` calls: each record followed by `\n` |
| Text.ParseIntText | Scripts/Implementations/YAMLDeserializer.cs:29 | `int.Parse` of the invariant text of any 32-bit integer gives that integer back |
| Text.ParseNonNegativeText | Scripts/Implementations/YAMLDeserializer.cs:29 | `int.Parse` of the digits of `n <= int.MaxValue` is `n` |
| Text.ParseNegativeText | Scripts/Implementations/YAMLDeserializer.cs:29 | `int.Parse` of `-digits(n)` is `-n` down to `int.MinValue` |
| Text.ParseIntSpacedText | Scripts/Extensions/CollectionSerializationExtensions.cs:78 | `int.Parse` skips the blank that `", "` leaves before every dimension after the first |
| Text.ParseIntRejectsNonNumber | Scripts/Implementations/YAMLDeserializer.cs:29 | a trimmed text starting with neither a sign nor a digit is a format error |
| Text.SameTrimSameInt | Scripts/Implementations/YAMLDeserializer.cs:29 | `int.Parse` depends only on the trimmed text |
| Text.ParseInt | Scripts/Implementations/YAMLDeserializer.cs:29 | success only on non-blank text; failure is a format or an overflow error |
| Text.ParseInts | Scripts/Extensions/CollectionSerializationExtensions.cs:78 | `Select(int.Parse)` gives one number per part or the first part's error |
| Text.ParseBoolText | Scripts/Implementations/YAMLDeserializer.cs:27 | `bool.Parse` of `True` / `False` gives the boolean back |
| Text.AsciiLower | Scripts/IDeserializer.cs:16 | `ToLower` on the ASCII range: same length, each letter lower-cased |
| Text.Split | Scripts/Extensions/CollectionSerializationExtensions.cs:78 | `Split(',')` never returns an empty array |
| Text.SplitNoSeparator | Scripts/Implementations/YAMLSerializer.cs:17 | a text without the separator splits into itself |
| Text.SplitAtSeparator | Scripts/Implementations/YAMLSerializer.cs:17 | splitting `a + sep + b` is splitting `a`, then splitting `b` |
| Text.SplitJoinInts | Scripts/Extensions/CollectionSerializationExtensions.cs:95 | splitting the `", "`-joined dimensions at `,` gives each number's text, each after the first behind one blank |
| Text.ParseJoinedInts | Scripts/Extensions/CollectionSerializationExtensions.cs:78 | parsing the dimensions line that `WriteNDArray` wrote gives back exactly the dimensions |
| Text.FirstLineBack | Scripts/Implementations/YAMLDeserializer.cs:19 | `ReadLine` on a record without line breaks followed by `\n` returns the record and resumes right after the `\n` |
| Text.ReadBackRecords | Scripts/Implementations/YAMLDeserializer.cs:19 | `ReadLine` over the text of `WriteLine` calls returns the records one by one, when none holds a line break |
| Text.TextLinesOfBrokenLine | Scripts/Implementations/YAMLSerializer.cs:19 | a value holding a line feed is read back as at least two lines |
| Types.FieldsOf | Scripts/ReflectionSerializer.cs:14 | the field descriptors of a node, one per slot, in declaration order |
| Types.Classify | Scripts/ReflectionSerializer.cs:51-118 | the dispatcher's chain read as intended, first match wins; the result is Unsupported exactly for non-self-serializable classes and other types |
| Types.ClassifyAsWritten | Scripts/ReflectionSerializer.cs:113 | the chain as written never reaches the logging branch |
| Types.AsWrittenThrowsWhereIntendedSkips | Scripts/ReflectionSerializer.cs:113-118 | the written chain throws exactly where the intended one skips, and agrees with it everywhere else |
| Types.LongFieldIsRejected | Scripts/ReflectionSerializer.cs:194-202 | a `long` field is meant to be skipped but, as written, raises the constraint exception |
| Types.Assignable | Scripts/IDeserializer.cs:16-17 | the tag names a known type that is the declared type or one of its subtypes |
| Types.IsValueType | Scripts/ReflectionSerializer.cs:201-202 | the declared types whose `default` is not null |
| Types.KeyedByValue | Scripts/Extensions/CollectionSerializationExtensions.cs:47 | the key types a dictionary compares by value |
| Types.TypeName | Scripts/Extensions/CollectionSerializationExtensions.cs:22 | `Type.Name` of a declared type: the short name of a named type (`Types.ShortName`), `List`1`, `Dictionary`2`, or an element name with array brackets |
| Types.ShortName | Scripts/Extensions/CollectionSerializationExtensions.cs:30 | `Type.Name` from a full name: the result holds no `.`, `+` or `[`, so namespace, enclosing type and generic arguments are dropped |
| Types.ShortNameOfQualified | Scripts/Extensions/CollectionSerializationExtensions.cs:30 | a simple name under any namespace (`.`) or enclosing type (`+`) has that simple name as its `Type.Name` |
| Types.LongShortName | Scripts/Extensions/CollectionSerializationExtensions.cs:30 | `System.Int64` has the `Type.Name` `Int64` |
| Types.NestedShortName | Scripts/Extensions/CollectionSerializationExtensions.cs:30 | a nested class `Game.Outer+Inner` has the `Type.Name` `Inner` |
| Types.QualifiedElementMarker | Scripts/Extensions/CollectionSerializationExtensions.cs:30 | an array whose element type is `qualifier.n` or `qualifier+n` is marked `n[…]` with rank − 1 commas: `long[]` is marked `Int64[]` |
| Types.Default | Scripts/ReflectionSerializer.cs:202 | `default` is null exactly for reference types |
| Types.Assign | Scripts/ReflectionSerializer.cs:44 | `SetValue` stores a non-null value as is; a null leaves a value-type field at its default |
| Types.ArrayTypeName | Scripts/Extensions/CollectionSerializationExtensions.cs:30 | an array's `Type.Name` ends in `]`; its element part is the element's short name (`Types.QualifiedElementMarker`) |
| Types.CollectionMarker | Scripts/Extensions/CollectionSerializationExtensions.cs:9-30 | a non-null collection's marker is never the text `null`, which is the one comparison the readers make with it (`Types.QualifiedElementMarker` gives its exact text for arrays) |
| Types.Sanitize | Scripts/ReflectionSerializer.cs:10 | the regular expression `.*<(.*)>.*`: the text between the last `<` before the last `>` and that `>`, or the name unchanged |
| Types.SanitizeBackingField | Scripts/ReflectionSerializer.cs:23-24 | `<P>k__BackingField` is written under `P` |
| Types.SanitizePlainName | Scripts/ReflectionSerializer.cs:41-42 | a name without `<` is used unchanged |
| Types.InsertByToken | Scripts/ReflectionSerializer.cs:15 | insertion keeps a list of field indices and adds exactly the new one |
| Types.SortedPrefix | Scripts/ReflectionSerializer.cs:15 | sorting the first `n` fields lists `n` valid field indices |
| Types.WalkOrder | Scripts/ReflectionSerializer.cs:15 | `OrderBy(MetadataToken)` lists one valid index per field |
| Types.InsertKeepsOrder | Scripts/ReflectionSerializer.cs:15 | inserting a later field keeps the order by token, ties in declaration order |
| Types.SortedPrefixPermutes | Scripts/ReflectionSerializer.cs:15 | the sort is a permutation of the indices it sorts |
| Types.SortedPrefixOrdered | Scripts/ReflectionSerializer.cs:15 | the sort is ordered by token and stable |
| Types.WalkOrderVisitsEachFieldOnce | Scripts/ReflectionSerializer.cs:33-34 | the walk, shared by `Serialize` and `Deserialize`, visits every field exactly once, by increasing token, ties in declaration order |
| EnumText.EnumToString | Scripts/ReflectionSerializer.cs:59 | `value.ToString()`: the member's name, or the number when no member has that value |
| EnumText.NameOf | Scripts/ReflectionSerializer.cs:59 | the name found belongs to a member with that value; none found means no member has it |
| EnumText.ValueOf | Scripts/ReflectionSerializer.cs:130 | the value found belongs to the member of that name; none found means no member has it |
| EnumText.LookUp | Scripts/ReflectionSerializer.cs:130 | an unknown name is an argument error |
| EnumText.EnumParse | Scripts/ReflectionSerializer.cs:130 | `Enum.Parse` fails only with an argument or an overflow error |
| EnumText.IdentifierUnpadded | Scripts/ReflectionSerializer.cs:130 | a member name has no white space to trim |
| EnumText.NameRoundTrip | Scripts/ReflectionSerializer.cs:130 | `Enum.Parse` of a member's name gives that member's value |
| EnumText.EnumParseAcceptsNumber | Scripts/ReflectionSerializer.cs:130 | `Enum.Parse` of an integer's text gives that integer |
| EnumText.EnumTextRoundTrip | Scripts/ReflectionSerializer.cs:59 | `Enum.Parse(ToString(k))` is `k` for every 32-bit `k` of a well-formed enum, named or not |
| EnumText.EnumNameIsNotANumber | Scripts/Extensions/EnumSerializationExtensions.cs:7 | the name the dispatcher writes for a named value is not an integer |
| NDIndex.Prod | Scripts/Extensions/CollectionSerializationExtensions.cs:96 | `Aggregate(1, (a, b) => a * b)`: the number of cells |
| NDIndex.MemPos | Scripts/Extensions/CollectionSerializationExtensions.cs:104-116 | the flat position of an index tuple, dimension 0 fastest |
| NDIndex.ProdPositive | Scripts/Extensions/CollectionSerializationExtensions.cs:96 | with positive dimensions the length is positive |
| NDIndex.ProdNonNegative | Scripts/Extensions/CollectionSerializationExtensions.cs:80 | with non-negative dimensions the length is non-negative |
| NDIndex.PositiveWhenNonEmpty | Scripts/Extensions/CollectionSerializationExtensions.cs:80-81 | an array with a cell has no zero dimension |
| NDIndex.IndexFromMemPos | Scripts/Extensions/CollectionSerializationExtensions.cs:104-116 | `index[i] = (memPos / prod(dims[..i])) % dims[i]`, with one component per dimension |
| NDIndex.NDArrayIndexFromMemPos | Scripts/Extensions/CollectionSerializationExtensions.cs:104-116 | the source's nested loops over a fresh array compute exactly `IndexFromMemPos` |
| NDIndex.PeeledAgrees | Scripts/Extensions/CollectionSerializationExtensions.cs:109-113 | the closed form equals the index peeled one dimension at a time |
| NDIndex.MemPosInRange | Scripts/Extensions/CollectionSerializationExtensions.cs:81 | every in-bounds index tuple has a flat position inside the array |
| NDIndex.PeeledRoundTrip | Scripts/Extensions/CollectionSerializationExtensions.cs:104-116 | the peeled index of a position is in bounds and maps back to the position |
| NDIndex.PeeledOfMemPos | Scripts/Extensions/CollectionSerializationExtensions.cs:104-116 | the peeled index of an index's position is that index |
| NDIndex.IndexRoundTrip | Scripts/Extensions/CollectionSerializationExtensions.cs:104-116 | every position in `[0, prod(dims))` maps into the index box, and `MemPos` inverts it |
| NDIndex.PositionRoundTrip | Scripts/Extensions/CollectionSerializationExtensions.cs:104-116 | every in-bounds index is reached, by exactly its own position; with `IndexRoundTrip` this makes the mapping a bijection |
| NDIndex.FirstDimensionFastest | Scripts/Extensions/CollectionSerializationExtensions.cs:112-113 | the next position bumps only the first coordinate while it has room |
| Encoding.Line | Scripts/Implementations/YAMLSerializer.cs:14-20 | one `WriteYAMLLine` call: exactly one line, no exception |
| Encoding.NameOrNull | Scripts/Extensions/CollectionSerializationExtensions.cs:22 | a collection's first line: its type name, or `null` |
| Encoding.EncodeField | Scripts/ReflectionSerializer.cs:51-119 | the lines `SerializeField` writes and the exception that stops it, by the declared type's branch |
| Encoding.EncodeArray | Scripts/Extensions/CollectionSerializationExtensions.cs:28-35 | `WriteArray`: marker, and for a non-null array the length and each element |
| Encoding.EncodeList | Scripts/Extensions/CollectionSerializationExtensions.cs:20-27 | `WriteList`: marker, and for a non-null list the count and each element |
| Encoding.EncodeItems | Scripts/Extensions/CollectionSerializationExtensions.cs:25-26 | elements `i ..` in order, each under `name.Item[i]`, stopping at the first exception |
| Encoding.EncodeNDArray | Scripts/Extensions/CollectionSerializationExtensions.cs:90-102 | `WriteNDArray`: marker, and for a non-null array the joined dimensions and each cell |
| Encoding.EncodeCells | Scripts/Extensions/CollectionSerializationExtensions.cs:97-101 | the cells at flat positions `i ..` in order |
| Encoding.EncodeCell | Scripts/Extensions/CollectionSerializationExtensions.cs:99-100 | the cell at a flat position, under its index tuple's name |
| Encoding.EncodeDict | Scripts/Extensions/CollectionSerializationExtensions.cs:7-19 | `WriteDict`: marker, and for a non-null dictionary the count and each entry |
| Encoding.EncodePairs | Scripts/Extensions/CollectionSerializationExtensions.cs:13-18 | entries `i ..` in enumeration order: `Key[i]`, then `Value[i]` |
| Encoding.EncodeNode | Scripts/ISerializer.cs:10-17 | `WriteSerializable`: the runtime type's full name or `null`, then a non-null node's fields under `base.name` |
| Encoding.EncodeFields | Scripts/ReflectionSerializer.cs:17-26 | the fields `order[i..]` of a node, in walk order |
| Encoding.EncodeMember | Scripts/ReflectionSerializer.cs:19-25 | one field, under its sanitized name |
| Encoding.Then | Scripts/ReflectionSerializer.cs:17-26 | after an exception nothing more is written; otherwise the lines of both steps in order |
| Encoding.ScalarText | Scripts/ReflectionSerializer.cs:54-59 | a primitive branch fails only on a value of another type, or with an overflow for a uint above `int.MaxValue` |
| Encoding.NullIsOneLine | Scripts/Extensions/CollectionSerializationExtensions.cs:22-23 | a null list, array, N-D array, dictionary or node writes exactly the one line `name:null` |
| Encoding.UnsupportedWritesNothing | Scripts/ReflectionSerializer.cs:118 | a field of an unsupported type writes nothing and does not stop the walk |
| Encoding.NullStringWrittenAsEmpty | Scripts/Implementations/YAMLSerializer.cs:19 | a null string writes the same line as `""` |
| Encoding.LargeUIntOverflows | Scripts/ReflectionSerializer.cs:55 | a uint above `int.MaxValue` stops the walk with an overflow before writing |
| Encoding.EncodeFieldAsWritten | Scripts/ReflectionSerializer.cs:113-118 | the write dispatch as written, for the field's own declared type: an unsupported type stops the walk with the constraint exception; every other type writes as intended |
| Encoding.WriteAsWrittenStopsWhereIntendedSkips | Scripts/ReflectionSerializer.cs:113-118 | where the intended write skips a field of unsupported declared type and goes on, the one as written stops |
| Decoding.ReadLineAt | Scripts/Implementations/YAMLDeserializer.cs:14-26 | a read consumes one line, or fails with the mismatch exception naming the expected prefix |
| Decoding.ReadLineAtMeaning | Scripts/Implementations/YAMLDeserializer.cs:19-25 | a read succeeds exactly when the line exists and starts with the prefix; the value is the rest of the line |
| Decoding.ReadWrittenLine | Scripts/Implementations/YAMLDeserializer.cs:25 | the line written for a name and base is read back, under the same name and base, as the exact value |
| Decoding.ReadIntAt | Scripts/Implementations/YAMLDeserializer.cs:29 | `ReadInt` consumes exactly one existing line |
| Decoding.ReadBoolAt | Scripts/Implementations/YAMLDeserializer.cs:27 | `ReadBool` consumes exactly one existing line |
| Decoding.Cast | Scripts/ReflectionSerializer.cs:121 | the `(T)` cast passes a result through, and fails exactly on an earlier error or a null for a value type |
| Decoding.UIntOfInt | Scripts/ReflectionSerializer.cs:126 | `(uint)` of an int is the same number modulo 2^32 |
| Decoding.DecodeScalar | Scripts/ReflectionSerializer.cs:125-130 | a primitive branch consumes exactly one existing line |
| Decoding.DecodeField | Scripts/ReflectionSerializer.cs:122-203 | an unsupported type reads nothing and yields null; any other branch consumes at least one line |
| Decoding.DecodeFieldAsWritten | Scripts/ReflectionSerializer.cs:193-202 | the read dispatch as written, for the field's own declared type: an unsupported type raises the constraint exception; every other type reads as intended |
| Decoding.ReadAsWrittenThrowsWhereIntendedSkips | Scripts/ReflectionSerializer.cs:193-202 | where the intended read of a field of unsupported declared type yields null without consuming a line, the one as written throws |
| Decoding.DecodeFieldGeneric | Scripts/ReflectionSerializer.cs:121 | the generic read never moves backwards or past the file |
| Decoding.DecodeArray | Scripts/Extensions/CollectionSerializationExtensions.cs:61-70 | `ReadArray` consumes at least its marker line and stays inside the file |
| Decoding.DecodeList | Scripts/Extensions/CollectionSerializationExtensions.cs:51-60 | `ReadList` consumes at least its marker line and stays inside the file |
| Decoding.DecodeItems | Scripts/Extensions/CollectionSerializationExtensions.cs:57-58 | the element loop returns exactly `Size` elements |
| Decoding.DecodeNDArray | Scripts/Extensions/CollectionSerializationExtensions.cs:73-87 | `ReadNDArray` consumes at least its marker line and stays inside the file |
| Decoding.DecodeShaped | Scripts/Extensions/CollectionSerializationExtensions.cs:77-86 | reading the cells never moves backwards or past the file, and yields an array |
| Decoding.DecodeCells | Scripts/Extensions/CollectionSerializationExtensions.cs:81-85 | filling the cells keeps the array's length |
| Decoding.CellPos | Scripts/Extensions/CollectionSerializationExtensions.cs:84 | `SetValue` at the index tuple of a position stores inside the array |
| Decoding.CellInRange | Scripts/Extensions/CollectionSerializationExtensions.cs:83-84 | the index tuple of a position is in bounds and its flat position is inside the array |
| Decoding.DecodeCell | Scripts/Extensions/CollectionSerializationExtensions.cs:83-84 | reading one cell never moves backwards or past the file |
| Decoding.DecodeDict | Scripts/Extensions/CollectionSerializationExtensions.cs:37-50 | `ReadDict` consumes at least its marker line and stays inside the file; a dictionary read has no null key and no repeated value-compared key |
| Decoding.DecodeEntries | Scripts/Extensions/CollectionSerializationExtensions.cs:41-49 | the rest of `ReadDict` yields a dictionary whose keys `Add` accepted: none null, value-compared ones distinct |
| Decoding.DecodePairs | Scripts/Extensions/CollectionSerializationExtensions.cs:43-48 | the entry loop adds exactly `Size` entries after those already there, and keeps the keys valid |
| Decoding.AddKeepsValidKeys | Scripts/Extensions/CollectionSerializationExtensions.cs:47 | adding a non-null key not yet present keeps every key non-null and the value-compared keys distinct |
| Decoding.DecodeEntry | Scripts/Extensions/CollectionSerializationExtensions.cs:45-47 | reading one entry never moves backwards or past the file; an entry added has a non-null key not already present |
| Decoding.NullKeyRejected | Scripts/Extensions/CollectionSerializationExtensions.cs:47 | a null key read back stops the dictionary read with `Add`'s null-argument exception |
| Decoding.DuplicateKeyRejected | Scripts/Extensions/CollectionSerializationExtensions.cs:47 | a value-compared key already present stops the dictionary read with `Add`'s argument exception |
| Decoding.NewKeyAdded | Scripts/Extensions/CollectionSerializationExtensions.cs:47 | any other key is added with its value and the read goes on right after the value |
| Decoding.Blank | Scripts/IDeserializer.cs:18 | the uninitialised instance has every field at its type's default |
| Decoding.DecodeNode | Scripts/IDeserializer.cs:11-21 | `ReadSerializable` consumes at least its tag line and stays inside the file; its tag cases are the lemmas below |
| Decoding.NodeTagYieldsNull | Scripts/IDeserializer.cs:16-18 | a tag that is `null` in any letter case, unknown, or not assignable to the declared type yields null after the tag line alone |
| Decoding.NodeTagOpensNode | Scripts/IDeserializer.cs:15-18 | any other tag gives the node of that type with the fields read from the next line on under `base.name`, or their exception |
| Decoding.ListMarkerIsCaseSensitive | Scripts/Extensions/CollectionSerializationExtensions.cs:54 | `ReadList` yields null only for the exact marker `null`; any other marker goes on to the size line and yields a list |
| Decoding.ArrayMarkerIsCaseSensitive | Scripts/Extensions/CollectionSerializationExtensions.cs:64 | the same for `ReadArray` |
| Decoding.NDArrayMarkerIsCaseSensitive | Scripts/Extensions/CollectionSerializationExtensions.cs:76 | the same for `ReadNDArray`, whose size line holds the dimensions |
| Decoding.DictMarkerIsCaseSensitive | Scripts/Extensions/CollectionSerializationExtensions.cs:40 | the same for `ReadDict` |
| Decoding.UpperCaseNullMarker | Scripts/IDeserializer.cs:16 | the marker `NULL` reads as a null node but not as a null list |
| Decoding.DecodeFields | Scripts/ReflectionSerializer.cs:36-45 | filling the fields keeps one slot per field |
| Decoding.DecodeMember | Scripts/ReflectionSerializer.cs:38-43 | reading one field never moves backwards or past the file |
| YamlWriter.YamlSerializer.constructor | Scripts/Implementations/YAMLSerializer.cs:10-11 | a new writer has an empty file and a null base name |
| YamlWriter.YamlSerializer.WriteYamlLine | Scripts/Implementations/YAMLSerializer.cs:14-20 | appends exactly one line (tabs, last segment, `:`, value) and leaves the base name unchanged |
| YamlWriter.YamlSerializer.WriteBool | Scripts/Implementations/YAMLSerializer.cs:21 | appends the line holding `True` or `False` |
| YamlWriter.YamlSerializer.WriteFloat | Scripts/Implementations/YAMLSerializer.cs:22 | appends the line holding the float's text |
| YamlWriter.YamlSerializer.WriteInt | Scripts/Implementations/YAMLSerializer.cs:23 | appends the line holding the invariant integer text |
| YamlWriter.YamlSerializer.WriteString | Scripts/Implementations/YAMLSerializer.cs:24 | appends the line holding the string verbatim |
| YamlReader.YamlDeserializer.constructor | Scripts/Implementations/YAMLDeserializer.cs:10-11 | a new reader is at the first line, open, with a null base name |
| YamlReader.YamlDeserializer.ReadYamlLine | Scripts/Implementations/YAMLDeserializer.cs:14-26 | follows `ReadLineAt`: one line consumed, the rest returned; on a mismatch or at end of file the stream is disposed and the mismatch thrown |
| YamlReader.YamlDeserializer.ReadInt | Scripts/Implementations/YAMLDeserializer.cs:29 | follows `ReadIntAt`; a parse error leaves the stream open |
| YamlReader.YamlDeserializer.ReadBool | Scripts/Implementations/YAMLDeserializer.cs:27 | follows `ReadBoolAt` |
| YamlReader.YamlDeserializer.ReadFloat | Scripts/Implementations/YAMLDeserializer.cs:28 | returns the float's text as read |
| YamlReader.YamlDeserializer.ReadString | Scripts/Implementations/YAMLDeserializer.cs:30 | returns the rest of the line unchanged |
| Serialization.SerializeField | Scripts/ReflectionSerializer.cs:51-119 | appends exactly `EncodeField`'s lines and raises its exception; the base name is unchanged on success |
| Serialization.WriteArray | Scripts/Extensions/CollectionSerializationExtensions.cs:28-35 | appends exactly `EncodeArray`'s lines |
| Serialization.WriteList | Scripts/Extensions/CollectionSerializationExtensions.cs:20-27 | appends exactly `EncodeList`'s lines |
| Serialization.WriteItems | Scripts/Extensions/CollectionSerializationExtensions.cs:25-26 | the element loop appends exactly `EncodeItems`' lines, stopping at the first exception |
| Serialization.WriteNDArray | Scripts/Extensions/CollectionSerializationExtensions.cs:90-102 | appends exactly `EncodeNDArray`'s lines |
| Serialization.WriteCells | Scripts/Extensions/CollectionSerializationExtensions.cs:97-101 | the cell loop appends exactly `EncodeCells`' lines |
| Serialization.WriteCell | Scripts/Extensions/CollectionSerializationExtensions.cs:99-100 | one turn writes the cell at its position's index tuple, under that tuple's path |
| Serialization.WriteDict | Scripts/Extensions/CollectionSerializationExtensions.cs:7-19 | appends exactly `EncodeDict`'s lines |
| Serialization.WritePairs | Scripts/Extensions/CollectionSerializationExtensions.cs:12-18 | the entry loop writes `Key[i]` then `Value[i]` for each entry, as `EncodePairs` says |
| Serialization.WriteSerializable | Scripts/ISerializer.cs:10-17 | appends exactly `EncodeNode`'s lines; the base name is restored on success |
| Serialization.Serialize | Scripts/ReflectionSerializer.cs:11-27 | writes every field in metadata-token order under its sanitized name, exactly `EncodeFields` over `WalkOrder` |
| Serialization.SerializeMember | Scripts/ReflectionSerializer.cs:19-25 | one turn writes one field under its sanitized name |
| Deserialization.BlankFields | Scripts/IDeserializer.cs:18 | the blank instance has exactly the fields of its type |
| Deserialization.DeserializeFieldGeneric | Scripts/ReflectionSerializer.cs:121 | follows `DecodeFieldGeneric`: same value, same cursor, same exception, disposed exactly on a mismatch |
| Deserialization.DeserializeField | Scripts/ReflectionSerializer.cs:122-203 | follows `DecodeField`; the base name is unchanged on success |
| Deserialization.ReadScalar | Scripts/ReflectionSerializer.cs:125-130 | follows `DecodeScalar`, including the `(uint)` wrap and `Enum.Parse` |
| Deserialization.ReadArray | Scripts/Extensions/CollectionSerializationExtensions.cs:61-70 | follows `DecodeArray` |
| Deserialization.ReadArrayItems | Scripts/Extensions/CollectionSerializationExtensions.cs:67-68 | the loop fills the array exactly as `DecodeItems` says |
| Deserialization.ReadItem | Scripts/Extensions/CollectionSerializationExtensions.cs:68 | one turn stores element `i`, and the rest of the read is what `DecodeItems` has left |
| Deserialization.ReadList | Scripts/Extensions/CollectionSerializationExtensions.cs:51-60 | follows `DecodeList` |
| Deserialization.ReadListItems | Scripts/Extensions/CollectionSerializationExtensions.cs:57-58 | the `list.Add` loop follows `DecodeItems` |
| Deserialization.ReadNDArray | Scripts/Extensions/CollectionSerializationExtensions.cs:73-87 | follows `DecodeNDArray` |
| Deserialization.ReadShaped | Scripts/Extensions/CollectionSerializationExtensions.cs:77-86 | parsing the dimensions, creating the array and filling it follows `DecodeShaped` |
| Deserialization.ReadCells | Scripts/Extensions/CollectionSerializationExtensions.cs:81-85 | the `SetValue` loop leaves the array as `DecodeCells` says |
| Deserialization.ReadCell | Scripts/Extensions/CollectionSerializationExtensions.cs:83-84 | one turn stores the cell at its index tuple's position |
| Deserialization.ReadDict | Scripts/Extensions/CollectionSerializationExtensions.cs:37-50 | follows `DecodeDict` |
| Deserialization.ReadPairs | Scripts/Extensions/CollectionSerializationExtensions.cs:41-48 | the `dict.Add` loop follows `DecodeEntries` |
| Deserialization.ReadEntry | Scripts/Extensions/CollectionSerializationExtensions.cs:45-47 | one turn reads the key and value and raises `Add`'s exception for a null or repeated key |
| Deserialization.ReadSerializable | Scripts/IDeserializer.cs:11-21 | follows `DecodeNode`: a `null` tag in any letter case, an unknown tag or an unassignable tag yields null with no nested reads; the base name is restored on success |
| Deserialization.Deserialize | Scripts/ReflectionSerializer.cs:29-47 | follows `DecodeFields` over `WalkOrder`, the same walk `Serialize` uses |
| Deserialization.FillFields | Scripts/ReflectionSerializer.cs:36-45 | the field loop follows `DecodeFields` |
| Deserialization.DeserializeMember | Scripts/ReflectionSerializer.cs:38-44 | one turn reads one field under its sanitized name and stores it with `SetValue` |
| EnumExtensions.WriteEnum | Scripts/Extensions/EnumSerializationExtensions.cs:3-4 | appends one int line at `name`, base name unchanged |
| EnumExtensions.ReadEnum | Scripts/Extensions/EnumSerializationExtensions.cs:6-7 | follows `ReadIntAt` at `name`; any 32-bit number is accepted |
| EnumExtensions.EnumRoundTrip | Scripts/Extensions/EnumSerializationExtensions.cs:3-7 | `ReadEnum` after `WriteEnum` at the same path returns the same value and consumes that line |
| EnumExtensions.DispatcherReadsIntegralEnum | Scripts/ReflectionSerializer.cs:130 | the dispatcher's `Enum.Parse` accepts the number `WriteEnum` writes |
| EnumExtensions.IntegralReaderRejectsEnumName | Scripts/Extensions/EnumSerializationExtensions.cs:6-7 | `ReadEnum` rejects the member name the dispatcher writes for a named value |
| RoundTrip.AtLine | Scripts/Implementations/YAMLDeserializer.cs:25 | the line of a `WriteYAMLLine` is read back by `ReadYAMLLine` with the same name |
| RoundTrip.ScalarWritten | Scripts/ReflectionSerializer.cs:54-59 | a representable primitive is written as one line holding its text |
| RoundTrip.ScalarReads | Scripts/ReflectionSerializer.cs:125-130 | that text reads back as the same primitive, including uint and enum |
| RoundTrip.ScalarRoundTrip | Scripts/ReflectionSerializer.cs:125-130 | a primitive field reads back as written and consumes its one line |
| RoundTrip.UnsupportedRoundTrip | Scripts/ReflectionSerializer.cs:201-202 | an unsupported field (null) writes nothing and reads back as null without moving |
| RoundTrip.ListRoundTrip | Scripts/Extensions/CollectionSerializationExtensions.cs:51-60 | `ReadList` over what `WriteList` wrote returns the same items |
| RoundTrip.ListFieldRoundTrip | Scripts/ReflectionSerializer.cs:160-171 | a list field, null or not, reads back as written |
| RoundTrip.ItemsRoundTrip | Scripts/Extensions/CollectionSerializationExtensions.cs:57-58 | elements `i ..` come back in order, each from `name.Item[i]` |
| RoundTrip.ArrayRoundTrip | Scripts/Extensions/CollectionSerializationExtensions.cs:61-70 | `ReadArray` over what `WriteArray` wrote returns the same array |
| RoundTrip.ArrayFieldRoundTrip | Scripts/ReflectionSerializer.cs:136-150 | a rank-1 array field, null or not, reads back as written |
| RoundTrip.NDArrayRoundTrip | Scripts/Extensions/CollectionSerializationExtensions.cs:73-87 | `ReadNDArray` over what `WriteNDArray` wrote returns the same dimensions and cells |
| RoundTrip.NDArrayFieldRoundTrip | Scripts/ReflectionSerializer.cs:151-157 | an array field of rank 2 or more, null or not, reads back as written |
| RoundTrip.ShapeParses | Scripts/Extensions/CollectionSerializationExtensions.cs:78 | the dimensions line parses back to the dimensions |
| RoundTrip.ShapedReads | Scripts/Extensions/CollectionSerializationExtensions.cs:79-86 | the fresh array of that shape is filled with exactly the cells written |
| RoundTrip.CellsRoundTrip | Scripts/Extensions/CollectionSerializationExtensions.cs:81-85 | cells `i ..` come back, each stored at its own position over the fresh array's defaults |
| RoundTrip.CellIs | Scripts/Extensions/CollectionSerializationExtensions.cs:99-100 | the cell written at a position sits under that position's index path, and the reader stores it back at that position |
| RoundTrip.DictRoundTrip | Scripts/Extensions/CollectionSerializationExtensions.cs:37-50 | `ReadDict` over what `WriteDict` wrote returns the same entries in the same order |
| RoundTrip.DictFieldRoundTrip | Scripts/ReflectionSerializer.cs:173-190 | a dictionary field, null or not, reads back as written |
| RoundTrip.PairsRoundTrip | Scripts/Extensions/CollectionSerializationExtensions.cs:43-48 | entries `i ..` come back in enumeration order, and `Add` accepts every one |
| RoundTrip.KeyIsNew | Scripts/Extensions/CollectionSerializationExtensions.cs:47 | each written key is non-null and, for value-compared keys, not already present |
| RoundTrip.NodeRoundTrip | Scripts/IDeserializer.cs:11-21 | `ReadSerializable` over what `WriteSerializable` wrote rebuilds the node: every supported field as written, every unsupported one at its default |
| RoundTrip.NodeNullReads | Scripts/IDeserializer.cs:16 | a `null` tag reads back as null after the one line |
| RoundTrip.NodeFieldRoundTrip | Scripts/ReflectionSerializer.cs:194-199 | a node field, null or not, reads back as written |
| RoundTrip.Stored | Scripts/ReflectionSerializer.cs:44 | the slots after the fields `order[i..]` of `obj` were stored: exactly those taken from `obj` |
| RoundTrip.Restore | Scripts/ReflectionSerializer.cs:44 | the object a round trip rebuilds: same type and fields, every supported field as written, every unsupported one at its default |
| RoundTrip.RestoreRepresentable | Scripts/ReflectionSerializer.cs:201-202 | an object whose unsupported fields are already at their default is rebuilt unchanged |
| RoundTrip.StoredInWalkOrder | Scripts/ReflectionSerializer.cs:33-34 | storing the whole walk leaves exactly the fields of `obj`, whatever the target held |
| RoundTrip.FieldsRoundTrip | Scripts/ReflectionSerializer.cs:36-45 | the field loop over what `Serialize` wrote from field `i` on stores those fields' values, the unsupported ones at their default |
| RoundTrip.ReadBack | Scripts/ReflectionSerializer.cs:201-202 | what reading a field back yields: its value for every supported type |
| RoundTrip.SlotReadBack | Scripts/ReflectionSerializer.cs:44 | storing what was read back with `SetValue` gives the field its restored value: as written, or the default when unsupported |
| RoundTrip.MemberRoundTrip | Scripts/ReflectionSerializer.cs:38-44 | one field is read back as written, or as null when unsupported |
| RoundTrip.FieldGenericRoundTrip | Scripts/ReflectionSerializer.cs:121 | the generic read never casts a representable value to a failing null |
| RoundTrip.FieldRoundTrip | Scripts/ReflectionSerializer.cs:51-203 | for every declared type and representable value, `DeserializeField` over `SerializeField`'s lines returns the value and stops right after them |
| RoundTrip.SerializeThenDeserialize | Scripts/ReflectionSerializer.cs:11-47 | `Deserialize` over the lines `Serialize` wrote sets every field of any same-shaped target: supported fields to the original's value, unsupported ones to their default |
| RoundTrip.UnsupportedFieldIsReset | Scripts/ReflectionSerializer.cs:201-202 | an unsupported field always comes back at its default, so an object holding another value there does not survive the round trip |
| RoundTrip.FileRoundTrip | Scripts/Implementations/YAMLDeserializer.cs:19 | the same through the text file when no written line holds a line break |

## Left out

- Streams, file paths and `Dispose` of the writer. The writer's file is its list of records; the reader's file is `TextLines` of the text (`ReadLine` splitting at `\r\n`, `\r` and `\n`).
- Float formatting and parsing. A float is carried as its invariant-culture text and is read back as that text; no numeric value is modelled. This includes duplicate detection for `float` dictionary keys: `Decoding.DecodeEntry` compares keys as text, so `0` and `-0`, or `1` and `1.0`, are accepted as distinct keys where `Dictionary.Add` rejects the second as a duplicate.
- Culture: int and bool use their invariant forms; `StartsWith` is ordinal. The culture-sensitive `StartsWith(string)` of the source is not modelled.
- `ToLower` in `ReadSerializable` is modelled on the ASCII range only. A non-ASCII tag that lower-cases to `null` is not modelled.
- Enum member names are ASCII identifiers (`EnumText.IsIdentifier`). C# also allows non-ASCII letters in member names; such enums are left out of the round trip.
- Flags enums, and enums with an underlying type other than `int`: `ToString` and `Enum.Parse` are modelled for plain int enums, with comma-separated flag lists left out.
- `Enum.Parse` of a non-numeric text is modelled as an exact, case-sensitive match of the trimmed text against a member name.
- The regular expression at `ReflectionSerializer.cs:10` is modelled by `Types.Sanitize` on one-line names (the last `<` before the last `>`). Names holding line breaks, where `.` stops matching, are left out.
- A node type that overrides `ISerializable<T>.Serialize` or `Deserialize` with its own code. Every node uses the default methods, that is `ReflectionSerializer`.
- Struct nodes: nodes are reference types, so a null node reads back as null. The boxing at `ReflectionSerializer.cs:31` therefore needs no model.
- Encoding.EncodeFieldAsWritten: raises the constraint exception only for the field's own declared type. In the program every element, key, value and nested node field goes back through `SerializeField`, so a `List<long>` writes its marker and size lines and then throws at `Item[0]`. The model's components are dispatched as intended, which skips them. A second copy of every encoder keyed on the as-written classification would be needed, and is not part of this model.
- Decoding.DecodeFieldAsWritten: the same limit on the read side. A nested component of unsupported type is read as intended, where the program throws at `ReflectionSerializer.cs:194`.
- Text.ParseBool: trims the ASCII white space `Text.IsWhite` names and folds ASCII letter case only. `bool.Parse` also trims other Unicode white space and NUL characters, and compares ignoring case beyond ASCII; those inputs are left out.
- Reflection `Invoke` wraps exceptions in `TargetInvocationException`; the model raises the inner exception.
- `UnityEngine.Debug.LogError` is modelled as a no-op.
- After an exception, the base name holds whatever the failing call left there. Only the successful case promises that it is restored.
- The composite readers in `Deserialization` require a reader that is not yet disposed. The backend reader models the disposed case (`ObjectDisposed`), and a composite read never meets it, because a mismatch is propagated at once.
- `Array.CreateInstance` and `new T[n]` are modelled by their exceptions only: a negative length, or a total past `int.MaxValue`. Memory limits below that are left out.
- Types.TypeName: the marker is computed from the field's declared type, while the program writes `GetType().Name` of the runtime value. The two differ under array covariance (a `Base[]` field holding a `Derived[]`) and for subclasses of `List<T>` or `Dictionary<K, V>`. Generic type names are taken as `List`1` and `Dictionary`2`; for other named types `Types.ShortName` drops everything from the first `[`, and the arity suffix of a generic class is part of its name. The readers compare the marker only with `null`, so the round trip does not depend on its exact text.
- Failures.RankMismatch stands for two exceptions. For a top-level N-D array field it is the `ArgumentException` of `SetValue` (`ReflectionSerializer.cs:44`). For an N-D array that is an element, key or value, it is the `InvalidCastException` of the generic cast (`ReflectionSerializer.cs:121`). The model does not tell them apart.
- Rank-0 arrays do not exist in .NET and are never classified.
- Dictionary enumeration order and hashing: a dictionary is the sequence of its entries in enumeration order. Keys of reference type compare by reference, so the model never rejects them as duplicates.
- RoundTrip.FieldRoundTrip: proved for the representable values (`RoundTrip.Representable`):
  - a uint at most `int.MaxValue`; a larger one overflows on write (`Encoding.LargeUIntOverflows`);
  - enums whose members have distinct identifier names;
  - collections of at most `int.MaxValue` elements and dimensions;
  - dictionary keys that are non-null and, when compared by value, distinct;
  - nodes whose runtime type the reader resolves, with the same fields;
  - a null only where the declared type is a reference type;
  - unsupported fields of nested nodes only when at their default. A top-level object (`RoundTrip.SerializeThenDeserialize`, `RoundTrip.NodeRoundTrip`) may hold any value there; it comes back at the default (`RoundTrip.Restore`).
- RoundTrip.FieldRoundTrip: a null string is written as the empty string and reads back as `""`, not null (`Encoding.NullStringWrittenAsEmpty`). So a null string is not representable.
- Object graphs are finite trees. A node referenced from two fields is written twice and read back as two distinct instances, so sharing is lost. A cyclic graph makes `Serialize` and `WriteSerializable` recurse without end (`ReflectionSerializer.cs:113-116`, `ISerializer.cs:15`); values here cannot be cyclic, so that case is not modelled.
- A value of an unsupported value type (a `long`, a struct) is an opaque number; its `default` is 0. Nothing about its contents is modelled, since the codec never writes it.
- RoundTrip.FileRoundTrip: stated for values whose written lines hold no line break. A value with a line feed is read back as several lines (`Text.TextLinesOfBrokenLine`).

## Findings

| source | as written | input that shows it | evidently intended | confidence | as-written member | corrected member |
|---|---|---|---|---|---|---|
| Scripts/ReflectionSerializer.cs:113 | The last test before the fallback is `typeof(ISerializable<>).MakeGenericType(type)`. It is evaluated for every type that reached it. `ISerializable<T>` constrains `T : ISerializable<T>`, so for any other type `MakeGenericType` throws an `ArgumentException`. `LogError` at line 118, and the same fallback at lines 194-202, are never reached. | a field of type `long` (or `double`, or a class that is not `ISerializable` of itself) | an unsupported field is logged and skipped when writing, and read back as `default` | not executed | Types.ClassifyAsWritten, Encoding.EncodeFieldAsWritten, Decoding.DecodeFieldAsWritten (Types.AsWrittenThrowsWhereIntendedSkips, Types.LongFieldIsRejected, Encoding.WriteAsWrittenStopsWhereIntendedSkips, Decoding.ReadAsWrittenThrowsWhereIntendedSkips) | Types.Classify |

=== FILE: decoding.dfy ===
/**
 * What the reflection deserializer reads, as a function of the file's lines and the
 * position of the next unread line: the value built and the position after it, or the
 * exception that stops the read.
 */
module Decoding {
  import opened Failures
  import opened Text
  import opened Paths
  import opened Types
  import opened NDIndex
  import opened EnumText

  /** `ReadYAMLLine(name)` at line `pos`: the line must start with the expected prefix; the rest is the value. */
  function ReadLineAt(lines: seq<string>, pos: nat, base: Option<string>, name: string): (r: Result<(string, nat)>)
    ensures r.Ok? ==> r.value.1 == pos + 1 && pos < |lines|
    ensures r.Err? ==> r.failure == LineMismatch(LinePrefix(base, name))
  {
    var prefix := LinePrefix(base, name);
    if pos < |lines| && prefix <= lines[pos] then
      Ok((lines[pos][|prefix|..], pos + 1))
    else Err(LineMismatch(prefix))
  }

  /** A line is read exactly when it exists and starts with the expected prefix; the value is the rest of the line. */
  lemma ReadLineAtMeaning(lines: seq<string>, pos: nat, base: Option<string>, name: string)
    ensures var r := ReadLineAt(lines, pos, base, name);
      (r.Ok? <==> pos < |lines| && LinePrefix(base, name) <= lines[pos]) &&
      (r.Ok? ==> lines[pos] == LinePrefix(base, name) + r.value.0)
  {
    var prefix := LinePrefix(base, name);
    if pos < |lines| && prefix <= lines[pos] {
      assert lines[pos] == prefix + lines[pos][|prefix|..];
    }
  }

  /** The line the writer made for `name` under the same base name is read back as the value written. */
  lemma ReadWrittenLine(lines: seq<string>, pos: nat, base: Option<string>, name: string, text: string)
    requires pos < |lines| && lines[pos] == LineText(base, name, text)
    ensures ReadLineAt(lines, pos, base, name) == Ok((text, pos + 1))
  {
    var prefix := LinePrefix(base, name);
    assert lines[pos][..|prefix|] == prefix;
    assert lines[pos][|prefix|..] == text;
  }

  /** `ReadInt(name)`: the line's value parsed as an invariant-culture int. */
  function ReadIntAt(lines: seq<string>, pos: nat, base: Option<string>, name: string): (r: Result<(int32, nat)>)
    ensures r.Ok? ==> r.value.1 == pos + 1 && pos < |lines|
  {
    match ReadLineAt(lines, pos, base, name)
    case Err(f) => Err(f)
    case Ok((text, next)) =>
      match ParseInt(text)
      case Err(f) => Err(f)
      case Ok(i) => Ok((i, next))
  }

  /** `ReadBool(name)`: the line's value parsed by bool.Parse. */
  function ReadBoolAt(lines: seq<string>, pos: nat, base: Option<string>, name: string): (r: Result<(bool, nat)>)
    ensures r.Ok? ==> r.value.1 == pos + 1 && pos < |lines|
  {
    match ReadLineAt(lines, pos, base, name)
    case Err(f) => Err(f)
    case Ok((text, next)) =>
      match ParseBool(text)
      case Err(f) => Err(f)
      case Ok(b) => Ok((b, next))
  }

  /** `DeserializeFieldGeneric<T>`: the `(T)` cast, which fails on a null for a value type. */
  function Cast(t: Type, r: Result<(Value, nat)>): (c: Result<(Value, nat)>)
    ensures c.Ok? ==> c == r
    ensures c.Err? <==> r.Err? || (r.value.0 == Null && IsValueType(t))
  {
    if r.Ok? && r.value.0 == Null && IsValueType(t) then Err(NullReference) else r
  }

  /** The unchecked `(uint)` cast of an int: a negative value wraps around modulo 2^32. */
  function UIntOfInt(i: int32): (u: uint32)
    ensures u % 0x1_0000_0000 == i % 0x1_0000_0000
  {
    if i < 0 then i + 0x1_0000_0000 else i
  }

  /** A position no earlier than `pos`, past `pos` only when the lines in between exist. */
  predicate Advanced(lines: seq<string>, pos: nat, next: nat)
  {
    pos <= next && (pos < next ==> next <= |lines|)
  }

  /**
   * A primitive branch of `DeserializeField`: one line read through the backend and converted
   * (`(uint)` of the int read, `Enum.Parse` of the text read).
   */
  function DecodeScalar(base: Option<string>, t: Type, name: string, lines: seq<string>, pos: nat)
    : (r: Result<(Value, nat)>)
    requires IsScalar(Classify(t))
    ensures r.Ok? ==> r.value.1 == pos + 1 && pos < |lines|
  {
    match Classify(t)
    case IntField =>
      (match ReadIntAt(lines, pos, base, name)
       case Err(f) => Err(f)
       case Ok((i, next)) => Ok((IntV(i), next)))
    case UIntField =>
      (match ReadIntAt(lines, pos, base, name)
       case Err(f) => Err(f)
       case Ok((i, next)) => Ok((UIntV(UIntOfInt(i)), next)))
    case FloatField =>
      (match ReadLineAt(lines, pos, base, name)
       case Err(f) => Err(f)
       case Ok((text, next)) => Ok((FloatV(text), next)))
    case StringField =>
      (match ReadLineAt(lines, pos, base, name)
       case Err(f) => Err(f)
       case Ok((text, next)) => Ok((StrV(text), next)))
    case BoolField =>
      (match ReadBoolAt(lines, pos, base, name)
       case Err(f) => Err(f)
       case Ok((b, next)) => Ok((BoolV(b), next)))
    case EnumField =>
      (match ReadLineAt(lines, pos, base, name)
       case Err(f) => Err(f)
       case Ok((text, next)) =>
         match EnumParse(t.members, text)
         case Err(f) => Err(f)
         case Ok(k) => Ok((EnumV(k), next)))
  }

  /** `DeserializeField(type, name)`: the dispatcher's branch for the declared type. */
  function DecodeField(reg: Registry, base: Option<string>, t: Type, name: string, lines: seq<string>, pos: nat)
    : (r: Result<(Value, nat)>)
    ensures r.Ok? && Classify(t) == Unsupported ==> r.value == (Null, pos)
    ensures r.Ok? && Classify(t) != Unsupported ==> pos < r.value.1 <= |lines|
    decreases |lines| - pos, 2, 0
  {
    match Classify(t)
    case ArrayField => DecodeArray(reg, base, t.elem, name, lines, pos)
    case NDArrayField =>
      (match DecodeNDArray(reg, base, t.elem, name, lines, pos)
       case Err(f) => Err(f)
       case Ok((v, next)) =>
         // the array built has the rank written in the file; storing it in the field checks the declared rank
         if v.ArrayV? && |v.dims| != t.rank then Err(RankMismatch) else Ok((v, next)))
    case ListField => DecodeList(reg, base, t.elem, name, lines, pos)
    case DictField => DecodeDict(reg, base, t.key, t.val, name, lines, pos)
    case NodeField => DecodeNode(reg, base, t.className, name, lines, pos)
    case Unsupported => Ok((Null, pos))  // logged, default(object)
    case IntField | UIntField | FloatField | StringField | BoolField | EnumField => DecodeScalar(base, t, name, lines, pos)
  }

  /**
   * The read dispatch as written: for a type outside the supported kinds, instantiating
   * `ISerializable<type>` throws before the logging branch is reached.
   */
  function DecodeFieldAsWritten(reg: Registry, base: Option<string>, t: Type, name: string, lines: seq<string>, pos: nat)
    : (r: Result<(Value, nat)>)
    ensures Classify(t) == Unsupported ==> r == Err(ConstraintViolation)
    ensures Classify(t) != Unsupported ==> r == DecodeField(reg, base, t, name, lines, pos)
  {
    AsWrittenThrowsWhereIntendedSkips(t);
    if ClassifyAsWritten(t) == ConstraintFailure then Err(ConstraintViolation) else DecodeField(reg, base, t, name, lines, pos)
  }

  /** Where the intended dispatch reads `default` without consuming a line, the one as written throws. */
  lemma ReadAsWrittenThrowsWhereIntendedSkips(reg: Registry, base: Option<string>, t: Type, name: string,
                                              lines: seq<string>, pos: nat)
    requires Classify(t) == Unsupported
    ensures DecodeField(reg, base, t, name, lines, pos) == Ok((Null, pos))
    ensures DecodeFieldAsWritten(reg, base, t, name, lines, pos) == Err(ConstraintViolation)
  {
  }

  /** `DeserializeFieldGeneric<T>(name)`: `DeserializeField(typeof(T), name)` cast to `T`. */
  function DecodeFieldGeneric(reg: Registry, base: Option<string>, t: Type, name: string, lines: seq<string>, pos: nat)
    : (r: Result<(Value, nat)>)
    ensures r.Ok? ==> Advanced(lines, pos, r.value.1)
    decreases |lines| - pos, 2, 1
  {
    Cast(t, DecodeField(reg, base, t, name, lines, pos))
  }

  /** `ReadArray`: marker, length (`new T[n]` rejects a negative one), then each element. */
  function DecodeArray(reg: Registry, base: Option<string>, elem: Type, name: string, lines: seq<string>, pos: nat)
    : (r: Result<(Value, nat)>)
    ensures r.Ok? ==> pos < r.value.1 <= |lines|
    decreases |lines| - pos, 1, 0
  {
    match ReadLineAt(lines, pos, base, name)
    case Err(f) => Err(f)
    case Ok((marker, p1)) =>
      if marker == "null" then Ok((Null, p1))
      else
        match ReadIntAt(lines, p1, base, SizePath(name))
        case Err(f) => Err(f)
        case Ok((n, p2)) =>
          if n < 0 then Err(Overflow)
          else
            match DecodeItems(reg, base, elem, name, n, lines, p2, [])
            case Err(f) => Err(f)
            case Ok((items, p3)) => Ok((ArrayV([|items|], items), p3))
  }

  /** `ReadList`: marker, count (`new List<T>(n)` rejects a negative one), then each element. */
  function DecodeList(reg: Registry, base: Option<string>, elem: Type, name: string, lines: seq<string>, pos: nat)
    : (r: Result<(Value, nat)>)
    ensures r.Ok? ==> pos < r.value.1 <= |lines|
    decreases |lines| - pos, 1, 0
  {
    match ReadLineAt(lines, pos, base, name)
    case Err(f) => Err(f)
    case Ok((marker, p1)) =>
      if marker == "null" then Ok((Null, p1))
      else
        match ReadIntAt(lines, p1, base, SizePath(name))
        case Err(f) => Err(f)
        case Ok((n, p2)) =>
          if n < 0 then Err(ArgumentOutOfRange)
          else
            match DecodeItems(reg, base, elem, name, n, lines, p2, [])
            case Err(f) => Err(f)
            case Ok((items, p3)) => Ok((ListV(items), p3))
  }

  /** Elements `|acc| .. n - 1`, each under `name.Item[i]`, appended to those read so far. */
  function DecodeItems(reg: Registry, base: Option<string>, elem: Type, name: string, n: int,
                       lines: seq<string>, pos: nat, acc: seq<Value>): (r: Result<(seq<Value>, nat)>)
    ensures r.Ok? ==> Advanced(lines, pos, r.value.1)
    ensures r.Ok? ==> |r.value.0| == if n < |acc| then |acc| else n
    decreases |lines| - pos, 3, n - |acc|
  {
    if |acc| >= n then Ok((acc, pos))
    else
      match DecodeFieldGeneric(reg, base, elem, ItemPath(name, |acc|), lines, pos)
      case Err(f) => Err(f)
      case Ok((v, p)) => DecodeItems(reg, base, elem, name, n, lines, p, acc + [v])
  }

  /** `ReadNDArray`: marker, dimensions, then a fresh array of that shape filled cell by cell. */
  function DecodeNDArray(reg: Registry, base: Option<string>, elem: Type, name: string, lines: seq<string>, pos: nat)
    : (r: Result<(Value, nat)>)
    ensures r.Ok? ==> pos < r.value.1 <= |lines|
    decreases |lines| - pos, 1, 0
  {
    match ReadLineAt(lines, pos, base, name)
    case Err(f) => Err(f)
    case Ok((marker, p1)) =>
      if marker == "null" then Ok((Null, p1))
      else
        match ReadLineAt(lines, p1, base, SizePath(name))
        case Err(f) => Err(f)
        case Ok((text, p2)) => DecodeShaped(reg, base, elem, name, text, lines, p2)
  }

  /**
   * The dimensions text split at commas and parsed, `Array.CreateInstance` (which rejects a
   * negative length or a total past int.MaxValue), then every cell by flat position.
   */
  function DecodeShaped(reg: Registry, base: Option<string>, elem: Type, name: string, text: string,
                        lines: seq<string>, pos: nat): (r: Result<(Value, nat)>)
    ensures r.Ok? ==> Advanced(lines, pos, r.value.1) && r.value.0.ArrayV?
    decreases |lines| - pos, 4, 0
  {
    match ParseInts(Split(text, ','))
    case Err(f) => Err(f)
    case Ok(dims) =>
      if !NonNegative(dims) then Err(ArgumentOutOfRange)
      else if Prod(dims) > MaxInt32 then Err(OutOfMemory)
      else
        ProdNonNegative(dims);
        match DecodeCells(reg, base, elem, name, dims, lines, pos, 0, seq(Prod(dims), _ => Default(elem)))
        case Err(f) => Err(f)
        case Ok((cells, p)) => Ok((ArrayV(dims, cells), p))
  }

  /** Cells at flat positions `i ..`: each read under its index tuple and stored at that tuple. */
  function DecodeCells(reg: Registry, base: Option<string>, elem: Type, name: string, dims: seq<int>,
                       lines: seq<string>, pos: nat, i: nat, acc: seq<Value>): (r: Result<(seq<Value>, nat)>)
    requires NonNegative(dims) && |acc| == Prod(dims)
    ensures r.Ok? ==> Advanced(lines, pos, r.value.1) && |r.value.0| == |acc|
    decreases |lines| - pos, 3, |acc| - i
  {
    if i >= |acc| then Ok((acc, pos))
    else
      match DecodeCell(reg, base, elem, name, dims, lines, pos, i)
      case Err(f) => Err(f)
      case Ok((v, p)) => DecodeCells(reg, base, elem, name, dims, lines, p, i + 1, acc[CellPos(dims, i) := v])
  }

  /** Where `SetValue(value, index)` stores the cell read at flat position `i`: the flat position of its index tuple. */
  function CellPos(dims: seq<int>, i: nat): (p: nat)
    requires NonNegative(dims) && i < Prod(dims)
    ensures p < Prod(dims)
  {
    CellInRange(dims, i);
    MemPos(IndexFromMemPos(i, dims), dims)
  }

  /** The flat position of the index tuple of flat position `i` is inside the array. */
  lemma CellInRange(dims: seq<int>, i: nat)
    requires NonNegative(dims) && i < Prod(dims)
    ensures Positive(dims) && InBounds(IndexFromMemPos(i, dims), dims)
    ensures 0 <= MemPos(IndexFromMemPos(i, dims), dims) < Prod(dims)
  {
    PositiveWhenNonEmpty(dims);
    IndexRoundTrip(i, dims);
    MemPosInRange(IndexFromMemPos(i, dims), dims);
  }

  /** The cell at flat position `i`, read under `name.Item[i0, i1, ...]`. */
  function DecodeCell(reg: Registry, base: Option<string>, elem: Type, name: string, dims: seq<int>,
                      lines: seq<string>, pos: nat, i: nat): (r: Result<(Value, nat)>)
    requires NonNegative(dims) && i < Prod(dims)
    ensures r.Ok? ==> Advanced(lines, pos, r.value.1)
    decreases |lines| - pos, 2, 2
  {
    PositiveWhenNonEmpty(dims);
    DecodeFieldGeneric(reg, base, elem, NDItemPath(name, IndexFromMemPos(i, dims)), lines, pos)
  }

  /** `ReadDict`: marker, count (a negative one reads no entry), then key and value of each entry. */
  function DecodeDict(reg: Registry, base: Option<string>, kt: Type, vt: Type, name: string, lines: seq<string>, pos: nat)
    : (r: Result<(Value, nat)>)
    ensures r.Ok? ==> pos < r.value.1 <= |lines|
    ensures r.Ok? && r.value.0.DictV? ==> ValidKeys(kt, r.value.0.pairs)
    decreases |lines| - pos, 1, 0
  {
    match ReadLineAt(lines, pos, base, name)
    case Err(f) => Err(f)
    case Ok((marker, p1)) =>
      if marker == "null" then Ok((Null, p1))
      else
        match ReadIntAt(lines, p1, base, SizePath(name))
        case Err(f) => Err(f)
        case Ok((n, p2)) => DecodeEntries(reg, base, kt, vt, name, n, lines, p2)
  }

  /** The rest of `ReadDict`: a fresh dictionary, then `dictCount` entries added to it. */
  function DecodeEntries(reg: Registry, base: Option<string>, kt: Type, vt: Type, name: string, n: int,
                         lines: seq<string>, pos: nat): (r: Result<(Value, nat)>)
    ensures r.Ok? ==> Advanced(lines, pos, r.value.1) && r.value.0.DictV?
    ensures r.Ok? ==> ValidKeys(kt, r.value.0.pairs)
    decreases |lines| - pos, 4, 0
  {
    match DecodePairs(reg, base, kt, vt, name, n, lines, pos, [])
    case Err(f) => Err(f)
    case Ok((pairs, p)) => Ok((DictV(pairs), p))
  }

  /** Whether a dictionary already holds a key equal to `k` (value-compared keys only). */
  predicate HasKey(pairs: seq<Pair>, k: Value)
  {
    exists j :: 0 <= j < |pairs| && pairs[j].key == k
  }

  /** What `Dictionary.Add` keeps true of the entries: no key is null and no value-compared key repeats. */
  predicate ValidKeys(kt: Type, pairs: seq<Pair>)
  {
    (forall j :: 0 <= j < |pairs| ==> pairs[j].key != Null) &&
    (KeyedByValue(kt) ==> forall i, j :: 0 <= i < j < |pairs| ==> pairs[i].key != pairs[j].key)
  }

  /** Adding a non-null key that is not yet present keeps the keys valid. */
  lemma AddKeepsValidKeys(kt: Type, acc: seq<Pair>, p: Pair)
    requires ValidKeys(kt, acc) && p.key != Null && (KeyedByValue(kt) ==> !HasKey(acc, p.key))
    ensures ValidKeys(kt, acc + [p])
  {
    var r := acc + [p];
    if KeyedByValue(kt) {
      forall i, j | 0 <= i < j < |r|
        ensures r[i].key != r[j].key
      {
        if j == |acc| {
          assert r[i] == acc[i];
        } else {
          assert r[i] == acc[i] && r[j] == acc[j];
        }
      }
    }
  }

  /** Entries `|acc| .. n - 1`, each added to those read so far. */
  function DecodePairs(reg: Registry, base: Option<string>, kt: Type, vt: Type, name: string, n: int,
                       lines: seq<string>, pos: nat, acc: seq<Pair>): (r: Result<(seq<Pair>, nat)>)
    ensures r.Ok? ==> Advanced(lines, pos, r.value.1)
    ensures r.Ok? ==> |r.value.0| == if n < |acc| then |acc| else n
    ensures r.Ok? ==> r.value.0[..|acc|] == acc
    ensures r.Ok? && ValidKeys(kt, acc) ==> ValidKeys(kt, r.value.0)
    decreases |lines| - pos, 3, n - |acc|
  {
    if |acc| >= n then Ok((acc, pos))
    else
      match DecodeEntry(reg, base, kt, vt, name, lines, pos, acc)
      case Err(f) => Err(f)
      case Ok((pair, p)) =>
        var r := DecodePairs(reg, base, kt, vt, name, n, lines, p, acc + [pair]);
        if r.Ok? && ValidKeys(kt, acc) then
          AddKeepsValidKeys(kt, acc, pair);
          assert (acc + [pair])[..|acc|] == acc;
          r
        else r
  }

  /**
   * Entry `|acc|`: read the key, read the value, then `Dictionary.Add`, which rejects a null
   * key and a key already present.
   */
  function DecodeEntry(reg: Registry, base: Option<string>, kt: Type, vt: Type, name: string,
                       lines: seq<string>, pos: nat, acc: seq<Pair>): (r: Result<(Pair, nat)>)
    ensures r.Ok? ==> Advanced(lines, pos, r.value.1)
    ensures r.Ok? ==> r.value.0.key != Null && (KeyedByValue(kt) ==> !HasKey(acc, r.value.0.key))
    decreases |lines| - pos, 2, 2
  {
    match DecodeFieldGeneric(reg, base, kt, KeyPath(name, |acc|), lines, pos)
    case Err(f) => Err(f)
    case Ok((k, p1)) =>
      match DecodeFieldGeneric(reg, base, vt, ValuePath(name, |acc|), lines, p1)
      case Err(f) => Err(f)
      case Ok((v, p2)) =>
        if k == Null then Err(NullKey)
        else if KeyedByValue(kt) && HasKey(acc, k) then Err(DuplicateKey)
        else Ok((Pair(k, v), p2))
  }

  /** `Dictionary.Add` with a null key: the entry's key and value read, the dictionary read stops. */
  lemma NullKeyRejected(reg: Registry, base: Option<string>, kt: Type, vt: Type, name: string, n: int,
                        lines: seq<string>, pos: nat, acc: seq<Pair>, p1: nat, v: Value, p2: nat)
    requires |acc| < n
    requires DecodeFieldGeneric(reg, base, kt, KeyPath(name, |acc|), lines, pos) == Ok((Null, p1))
    requires DecodeFieldGeneric(reg, base, vt, ValuePath(name, |acc|), lines, p1) == Ok((v, p2))
    ensures DecodePairs(reg, base, kt, vt, name, n, lines, pos, acc) == Err(NullKey)
  {
    assert DecodeEntry(reg, base, kt, vt, name, lines, pos, acc) == Err(NullKey);
  }

  /** `Dictionary.Add` with a value-compared key already present: the dictionary read stops. */
  lemma DuplicateKeyRejected(reg: Registry, base: Option<string>, kt: Type, vt: Type, name: string, n: int,
                             lines: seq<string>, pos: nat, acc: seq<Pair>, k: Value, p1: nat, v: Value, p2: nat)
    requires |acc| < n && k != Null && KeyedByValue(kt) && HasKey(acc, k)
    requires DecodeFieldGeneric(reg, base, kt, KeyPath(name, |acc|), lines, pos) == Ok((k, p1))
    requires DecodeFieldGeneric(reg, base, vt, ValuePath(name, |acc|), lines, p1) == Ok((v, p2))
    ensures DecodePairs(reg, base, kt, vt, name, n, lines, pos, acc) == Err(DuplicateKey)
  {
    assert DecodeEntry(reg, base, kt, vt, name, lines, pos, acc) == Err(DuplicateKey);
  }

  /** `Dictionary.Add` with any other key adds the entry and the read goes on after its value. */
  lemma NewKeyAdded(reg: Registry, base: Option<string>, kt: Type, vt: Type, name: string, n: int,
                    lines: seq<string>, pos: nat, acc: seq<Pair>, k: Value, p1: nat, v: Value, p2: nat)
    requires |acc| < n && k != Null && !(KeyedByValue(kt) && HasKey(acc, k))
    requires DecodeFieldGeneric(reg, base, kt, KeyPath(name, |acc|), lines, pos) == Ok((k, p1))
    requires DecodeFieldGeneric(reg, base, vt, ValuePath(name, |acc|), lines, p1) == Ok((v, p2))
    ensures DecodePairs(reg, base, kt, vt, name, n, lines, pos, acc)
              == DecodePairs(reg, base, kt, vt, name, n, lines, p2, acc + [Pair(k, v)])
  {
    assert DecodeEntry(reg, base, kt, vt, name, lines, pos, acc) == Ok((Pair(k, v), p2));
  }

  /** The instance `GetUninitializedObject` makes: every field at its default. */
  function Blank(fields: seq<FieldDecl>): (slots: seq<Slot>)
    ensures |slots| == |fields|
    ensures forall k :: 0 <= k < |fields| ==> slots[k] == Slot(fields[k], Default(fields[k].ftype))
  {
    seq(|fields|, k requires 0 <= k < |fields| => Slot(fields[k], Default(fields[k].ftype)))
  }

  /**
   * `ReadSerializable<T>`: the type tag, then (unless it is "null" in any letter case, names no
   * known type, or names one not assignable to T) a blank instance filled one level deeper.
   */
  function DecodeNode(reg: Registry, base: Option<string>, declared: string, name: string, lines: seq<string>, pos: nat)
    : (r: Result<(Value, nat)>)
    ensures r.Ok? ==> pos < r.value.1 <= |lines|
    decreases |lines| - pos, 1, 0
  {
    match ReadLineAt(lines, pos, base, name)
    case Err(f) => Err(f)
    case Ok((tag, p1)) =>
      if AsciiLower(tag) == "null" || !Assignable(reg, declared, tag) then Ok((Null, p1))
      else
        var fields := reg[tag].fields;
        match DecodeFields(reg, Extend(base, name), fields, WalkOrder(fields), lines, p1, 0, Blank(fields))
        case Err(f) => Err(f)
        case Ok((slots, p2)) => Ok((ObjectV(tag, slots), p2))
  }

  /**
   * A tag that is "null" in any letter case, names no known type, or names one not assignable
   * to the declared type yields null: the tag line is the only one read.
   */
  lemma NodeTagYieldsNull(reg: Registry, base: Option<string>, declared: string, name: string,
                          lines: seq<string>, pos: nat, tag: string)
    requires ReadLineAt(lines, pos, base, name) == Ok((tag, pos + 1))
    requires AsciiLower(tag) == "null" || tag !in reg || !Assignable(reg, declared, tag)
    ensures DecodeNode(reg, base, declared, name, lines, pos) == Ok((Null, pos + 1))
  {
  }

  /** Any other tag opens the node: its fields are read from the next line on, under `base.name`. */
  lemma NodeTagOpensNode(reg: Registry, base: Option<string>, declared: string, name: string,
                         lines: seq<string>, pos: nat, tag: string)
    requires ReadLineAt(lines, pos, base, name) == Ok((tag, pos + 1))
    requires AsciiLower(tag) != "null" && Assignable(reg, declared, tag)
    ensures var fields := reg[tag].fields;
            var r := DecodeNode(reg, base, declared, name, lines, pos);
            var d := DecodeFields(reg, Extend(base, name), fields, WalkOrder(fields), lines, pos + 1, 0, Blank(fields));
            (d.Err? ==> r == Err(d.failure)) && (d.Ok? ==> r == Ok((ObjectV(tag, d.value.0), d.value.1)))
  {
  }

  /**
   * The collection readers test their marker for "null" exactly, letter case included: any
   * other marker, "NULL" among them, goes on to the size line and never yields null.
   */
  lemma ListMarkerIsCaseSensitive(reg: Registry, base: Option<string>, elem: Type, name: string,
                                  lines: seq<string>, pos: nat, marker: string)
    requires ReadLineAt(lines, pos, base, name) == Ok((marker, pos + 1)) && marker != "null"
    ensures var r := DecodeList(reg, base, elem, name, lines, pos);
            var size := ReadIntAt(lines, pos + 1, base, SizePath(name));
            (size.Err? ==> r == Err(size.failure)) && (r.Ok? ==> r.value.0.ListV?)
  {
  }

  /** The same for rank-1 arrays. */
  lemma ArrayMarkerIsCaseSensitive(reg: Registry, base: Option<string>, elem: Type, name: string,
                                  lines: seq<string>, pos: nat, marker: string)
    requires ReadLineAt(lines, pos, base, name) == Ok((marker, pos + 1)) && marker != "null"
    ensures var r := DecodeArray(reg, base, elem, name, lines, pos);
            var size := ReadIntAt(lines, pos + 1, base, SizePath(name));
            (size.Err? ==> r == Err(size.failure)) && (r.Ok? ==> r.value.0.ArrayV?)
  {
  }

  /** The same for arrays of rank 2 or more, whose size line holds the dimensions. */
  lemma NDArrayMarkerIsCaseSensitive(reg: Registry, base: Option<string>, elem: Type, name: string,
                                  lines: seq<string>, pos: nat, marker: string)
    requires ReadLineAt(lines, pos, base, name) == Ok((marker, pos + 1)) && marker != "null"
    ensures var r := DecodeNDArray(reg, base, elem, name, lines, pos);
            var size := ReadLineAt(lines, pos + 1, base, SizePath(name));
            (size.Err? ==> r == Err(size.failure)) && (r.Ok? ==> r.value.0.ArrayV?)
  {
    var size := ReadLineAt(lines, pos + 1, base, SizePath(name));
    if size.Ok? {
      assert DecodeNDArray(reg, base, elem, name, lines, pos)
          == DecodeShaped(reg, base, elem, name, size.value.0, lines, size.value.1);
    }
  }

  /** The same dictionary reader: a marker other than exactly "null" goes on to the size line. */
  lemma DictMarkerIsCaseSensitive(reg: Registry, base: Option<string>, kt: Type, vt: Type, name: string,
                                  lines: seq<string>, pos: nat, marker: string)
    requires ReadLineAt(lines, pos, base, name) == Ok((marker, pos + 1)) && marker != "null"
    ensures var r := DecodeDict(reg, base, kt, vt, name, lines, pos);
            var size := ReadIntAt(lines, pos + 1, base, SizePath(name));
            (size.Err? ==> r == Err(size.failure)) && (r.Ok? ==> r.value.0.DictV?)
  {
  }

  /** So "NULL" reads as a null node, but not as a null collection. */
  lemma UpperCaseNullMarker(reg: Registry, base: Option<string>, declared: string, elem: Type, name: string,
                            lines: seq<string>, pos: nat)
    requires ReadLineAt(lines, pos, base, name) == Ok(("NULL", pos + 1))
    ensures DecodeNode(reg, base, declared, name, lines, pos) == Ok((Null, pos + 1))
    ensures DecodeList(reg, base, elem, name, lines, pos) != Ok((Null, pos + 1))
  {
    assert AsciiLower("NULL") == "null";
    NodeTagYieldsNull(reg, base, declared, name, lines, pos, "NULL");
    assert "NULL"[0] != "null"[0];
    ListMarkerIsCaseSensitive(reg, base, elem, name, lines, pos, "NULL");
  }

  /** `ReflectionSerializer.Deserialize` from the `i`-th field of the walk `order` on: read it, store it. */
  function DecodeFields(reg: Registry, base: Option<string>, fields: seq<FieldDecl>, order: seq<nat>,
                        lines: seq<string>, pos: nat, i: nat, slots: seq<Slot>): (r: Result<(seq<Slot>, nat)>)
    requires |slots| == |fields| && Indices(fields, order)
    ensures r.Ok? ==> Advanced(lines, pos, r.value.1) && |r.value.0| == |fields|
    decreases |lines| - pos, 3, |order| - i
  {
    if i >= |order| then Ok((slots, pos))
    else
      var k := order[i];
      var f := fields[k];
      match DecodeMember(reg, base, fields, order, i, lines, pos)
      case Err(e) => Err(e)
      case Ok((v, p)) => DecodeFields(reg, base, fields, order, lines, p, i + 1, slots[k := Slot(f, Assign(f.ftype, v))])
  }

  /** One field of that walk, read under its sanitized name. */
  function DecodeMember(reg: Registry, base: Option<string>, fields: seq<FieldDecl>, order: seq<nat>, i: nat,
                        lines: seq<string>, pos: nat): (r: Result<(Value, nat)>)
    requires Indices(fields, order) && i < |order|
    ensures r.Ok? ==> Advanced(lines, pos, r.value.1)
    decreases |lines| - pos, 2, 1
  {
    var f := fields[order[i]];
    DecodeField(reg, base, f.ftype, Sanitize(f.name), lines, pos)
  }
}

=== FILE: deserialization.dfy ===
/**
 * The reflection deserializer and the collection readers, as methods that consume lines
 * from a `YamlDeserializer`. Each one returns the value the matching `Decoding` function
 * describes and leaves the cursor where that function says, or throws the same exception.
 *
 * Every method here requires a reader that is not disposed: the reader disposes itself only
 * when it throws a line mismatch, and every method propagates that exception at once, so no
 * read inside one `ReadSerializable` call ever meets a disposed reader.
 */
module Deserialization {
  import opened Failures
  import opened Text
  import opened Paths
  import opened Types
  import opened NDIndex
  import opened EnumText
  import opened Decoding
  import opened YamlReader

  // ------------------------------------------------------ one step of a walk

  /** One element of a list or array read: the walk stops with its exception or goes on after it. */
  lemma ItemReadStep(reg: Registry, base: Option<string>, elem: Type, name: string, n: int,
                     lines: seq<string>, pos: nat, acc: seq<Value>)
    requires |acc| < n
    ensures var c := DecodeFieldGeneric(reg, base, elem, ItemPath(name, |acc|), lines, pos);
      DecodeItems(reg, base, elem, name, n, lines, pos, acc) ==
        if c.Err? then Err(c.failure) else DecodeItems(reg, base, elem, name, n, lines, c.value.1, acc + [c.value.0])
  {
  }

  /** One cell of an N-dimensional read, stored at its index tuple. */
  lemma CellReadStep(reg: Registry, base: Option<string>, elem: Type, name: string, dims: seq<int>,
                     lines: seq<string>, pos: nat, i: nat, acc: seq<Value>)
    requires NonNegative(dims) && |acc| == Prod(dims) && i < |acc|
    ensures var c := DecodeCell(reg, base, elem, name, dims, lines, pos, i);
      DecodeCells(reg, base, elem, name, dims, lines, pos, i, acc) ==
        if c.Err? then Err(c.failure)
        else DecodeCells(reg, base, elem, name, dims, lines, c.value.1, i + 1,
                         acc[CellPos(dims, i) := c.value.0])
  {
  }

  /** One entry of a dictionary read. */
  lemma EntryReadStep(reg: Registry, base: Option<string>, kt: Type, vt: Type, name: string, n: int,
                      lines: seq<string>, pos: nat, acc: seq<Pair>)
    requires |acc| < n
    ensures var c := DecodeEntry(reg, base, kt, vt, name, lines, pos, acc);
      DecodePairs(reg, base, kt, vt, name, n, lines, pos, acc) ==
        if c.Err? then Err(c.failure) else DecodePairs(reg, base, kt, vt, name, n, lines, c.value.1, acc + [c.value.0])
  {
  }

  /** One field of a node read, stored in its slot. */
  lemma FieldReadStep(reg: Registry, base: Option<string>, fields: seq<FieldDecl>, order: seq<nat>,
                      lines: seq<string>, pos: nat, i: nat, slots: seq<Slot>)
    requires |slots| == |fields| && Indices(fields, order) && i < |order|
    ensures var f := fields[order[i]];
      var c := DecodeMember(reg, base, fields, order, i, lines, pos);
      DecodeFields(reg, base, fields, order, lines, pos, i, slots) ==
        if c.Err? then Err(c.failure)
        else DecodeFields(reg, base, fields, order, lines, c.value.1, i + 1, slots[order[i] := Slot(f, Assign(f.ftype, c.value.0))])
  {
  }

  /** The blank instance of a node type lists that type's fields. */
  lemma BlankFields(fields: seq<FieldDecl>)
    ensures FieldsOf(Blank(fields)) == fields
  {
    assert forall k :: 0 <= k < |fields| ==> FieldsOf(Blank(fields))[k] == fields[k];
  }

  // ------------------------------------------------------------ the readers

  /** `DeserializeFieldGeneric<T>`: `DeserializeField` cast to `T`. */
  method DeserializeFieldGeneric(d: YamlDeserializer, reg: Registry, t: Type, name: string) returns (r: Result<Value>)
    requires d.Valid() && !d.disposed
    modifies d
    ensures d.Valid()
    ensures Follows(DecodeFieldGeneric(reg, old(d.baseName), t, name, d.lines, old(d.cursor)), r, d.cursor, d.disposed)
    ensures r.Ok? ==> d.baseName == old(d.baseName)
    decreases |d.lines| - d.cursor, 3, 0
  {
    r := DeserializeField(d, reg, t, name);
    if r.Ok? && r.value == Null && IsValueType(t) {
      r := Err(NullReference);
    }
  }

  /** `DeserializeField(type, name)`: the primitives, then the collections, then serializable nodes. */
  method DeserializeField(d: YamlDeserializer, reg: Registry, t: Type, name: string) returns (r: Result<Value>)
    requires d.Valid() && !d.disposed
    modifies d
    ensures d.Valid()
    ensures Follows(DecodeField(reg, old(d.baseName), t, name, d.lines, old(d.cursor)), r, d.cursor, d.disposed)
    ensures r.Ok? ==> d.baseName == old(d.baseName)
    decreases |d.lines| - d.cursor, 2, 0
  {
    match Classify(t)
    case IntField | UIntField | FloatField | StringField | BoolField | EnumField =>
      r := ReadScalar(d, t, name);
    case ArrayField =>
      r := ReadArray(d, reg, t.elem, name);
    case NDArrayField =>
      r := ReadNDArray(d, reg, t.elem, name);
      if r.Ok? && r.value.ArrayV? && |r.value.dims| != t.rank {
        r := Err(RankMismatch);
      }
    case ListField =>
      r := ReadList(d, reg, t.elem, name);
    case DictField =>
      r := ReadDict(d, reg, t.key, t.val, name);
    case NodeField =>
      r := ReadSerializable(d, reg, t.className, name);
    case Unsupported =>
      r := Ok(Null);  // logged, default(object)
  }

  /** The primitive branches of `DeserializeField`: one read through the backend, then `(uint)` or `Enum.Parse`. */
  method ReadScalar(d: YamlDeserializer, t: Type, name: string) returns (r: Result<Value>)
    requires IsScalar(Classify(t)) && d.Valid() && !d.disposed
    modifies d`cursor, d`disposed
    ensures d.Valid()
    ensures Follows(DecodeScalar(d.baseName, t, name, d.lines, old(d.cursor)), r, d.cursor, d.disposed)
  {
    match Classify(t)
    case IntField =>
      var x := d.ReadInt(name);
      r := if x.Err? then Err(x.failure) else Ok(IntV(x.value));
    case UIntField =>
      var x := d.ReadInt(name);
      r := if x.Err? then Err(x.failure) else Ok(UIntV(UIntOfInt(x.value)));
    case FloatField =>
      var x := d.ReadFloat(name);
      r := if x.Err? then Err(x.failure) else Ok(FloatV(x.value));
    case StringField =>
      var x := d.ReadString(name);
      r := if x.Err? then Err(x.failure) else Ok(StrV(x.value));
    case BoolField =>
      var x := d.ReadBool(name);
      r := if x.Err? then Err(x.failure) else Ok(BoolV(x.value));
    case EnumField =>
      var x := d.ReadString(name);
      if x.Err? {
        return Err(x.failure);
      }
      var k := EnumParse(t.members, x.value);
      r := if k.Err? then Err(k.failure) else Ok(EnumV(k.value));
  }

  /** `ReadArray`: the marker (`null` ends the read), the length, then `array[i] = readElement(...)`. */
  method ReadArray(d: YamlDeserializer, reg: Registry, elem: Type, name: string) returns (r: Result<Value>)
    requires d.Valid() && !d.disposed
    modifies d
    ensures d.Valid()
    ensures Follows(DecodeArray(reg, old(d.baseName), elem, name, d.lines, old(d.cursor)), r, d.cursor, d.disposed)
    ensures r.Ok? ==> d.baseName == old(d.baseName)
    decreases |d.lines| - d.cursor, 1, 0
  {
    ghost var base := d.baseName;
    var marker := d.ReadString(name);
    if marker.Err? {
      return Err(marker.failure);
    }
    if marker.value == "null" {
      return Ok(Null);
    }
    var arrayLength := d.ReadInt(SizePath(name));
    if arrayLength.Err? {
      return Err(arrayLength.failure);
    }
    if arrayLength.value < 0 {
      return Err(Overflow);  // new T[n] with n < 0
    }
    var items := new Value[arrayLength.value](_ => Default(elem));
    var filled := ReadArrayItems(d, reg, elem, name, items);
    if filled.Err? {
      return Err(filled.failure);
    }
    r := Ok(ArrayV([items.Length], items[..]));
  }

  /** The `for` loop of `ReadArray`: `array[i] = readElement($"{name}.Item[{i}]")`. */
  method ReadArrayItems(d: YamlDeserializer, reg: Registry, elem: Type, name: string, items: array<Value>)
    returns (r: Result<seq<Value>>)
    requires d.Valid() && !d.disposed
    modifies d, items
    ensures d.Valid()
    ensures Follows(DecodeItems(reg, old(d.baseName), elem, name, items.Length, d.lines, old(d.cursor), []), r, d.cursor, d.disposed)
    ensures r.Ok? ==> d.baseName == old(d.baseName) && r.value == items[..]
    decreases |d.lines| - d.cursor + 1, 0, 0
  {
    ghost var base := d.baseName;
    ghost var start := d.cursor;
    var i := 0;
    while i < items.Length
      invariant 0 <= i <= items.Length && d.Valid() && !d.disposed && d.baseName == base
      invariant old(d.cursor) <= d.cursor
      invariant DecodeItems(reg, base, elem, name, items.Length, d.lines, start, []) ==
                DecodeItems(reg, base, elem, name, items.Length, d.lines, d.cursor, items[..i])
    {
      var x := ReadItem(d, reg, elem, name, items, i);
      if x.Err? {
        return Err(x.failure);
      }
      i := i + 1;
    }
    assert items[..] == items[..items.Length];
    r := Ok(items[..]);
  }

  /**
   * One turn of that loop: element `i` read and stored; the read of elements `i ..` is the
   * read of elements `i + 1 ..` after this turn, or stops with this turn's exception.
   */
  method ReadItem(d: YamlDeserializer, reg: Registry, elem: Type, name: string, items: array<Value>, i: nat)
    returns (r: Result<Value>)
    requires d.Valid() && !d.disposed && i < items.Length
    modifies d, items
    ensures d.Valid()
    ensures DecodeItems(reg, old(d.baseName), elem, name, items.Length, d.lines, old(d.cursor), old(items[..i])) ==
      if r.Ok? then DecodeItems(reg, old(d.baseName), elem, name, items.Length, d.lines, d.cursor, items[..i + 1])
      else Err(r.failure)
    ensures r.Ok? ==> d.baseName == old(d.baseName) && !d.disposed && old(d.cursor) <= d.cursor
    ensures r.Err? ==> (d.disposed <==> r.failure.LineMismatch?)
    decreases |d.lines| - d.cursor, 4, 0
  {
    ItemReadStep(reg, d.baseName, elem, name, items.Length, d.lines, d.cursor, items[..i]);
    r := DeserializeFieldGeneric(d, reg, elem, ItemPath(name, i));
    if r.Ok? {
      items[i] := r.value;
      assert items[..i + 1] == old(items[..i]) + [r.value];
    }
  }

  /** `ReadList`: the marker (`null` ends the read), the count, then `list.Add(readElement(...))`. */
  method ReadList(d: YamlDeserializer, reg: Registry, elem: Type, name: string) returns (r: Result<Value>)
    requires d.Valid() && !d.disposed
    modifies d
    ensures d.Valid()
    ensures Follows(DecodeList(reg, old(d.baseName), elem, name, d.lines, old(d.cursor)), r, d.cursor, d.disposed)
    ensures r.Ok? ==> d.baseName == old(d.baseName)
    decreases |d.lines| - d.cursor, 1, 0
  {
    ghost var base := d.baseName;
    var marker := d.ReadString(name);
    if marker.Err? {
      return Err(marker.failure);
    }
    if marker.value == "null" {
      return Ok(Null);
    }
    var listCount := d.ReadInt(SizePath(name));
    if listCount.Err? {
      return Err(listCount.failure);
    }
    if listCount.value < 0 {
      return Err(ArgumentOutOfRange);  // new List<T>(n) with n < 0
    }
    var list := ReadListItems(d, reg, elem, name, listCount.value as nat);
    if list.Err? {
      return Err(list.failure);
    }
    r := Ok(ListV(list.value));
  }

  /** The `for` loop of `ReadList`: `list.Add(readElement($"{name}.Item[{i}]"))`. */
  method ReadListItems(d: YamlDeserializer, reg: Registry, elem: Type, name: string, n: nat)
    returns (r: Result<seq<Value>>)
    requires d.Valid() && !d.disposed
    modifies d
    ensures d.Valid()
    ensures Follows(DecodeItems(reg, old(d.baseName), elem, name, n, d.lines, old(d.cursor), []), r, d.cursor, d.disposed)
    ensures r.Ok? ==> d.baseName == old(d.baseName)
    decreases |d.lines| - d.cursor + 1, 0, 0
  {
    ghost var base := d.baseName;
    ghost var start := d.cursor;
    var list: seq<Value> := [];
    var i := 0;
    while i < n
      invariant 0 <= i <= n && |list| == i && d.Valid() && !d.disposed && d.baseName == base
      invariant old(d.cursor) <= d.cursor
      invariant DecodeItems(reg, base, elem, name, n, d.lines, start, []) ==
                DecodeItems(reg, base, elem, name, n, d.lines, d.cursor, list)
    {
      ItemReadStep(reg, base, elem, name, n, d.lines, d.cursor, list);
      var x := DeserializeFieldGeneric(d, reg, elem, ItemPath(name, i));
      if x.Err? {
        return Err(x.failure);
      }
      list := list + [x.value];
      i := i + 1;
    }
    r := Ok(list);
  }

  /** `ReadNDArray`: the marker (`null` ends the read), then the dimensions line. */
  method ReadNDArray(d: YamlDeserializer, reg: Registry, elem: Type, name: string) returns (r: Result<Value>)
    requires d.Valid() && !d.disposed
    modifies d
    ensures d.Valid()
    ensures Follows(DecodeNDArray(reg, old(d.baseName), elem, name, d.lines, old(d.cursor)), r, d.cursor, d.disposed)
    ensures r.Ok? ==> d.baseName == old(d.baseName)
    decreases |d.lines| - d.cursor, 1, 0
  {
    var marker := d.ReadString(name);
    if marker.Err? {
      return Err(marker.failure);
    }
    if marker.value == "null" {
      return Ok(Null);
    }
    var dimensions := d.ReadString(SizePath(name));
    if dimensions.Err? {
      return Err(dimensions.failure);
    }
    r := ReadShaped(d, reg, elem, name, dimensions.value);
  }

  /**
   * The rest of `ReadNDArray`: `dimensions.Split(',').Select(int.Parse)`, `Array.CreateInstance`,
   * the total length, then the cells.
   */
  method ReadShaped(d: YamlDeserializer, reg: Registry, elem: Type, name: string, dimensions: string)
    returns (r: Result<Value>)
    requires d.Valid() && !d.disposed
    modifies d
    ensures d.Valid()
    ensures Follows(DecodeShaped(reg, old(d.baseName), elem, name, dimensions, d.lines, old(d.cursor)), r, d.cursor, d.disposed)
    ensures r.Ok? ==> d.baseName == old(d.baseName)
    decreases |d.lines| - d.cursor + 1, 1, 0
  {
    var parsed := ParseInts(Split(dimensions, ','));
    if parsed.Err? {
      return Err(parsed.failure);
    }
    var dims := parsed.value;
    if !NonNegative(dims) {
      return Err(ArgumentOutOfRange);  // a negative length
    }
    if Prod(dims) > MaxInt32 {
      return Err(OutOfMemory);
    }
    ProdNonNegative(dims);
    var dimParams := new int[|dims|](k requires 0 <= k < |dims| => dims[k]);
    var arr := new Value[Prod(dims)](_ => Default(elem));
    assert arr[..] == seq(Prod(dims), _ => Default(elem));
    var arrayLength := Prod(dims);
    var filled := ReadCells(d, reg, elem, name, dims, dimParams, arr, arrayLength);
    if filled.Err? {
      return Err(filled.failure);
    }
    r := Ok(ArrayV(dims, arr[..]));
  }

  /** The `for` loop of `ReadNDArray`, over the flat positions `0 .. arrayLength - 1`. */
  method ReadCells(d: YamlDeserializer, reg: Registry, elem: Type, name: string, dims: seq<int>,
                   dimParams: array<int>, arr: array<Value>, arrayLength: nat) returns (r: Result<seq<Value>>)
    requires d.Valid() && !d.disposed
    requires NonNegative(dims) && arrayLength == arr.Length == Prod(dims) && dimParams[..] == dims
    modifies d, arr
    ensures d.Valid()
    ensures Follows(DecodeCells(reg, old(d.baseName), elem, name, dims, d.lines, old(d.cursor), 0, old(arr[..])),
                    r, d.cursor, d.disposed)
    ensures r.Ok? ==> d.baseName == old(d.baseName) && r.value == arr[..]
    decreases |d.lines| - d.cursor + 1, 0, 0
  {
    ghost var base := d.baseName;
    ghost var start := d.cursor;
    ghost var blank := arr[..];
    var i := 0;
    while i < arrayLength
      invariant 0 <= i <= arrayLength
      invariant d.Valid() && !d.disposed && d.baseName == base && old(d.cursor) <= d.cursor
      invariant dimParams[..] == dims
      invariant DecodeCells(reg, base, elem, name, dims, d.lines, start, 0, blank) ==
                DecodeCells(reg, base, elem, name, dims, d.lines, d.cursor, i, arr[..])
    {
      var x := ReadCell(d, reg, elem, name, dims, dimParams, arr, i);
      if x.Err? {
        return Err(x.failure);
      }
      i := i + 1;
    }
    r := Ok(arr[..]);
  }

  /**
   * One turn of that loop: `NDArrayIndexFromMemPos(i, dimParams)`, the read, then
   * `arr.SetValue(value, index)`; the walk from cell `i` on is the walk from cell `i + 1` on
   * after this turn, or stops with this turn's exception.
   */
  method ReadCell(d: YamlDeserializer, reg: Registry, elem: Type, name: string, dims: seq<int>,
                  dimParams: array<int>, arr: array<Value>, i: nat) returns (r: Result<Value>)
    requires d.Valid() && !d.disposed
    requires NonNegative(dims) && arr.Length == Prod(dims) && dimParams[..] == dims && i < arr.Length
    modifies d, arr
    ensures d.Valid()
    ensures DecodeCells(reg, old(d.baseName), elem, name, dims, d.lines, old(d.cursor), i, old(arr[..])) ==
      if r.Ok? then DecodeCells(reg, old(d.baseName), elem, name, dims, d.lines, d.cursor, i + 1, arr[..]) else Err(r.failure)
    ensures r.Ok? ==> d.baseName == old(d.baseName) && !d.disposed && old(d.cursor) <= d.cursor
    ensures r.Err? ==> (d.disposed <==> r.failure.LineMismatch?)
    decreases |d.lines| - d.cursor, 4, 0
  {
    CellReadStep(reg, d.baseName, elem, name, dims, d.lines, d.cursor, i, arr[..]);
    CellInRange(dims, i);
    var index := NDArrayIndexFromMemPos(i, dimParams);
    r := DeserializeFieldGeneric(d, reg, elem, NDItemPath(name, index[..]));
    if r.Ok? {
      arr[MemPos(index[..], dims)] := r.value;
      assert arr[..] == old(arr[..])[CellPos(dims, i) := r.value];
    }
  }

  /** `ReadDict`: the marker (`null` ends the read), the count, then the entries. */
  method ReadDict(d: YamlDeserializer, reg: Registry, kt: Type, vt: Type, name: string) returns (r: Result<Value>)
    requires d.Valid() && !d.disposed
    modifies d
    ensures d.Valid()
    ensures Follows(DecodeDict(reg, old(d.baseName), kt, vt, name, d.lines, old(d.cursor)), r, d.cursor, d.disposed)
    ensures r.Ok? ==> d.baseName == old(d.baseName)
    decreases |d.lines| - d.cursor, 1, 0
  {
    var marker := d.ReadString(name);
    if marker.Err? {
      return Err(marker.failure);
    }
    if marker.value == "null" {
      return Ok(Null);
    }
    var dictCount := d.ReadInt(SizePath(name));
    if dictCount.Err? {
      return Err(dictCount.failure);
    }
    r := ReadPairs(d, reg, kt, vt, name, dictCount.value);
  }

  /** The rest of `ReadDict`: `new Dictionary<K, V>()`, then the `for` loop over `i < dictCount` (no turn for a negative count). */
  method ReadPairs(d: YamlDeserializer, reg: Registry, kt: Type, vt: Type, name: string, n: int)
    returns (r: Result<Value>)
    requires d.Valid() && !d.disposed
    modifies d
    ensures d.Valid()
    ensures Follows(DecodeEntries(reg, old(d.baseName), kt, vt, name, n, d.lines, old(d.cursor)), r, d.cursor, d.disposed)
    ensures r.Ok? ==> d.baseName == old(d.baseName)
    decreases |d.lines| - d.cursor + 1, 0, 0
  {
    ghost var base := d.baseName;
    ghost var start := d.cursor;
    var dict: seq<Pair> := [];
    var i := 0;
    while i < n
      invariant 0 <= i && |dict| == i && (n >= 0 ==> i <= n)
      invariant d.Valid() && !d.disposed && d.baseName == base && old(d.cursor) <= d.cursor
      invariant DecodePairs(reg, base, kt, vt, name, n, d.lines, start, []) ==
                DecodePairs(reg, base, kt, vt, name, n, d.lines, d.cursor, dict)
    {
      var pair := ReadEntry(d, reg, kt, vt, name, n, dict);
      if pair.Err? {
        return Err(pair.failure);
      }
      dict := dict + [pair.value];
      i := i + 1;
    }
    r := Ok(DictV(dict));
  }

  /**
   * One turn of that loop: `readKey($"{name}.Key[{i}]")`, `readValue($"{name}.Value[{i}]")`,
   * then `dict.Add`; the entries from `|dict|` on are this entry followed by the entries after
   * it, or stop with this turn's exception.
   */
  method ReadEntry(d: YamlDeserializer, reg: Registry, kt: Type, vt: Type, name: string, n: int, dict: seq<Pair>)
    returns (r: Result<Pair>)
    requires d.Valid() && !d.disposed && |dict| < n
    modifies d
    ensures d.Valid()
    ensures DecodePairs(reg, old(d.baseName), kt, vt, name, n, d.lines, old(d.cursor), dict) ==
      if r.Ok? then DecodePairs(reg, old(d.baseName), kt, vt, name, n, d.lines, d.cursor, dict + [r.value])
      else Err(r.failure)
    ensures r.Ok? ==> d.baseName == old(d.baseName) && !d.disposed && old(d.cursor) <= d.cursor
    ensures r.Err? ==> (d.disposed <==> r.failure.LineMismatch?)
    decreases |d.lines| - d.cursor, 4, 0
  {
    EntryReadStep(reg, d.baseName, kt, vt, name, n, d.lines, d.cursor, dict);
    var pairKey := DeserializeFieldGeneric(d, reg, kt, KeyPath(name, |dict|));
    if pairKey.Err? {
      return Err(pairKey.failure);
    }
    var pairValue := DeserializeFieldGeneric(d, reg, vt, ValuePath(name, |dict|));
    if pairValue.Err? {
      return Err(pairValue.failure);
    }
    if pairKey.value == Null {
      return Err(NullKey);  // ArgumentNullException
    }
    if KeyedByValue(kt) && HasKey(dict, pairKey.value) {
      return Err(DuplicateKey);  // ArgumentException
    }
    r := Ok(Pair(pairKey.value, pairValue.value));
  }

  /**
   * `IDeserializer.ReadSerializable<T>`: the type tag, then the base name extended; unless the
   * tag is "null" in any letter case or names no type assignable to `T`, a blank instance of the
   * tagged type is filled by `Deserialize`; then the base name is restored. An exception from a
   * field leaves the extended base name in place.
   */
  method ReadSerializable(d: YamlDeserializer, reg: Registry, declared: string, name: string) returns (r: Result<Value>)
    requires d.Valid() && !d.disposed
    modifies d
    ensures d.Valid()
    ensures Follows(DecodeNode(reg, old(d.baseName), declared, name, d.lines, old(d.cursor)), r, d.cursor, d.disposed)
    ensures r.Ok? ==> d.baseName == old(d.baseName)
    decreases |d.lines| - d.cursor, 1, 0
  {
    var oldBaseName := d.baseName;
    var typeStr := d.ReadString(name);
    if typeStr.Err? {
      return Err(typeStr.failure);
    }
    d.baseName := Extend(d.baseName, name);
    var isValidType := AsciiLower(typeStr.value) != "null" && Assignable(reg, declared, typeStr.value);
    r := Ok(Null);
    if isValidType {
      var fields := reg[typeStr.value].fields;
      BlankFields(fields);
      var slots := Deserialize(d, reg, ObjectV(typeStr.value, Blank(fields)));
      if slots.Err? {
        return Err(slots.failure);
      }
      r := Ok(ObjectV(typeStr.value, slots.value));
    }
    d.baseName := oldBaseName;
  }

  method Deserialize(d: YamlDeserializer, reg: Registry, obj: Value) returns (r: Result<seq<Slot>>)
    requires obj.ObjectV? && d.Valid() && !d.disposed
    modifies d
    ensures d.Valid()
    ensures var fields := FieldsOf(obj.slots);
      Follows(DecodeFields(reg, old(d.baseName), fields, WalkOrder(fields), d.lines, old(d.cursor), 0, obj.slots),
              r, d.cursor, d.disposed)
    ensures r.Ok? ==> d.baseName == old(d.baseName)
    decreases |d.lines| - d.cursor, 3, 1
  {
    var fields := FieldsOf(obj.slots);
    var serializableMembers := WalkOrder(fields);
    r := FillFields(d, reg, fields, serializableMembers, obj.slots);
  }

  method FillFields(d: YamlDeserializer, reg: Registry, fields: seq<FieldDecl>, members: seq<nat>, blank: seq<Slot>) returns (r: Result<seq<Slot>>)
    requires |blank| == |fields| && Indices(fields, members)
    requires d.Valid() && !d.disposed
    modifies d
    ensures d.Valid()
    ensures Follows(DecodeFields(reg, old(d.baseName), fields, members, d.lines, old(d.cursor), 0, blank), r, d.cursor, d.disposed)
    ensures r.Ok? ==> d.baseName == old(d.baseName)
    decreases |d.lines| - d.cursor, 3, 0
  {
    ghost var base := d.baseName;
    ghost var start := d.cursor;
    var slots := blank;
    var i := 0;
    while i < |members|
      invariant 0 <= i <= |members| && |slots| == |fields|
      invariant d.Valid() && !d.disposed && d.baseName == base && old(d.cursor) <= d.cursor
      invariant DecodeFields(reg, base, fields, members, d.lines, start, 0, blank) == DecodeFields(reg, base, fields, members, d.lines, d.cursor, i, slots)
    {
      var stored := DeserializeMember(d, reg, fields, members, i, slots);
      if stored.Err? {
        return Err(stored.failure);
      }
      slots := stored.value;
      i := i + 1;
    }
    r := Ok(slots);
  }

  /**
   * One turn of that loop: the field's value read under its sanitized name, then
   * `field.SetValue(obj, fieldValue)`; the walk from this field on is the walk from the next
   * field on after this turn, or stops with this turn's exception.
   */
  method DeserializeMember(d: YamlDeserializer, reg: Registry, fields: seq<FieldDecl>, members: seq<nat>, i: nat,
                           slots: seq<Slot>)
    returns (r: Result<seq<Slot>>)
    requires Indices(fields, members) && i < |members| && |slots| == |fields| && d.Valid() && !d.disposed
    modifies d
    ensures d.Valid()
    ensures r.Ok? ==> |r.value| == |fields| && d.baseName == old(d.baseName) && !d.disposed && old(d.cursor) <= d.cursor
    ensures DecodeFields(reg, old(d.baseName), fields, members, d.lines, old(d.cursor), i, slots) ==
      if r.Ok? then DecodeFields(reg, old(d.baseName), fields, members, d.lines, d.cursor, i + 1, r.value)
      else Err(r.failure)
    ensures r.Err? ==> (d.disposed <==> r.failure.LineMismatch?)
    decreases |d.lines| - d.cursor, 2, 1
  {
    FieldReadStep(reg, d.baseName, fields, members, d.lines, d.cursor, i, slots);
    var field := fields[members[i]];
    var fieldName := Sanitize(field.name);
    var fieldValue := DeserializeField(d, reg, field.ftype, fieldName);
    if fieldValue.Err? {
      return Err(fieldValue.failure);
    }
    r := Ok(slots[members[i] := Slot(field, Assign(field.ftype, fieldValue.value))]);
  }
}

=== FILE: encoding.dfy ===
/**
 * What the reflection serializer writes for a value, as a function of the value:
 * the lines a field dispatch appends to the YAML file and the exception, if any,
 * that stops it part-way.
 */
module Encoding {
  import opened Failures
  import opened Text
  import opened Paths
  import opened Types
  import opened NDIndex
  import opened EnumText

  /** The lines a write appended and the exception that ended it, if one did. */
  datatype Emitted = Emitted(lines: seq<string>, failure: Option<Failure>)

  function Done(): Emitted { Emitted([], None) }

  function Stop(f: Failure): Emitted { Emitted([], Some(f)) }

  /** Run `a`, then `b` only when `a` did not throw. */
  function Then(a: Emitted, b: Emitted): (r: Emitted)
    ensures a.failure.Some? ==> r == a
    ensures a.failure.None? ==> r.lines == a.lines + b.lines && r.failure == b.failure
  {
    if a.failure.Some? then a else Emitted(a.lines + b.lines, b.failure)
  }

  /** One `WriteYAMLLine(name, text)` under the current base name. */
  function Line(base: Option<string>, name: string, text: string): Emitted
  {
    Emitted([LineText(base, name, text)], None)
  }

  /** An N-dimensional array value whose cells fill its dimensions. */
  predicate Shaped(v: Value)
  {
    v.ArrayV? && NonNegative(v.dims) && Prod(v.dims) == |v.cells|
  }

  /** The first line of a collection or node: `value?.GetType()?.Name ?? "null"`. */
  function NameOrNull(v: Value, typeName: string): string
  {
    if v.Null? then "null" else typeName
  }

  /**
   * The text a primitive branch writes: the value cast to the declared type and converted
   * (`(int)`, `Convert.ToInt32` of a uint, the float's invariant text, the string, the bool,
   * the enum's `ToString()`), or the exception the cast or conversion throws.
   */
  function ScalarText(t: Type, v: Value): (r: Result<string>)
    requires IsScalar(Classify(t))
    ensures r.Err? ==> r.failure == InvalidCast || (r.failure == Overflow && v.UIntV? && v.u > MaxInt32)
  {
    match Classify(t)
    case IntField => if v.IntV? then Ok(IntText(v.i)) else Err(InvalidCast)
    case UIntField =>
      if !v.UIntV? then Err(InvalidCast)
      else if v.u > MaxInt32 then Err(Overflow)  // Convert.ToInt32
      else Ok(IntText(v.u))
    case FloatField => if v.FloatV? then Ok(v.token) else Err(InvalidCast)
    case StringField =>
      if v.StrV? then Ok(v.s)
      else if v == Null then Ok("")  // a null string interpolates as empty text
      else Err(InvalidCast)
    case BoolField => if v.BoolV? then Ok(BoolText(v.b)) else Err(InvalidCast)
    case EnumField => if v.EnumV? then Ok(EnumToString(t.members, v.k)) else Err(InvalidCast)
  }

  /** `SerializeField(type, name, value)`: the dispatcher's branch for the declared type. */
  function EncodeField(base: Option<string>, t: Type, name: string, v: Value): Emitted
    decreases v, 2
  {
    match Classify(t)
    case ArrayField => EncodeArray(base, t.elem, name, v)
    case NDArrayField => EncodeNDArray(base, t.rank, t.elem, name, v)
    case ListField => EncodeList(base, t.elem, name, v)
    case DictField => EncodeDict(base, t.key, t.val, name, v)
    case NodeField => EncodeNode(base, name, v)
    case Unsupported => Done()  // logged, nothing written
    case IntField | UIntField | FloatField | StringField | BoolField | EnumField =>
      match ScalarText(t, v)
      case Ok(text) => Line(base, name, text)
      case Err(f) => Stop(f)
  }

  /** `WriteArray`: the type name (or `null`, and nothing more), the length, then each element. */
  function EncodeArray(base: Option<string>, elem: Type, name: string, v: Value): Emitted
    decreases v, 1
  {
    if !(v.Null? || (v.ArrayV? && v.dims == [|v.cells|])) then Stop(InvalidCast)
    else
      Then(Line(base, name, NameOrNull(v, CollectionMarker(Array(1, elem)))),
           if v.Null? then Done()
           else Then(Line(base, SizePath(name), IntText(|v.cells|)), EncodeItems(base, elem, name, v.cells, 0)))
  }

  /** `WriteList`: the type name (or `null`, and nothing more), the count, then each element. */
  function EncodeList(base: Option<string>, elem: Type, name: string, v: Value): Emitted
    decreases v, 1
  {
    if !(v.Null? || v.ListV?) then Stop(InvalidCast)
    else
      Then(Line(base, name, NameOrNull(v, CollectionMarker(List(elem)))),
           if v.Null? then Done()
           else Then(Line(base, SizePath(name), IntText(|v.items|)), EncodeItems(base, elem, name, v.items, 0)))
  }

  /** Elements `i ..` of a list or one-dimensional array, each under `name.Item[i]`. */
  function EncodeItems(base: Option<string>, elem: Type, name: string, items: seq<Value>, i: nat): Emitted
    decreases items, 0, |items| - i
  {
    if i >= |items| then Done()
    else Then(EncodeField(base, elem, ItemPath(name, i), items[i]), EncodeItems(base, elem, name, items, i + 1))
  }

  /** `WriteNDArray`: the type name (or `null`, and nothing more), the ", "-joined dimensions, then every cell by flat position. */
  function EncodeNDArray(base: Option<string>, rank: nat, elem: Type, name: string, v: Value): Emitted
    decreases v, 1
  {
    if !(v.Null? || (v.ArrayV? && |v.dims| == rank && Shaped(v))) then Stop(InvalidCast)
    else
      Then(Line(base, name, NameOrNull(v, CollectionMarker(Array(rank, elem)))),
           if v.Null? then Done()
           else Then(Line(base, SizePath(name), JoinInts(v.dims)), EncodeCells(base, elem, name, v, 0)))
  }

  /** Cells at flat positions `i ..`, one after another. */
  function EncodeCells(base: Option<string>, elem: Type, name: string, arr: Value, i: nat): Emitted
    requires Shaped(arr)
    decreases arr, 0, |arr.cells| - i
  {
    if i >= |arr.cells| then Done()
    else Then(EncodeCell(base, elem, name, arr, i), EncodeCells(base, elem, name, arr, i + 1))
  }

  /** The cell at flat position i: the cell at that position's index tuple, under `name.Item[i0, i1, ...]`. */
  function EncodeCell(base: Option<string>, elem: Type, name: string, arr: Value, i: nat): Emitted
    requires Shaped(arr) && i < |arr.cells|
    decreases arr, 0, 0
  {
    PositiveWhenNonEmpty(arr.dims);
    var index := IndexFromMemPos(i, arr.dims);
    IndexRoundTrip(i, arr.dims);
    EncodeField(base, elem, NDItemPath(name, index), arr.cells[MemPos(index, arr.dims)])
  }

  /** `WriteDict`: the type name (or `null`, and nothing more), the count, then each key and value in enumeration order. */
  function EncodeDict(base: Option<string>, kt: Type, vt: Type, name: string, v: Value): Emitted
    decreases v, 1
  {
    if !(v.Null? || v.DictV?) then Stop(InvalidCast)
    else
      Then(Line(base, name, NameOrNull(v, CollectionMarker(Dict(kt, vt)))),
           if v.Null? then Done()
           else Then(Line(base, SizePath(name), IntText(|v.pairs|)), EncodePairs(base, kt, vt, name, v, 0)))
  }

  function EncodePairs(base: Option<string>, kt: Type, vt: Type, name: string, d: Value, i: nat): Emitted
    requires d.DictV?
    decreases d, 0, |d.pairs| - i
  {
    if i >= |d.pairs| then Done()
    else
      Then(EncodeField(base, kt, KeyPath(name, i), d.pairs[i].key),
      Then(EncodeField(base, vt, ValuePath(name, i), d.pairs[i].val),
           EncodePairs(base, kt, vt, name, d, i + 1)))
  }

  /** `WriteSerializable`: the runtime type's full name (or `null`, and nothing more), then the node's fields one level deeper. */
  function EncodeNode(base: Option<string>, name: string, v: Value): Emitted
    decreases v, 1
  {
    if !(v.Null? || v.ObjectV?) then Stop(InvalidCast)
    else
      Then(Line(base, name, NameOrNull(v, if v.ObjectV? then v.typeName else "")),
           if v.Null? then Done() else EncodeFields(Extend(base, name), v, WalkOrder(FieldsOf(v.slots)), 0))
  }

  /** The slots of `obj` that `order` lists exist. */
  predicate SlotOrder(obj: Value, order: seq<nat>)
  {
    obj.ObjectV? && forall j :: 0 <= j < |order| ==> order[j] < |obj.slots|
  }

  /** `ReflectionSerializer.Serialize` from the `i`-th field of the walk `order` on. */
  function EncodeFields(base: Option<string>, obj: Value, order: seq<nat>, i: nat): Emitted
    requires SlotOrder(obj, order)
    decreases obj, 0, |order| - i
  {
    if i >= |order| then Done()
    else Then(EncodeMember(base, obj, order, i), EncodeFields(base, obj, order, i + 1))
  }

  /** One field of that walk, under its sanitized name. */
  function EncodeMember(base: Option<string>, obj: Value, order: seq<nat>, i: nat): Emitted
    requires SlotOrder(obj, order) && i < |order|
    decreases obj, 0, 0
  {
    var s := obj.slots[order[i]];
    EncodeField(base, s.field.ftype, Sanitize(s.field.name), s.value)
  }

  // ---------------------------------------------------------------- lemmas

  /** A null collection or node is written as exactly one line whose value is `null`. */
  lemma NullIsOneLine(base: Option<string>, t: Type, name: string)
    requires t.Array? || t.List? || t.Dict? || (t.Class? && t.selfSerializable)
    ensures EncodeField(base, t, name, Null) == Emitted([LineText(base, name, "null")], None)
  {
  }

  /** A field of an unsupported type writes nothing and does not stop the walk. */
  lemma UnsupportedWritesNothing(base: Option<string>, t: Type, name: string, v: Value)
    requires Classify(t) == Unsupported
    ensures EncodeField(base, t, name, v) == Done()
  {
  }

  /** A null string and an empty string are written identically. */
  lemma NullStringWrittenAsEmpty(base: Option<string>, name: string)
    ensures EncodeField(base, Str, name, Null) == EncodeField(base, Str, name, StrV(""))
  {
  }

  /** A uint above int.MaxValue stops the walk with an overflow before anything is written. */
  lemma LargeUIntOverflows(base: Option<string>, name: string, u: uint32)
    requires u > MaxInt32
    ensures EncodeField(base, UInt, name, UIntV(u)) == Stop(Overflow)
  {
  }

  /**
   * The write dispatch as written: for a type outside the supported kinds, instantiating
   * `ISerializable<type>` throws before anything is logged or written.
   */
  function EncodeFieldAsWritten(base: Option<string>, t: Type, name: string, v: Value): (e: Emitted)
    ensures Classify(t) == Unsupported ==> e == Stop(ConstraintViolation)
    ensures Classify(t) != Unsupported ==> e == EncodeField(base, t, name, v)
  {
    AsWrittenThrowsWhereIntendedSkips(t);
    if ClassifyAsWritten(t) == ConstraintFailure then Stop(ConstraintViolation) else EncodeField(base, t, name, v)
  }

  /** Where the intended dispatch skips a field, the one as written stops the whole walk. */
  lemma WriteAsWrittenStopsWhereIntendedSkips(base: Option<string>, t: Type, name: string, v: Value)
    requires Classify(t) == Unsupported
    ensures EncodeField(base, t, name, v).failure == None
    ensures EncodeFieldAsWritten(base, t, name, v).failure == Some(ConstraintViolation)
  {
    UnsupportedWritesNothing(base, t, name, v);
  }
}

=== FILE: enumext.dfy ===
/**
 * The enum extension methods: an enum written and read as its integral value through the
 * backend's int primitives, at the path it is given. This is a second encoding, beside the
 * dispatcher's by-name one.
 */
module EnumExtensions {
  import opened Failures
  import opened Text
  import opened Paths
  import opened Types
  import opened EnumText
  import opened Decoding
  import opened YamlWriter
  import opened YamlReader

  /** `WriteEnum`: `WriteInt(name, (int)value)`; the base name is left as it is. */
  method WriteEnum(s: YamlSerializer, name: string, k: int32)
    modifies s`lines
    ensures s.lines == old(s.lines) + [LineText(s.baseName, name, IntText(k))]
  {
    s.WriteInt(name, k);
  }

  /** `ReadEnum`: `ReadInt(name)` and an unchecked cast, so any 32-bit number is accepted, named or not. */
  method ReadEnum(d: YamlDeserializer, name: string) returns (r: Result<int32>)
    requires d.Valid()
    modifies d`cursor, d`disposed
    ensures d.Valid()
    ensures !old(d.disposed) ==> Follows(ReadIntAt(d.lines, old(d.cursor), d.baseName, name), r, d.cursor, d.disposed)
    ensures old(d.disposed) ==> r == Err(ObjectDisposed) && d.disposed && d.cursor == old(d.cursor)
  {
    r := d.ReadInt(name);
  }

  /** Reading the line `WriteEnum` wrote, at the same path, gives back the same value and consumes that one line. */
  lemma EnumRoundTrip(lines: seq<string>, pos: nat, base: Option<string>, name: string, k: int32)
    requires pos < |lines| && lines[pos] == LineText(base, name, IntText(k))
    ensures ReadIntAt(lines, pos, base, name) == Ok((k, pos + 1))
  {
    ReadWrittenLine(lines, pos, base, name, IntText(k));
    ParseIntText(k);
  }

  /**
   * The two encodings meet in one direction only: the dispatcher's `Enum.Parse` accepts the
   * number `WriteEnum` writes...
   */
  lemma DispatcherReadsIntegralEnum(lines: seq<string>, pos: nat, base: Option<string>, name: string,
                                    t: Type, k: int32)
    requires t.Enum?
    requires pos < |lines| && lines[pos] == LineText(base, name, IntText(k))
    ensures DecodeScalar(base, t, name, lines, pos) == Ok((EnumV(k), pos + 1))
  {
    ReadWrittenLine(lines, pos, base, name, IntText(k));
    EnumParseAcceptsNumber(t.members, k);
    DispatcherReadsParsedEnum(lines, pos, base, name, t, IntText(k), k);
  }

  lemma DispatcherReadsParsedEnum(lines: seq<string>, pos: nat, base: Option<string>, name: string,
                                  t: Type, text: string, k: int32)
    requires t.Enum? && ReadLineAt(lines, pos, base, name) == Ok((text, pos + 1)) && EnumParse(t.members, text) == Ok(k)
    ensures DecodeScalar(base, t, name, lines, pos) == Ok((EnumV(k), pos + 1))
  {
    assert Classify(t) == EnumField;
  }

  /** ...but `ReadEnum` rejects the member name the dispatcher writes for a named value. */
  lemma IntegralReaderRejectsEnumName(lines: seq<string>, pos: nat, base: Option<string>, name: string,
                                      t: Type, k: int32)
    requires t.Enum? && WellFormedEnum(t.members) && NameOf(t.members, k).Some?
    requires pos < |lines| && lines[pos] == LineText(base, name, EnumToString(t.members, k))
    ensures ReadIntAt(lines, pos, base, name) == Err(Format)
  {
    ReadWrittenLine(lines, pos, base, name, EnumToString(t.members, k));
    EnumNameIsNotANumber(t.members, k);
  }
}

=== FILE: enumtext.dfy ===
/**
 * How the field dispatcher writes and reads enums: by member name through
 * `Enum.ToString()` and `Enum.Parse`, for enums whose underlying type is `int`
 * and that carry no [Flags] attribute.
 */
module EnumText {
  import opened Failures
  import opened Text
  import opened Types

  predicate IsLetter(c: char) { 'a' <= c <= 'z' || 'A' <= c <= 'Z' }

  /** A C# identifier in the ASCII range. */
  predicate IsIdentifier(s: string)
  {
    |s| > 0 && (IsLetter(s[0]) || s[0] == '_') &&
    forall i :: 0 <= i < |s| ==> IsLetter(s[i]) || IsDigit(s[i]) || s[i] == '_'
  }

  /** What a compiled enum declaration guarantees: identifier names, no name declared twice. */
  predicate WellFormedEnum(members: seq<EnumMember>)
  {
    (forall i :: 0 <= i < |members| ==> IsIdentifier(members[i].name)) &&
    (forall i, j :: 0 <= i < j < |members| ==> members[i].name != members[j].name)
  }

  /** The first member with value `k`, if any. */
  function NameOf(members: seq<EnumMember>, k: int32): (r: Option<string>)
    ensures r.Some? ==> exists i :: 0 <= i < |members| && members[i].value == k && members[i].name == r.value
    ensures r.None? ==> forall i :: 0 <= i < |members| ==> members[i].value != k
  {
    if |members| == 0 then None
    else if members[0].value == k then Some(members[0].name)
    else NameOf(members[1..], k)
  }

  /** The value of the member called `name`, if any. */
  function ValueOf(members: seq<EnumMember>, name: string): (r: Option<int32>)
    ensures r.Some? ==> exists i :: 0 <= i < |members| && members[i].name == name && members[i].value == r.value
    ensures r.None? ==> forall i :: 0 <= i < |members| ==> members[i].name != name
  {
    if |members| == 0 then None
    else if members[0].name == name then Some(members[0].value)
    else ValueOf(members[1..], name)
  }

  /** `value.ToString()`: the member's name, or the number when no member has that value. */
  function EnumToString(members: seq<EnumMember>, k: int32): string
  {
    match NameOf(members, k)
    case Some(n) => n
    case None => IntText(k)
  }

  function LookUp(members: seq<EnumMember>, name: string): (r: Result<int32>)
    ensures r.Err? ==> r.failure == Argument
  {
    match ValueOf(members, name)
    case Some(v) => Ok(v)
    case None => Err(Argument)
  }

  /**
   * `Enum.Parse(type, text)`: blank text is rejected; text starting like a number is read
   * as an int (an out-of-range number throws, any other failure falls back to the names);
   * otherwise the trimmed text must be a member name.
   */
  function EnumParse(members: seq<EnumMember>, text: string): (r: Result<int32>)
    ensures r.Err? ==> r.failure == Argument || r.failure == Overflow
  {
    var t := TrimStart(text);
    if |t| == 0 then Err(Argument)
    else if IsDigit(t[0]) || t[0] == '-' || t[0] == '+' then
      match ParseInt(t)
      case Ok(v) => Ok(v)
      case Err(f) => if f == Overflow then Err(Overflow) else LookUp(members, Trim(t))
    else LookUp(members, Trim(t))
  }

  lemma IdentifierUnpadded(s: string)
    requires IsIdentifier(s)
    ensures TrimStart(s) == s && Trim(s) == s
  {
    TrimUnpadded(s);
  }

  /** A member name parses back to the member's value. */
  lemma NameRoundTrip(members: seq<EnumMember>, i: nat)
    requires WellFormedEnum(members) && i < |members|
    ensures EnumParse(members, members[i].name) == Ok(members[i].value)
  {
    var n := members[i].name;
    IdentifierUnpadded(n);
    assert !IsDigit(n[0]) && n[0] != '-' && n[0] != '+';
    var found := ValueOf(members, n);
    assert found.Some?;
    var j :| 0 <= j < |members| && members[j].name == n && members[j].value == found.value;
    assert i == j;
  }

  /** The number text that the integer path writes is accepted by Enum.Parse too. */
  lemma EnumParseAcceptsNumber(members: seq<EnumMember>, k: int32)
    ensures EnumParse(members, IntText(k)) == Ok(k)
  {
    var s := IntText(k);
    TrimUnpadded(s);
    ParseIntText(k);
    assert TrimStart(s) == s;
    assert IsDigit(s[0]) || s[0] == '-';
  }

  /** Every value of a well-formed enum survives ToString followed by Parse. */
  lemma EnumTextRoundTrip(members: seq<EnumMember>, k: int32)
    requires WellFormedEnum(members)
    ensures EnumParse(members, EnumToString(members, k)) == Ok(k)
  {
    var name := NameOf(members, k);
    if name.Some? {
      var i :| 0 <= i < |members| && members[i].value == k && members[i].name == name.value;
      NameRoundTrip(members, i);
    } else {
      EnumParseAcceptsNumber(members, k);
    }
  }

  /** ...but the name the dispatcher writes for a named value is not an integer. */
  lemma EnumNameIsNotANumber(members: seq<EnumMember>, k: int32)
    requires WellFormedEnum(members) && NameOf(members, k).Some?
    ensures ParseInt(EnumToString(members, k)) == Err(Format)
  {
    var n := NameOf(members, k).value;
    var i :| 0 <= i < |members| && members[i].value == k && members[i].name == n;
    assert IsIdentifier(n);
    ParseIntRejectsNonNumber(n);
  }
}

=== FILE: failures.dfy ===
/** The exceptions the codec can raise, and the wrappers that carry them. */
module Failures {

  /** One constructor per kind of exception the codec throws. */
  datatype Failure =
    | LineMismatch(expected: string) // YAMLDeserializer: "Could not read YAML line" (the stream is disposed)
    | ObjectDisposed                 // a read from a stream that was disposed earlier
    | Format                         // FormatException from int.Parse / bool.Parse
    | Overflow                       // OverflowException: int.Parse out of range, Convert.ToInt32, new T[-n]
    | ArgumentOutOfRange             // negative List capacity or negative array dimension
    | Argument                       // ArgumentException from Enum.Parse
    | DuplicateKey                   // ArgumentException from Dictionary.Add on a key already present
    | NullKey                        // ArgumentNullException from Dictionary.Add(null, ...)
    | NullReference                  // unboxing a null into a value-type element
    | RankMismatch                   // an N-D array read back with a rank other than the declared one (SetValue or the generic cast)
    | OutOfMemory                    // an array larger than the runtime can allocate
    | InvalidCast                    // a value that does not have the declared field type
    | ConstraintViolation            // MakeGenericType outside the ISerializable<T> constraint

  datatype Option<+T> = None | Some(value: T)

  datatype Result<+T> = Ok(value: T) | Err(failure: Failure)
}

=== FILE: ndindex.dfy ===
/**
 * Multi-dimensional array positions.
 *
 * The collection extensions walk an N-dimensional array by a flat position and turn that
 * position into an index tuple, dimension 0 varying fastest. This module defines that
 * mapping, its inverse, and proves the two are a bijection between the positions
 * `0 .. product(dims)` and the index tuples inside the array's bounds.
 */
module NDIndex {

  predicate Positive(dims: seq<int>) { forall i :: 0 <= i < |dims| ==> dims[i] > 0 }
  predicate NonNegative(dims: seq<int>) { forall i :: 0 <= i < |dims| ==> dims[i] >= 0 }

  /** The number of elements of an array with these dimensions. */
  function Prod(dims: seq<int>): int
  {
    if |dims| == 0 then 1 else dims[0] * Prod(dims[1..])
  }

  lemma MulGrows(d: int, k: int)
    requires d > 0
    ensures k >= 1 ==> d * k >= d
    ensures k <= -1 ==> d * k <= -d
    ensures k >= 0 ==> d * k >= 0
  {
  }

  lemma {:induction false} ProdPositive(dims: seq<int>)
    requires Positive(dims)
    ensures Prod(dims) > 0
  {
    if |dims| > 0 {
      ProdPositive(dims[1..]);
      MulGrows(dims[0], Prod(dims[1..]));
    }
  }

  lemma {:induction false} ProdNonNegative(dims: seq<int>)
    requires NonNegative(dims)
    ensures Prod(dims) >= 0
  {
    if |dims| > 0 {
      ProdNonNegative(dims[1..]);
      assert dims[0] * Prod(dims[1..]) >= 0 by {
        if dims[0] > 0 {
          MulGrows(dims[0], Prod(dims[1..]));
        }
      }
    }
  }

  /** An array with a cell has no zero dimension. */
  lemma {:induction false} PositiveWhenNonEmpty(dims: seq<int>)
    requires NonNegative(dims) && Prod(dims) > 0
    ensures Positive(dims)
  {
    if |dims| > 0 {
      ProdNonNegative(dims[1..]);
      assert dims[0] != 0;
      assert Prod(dims[1..]) != 0;
      ProdPositiveWhenNonZero(dims[1..]);
      PositiveWhenNonEmpty(dims[1..]);
    }
  }

  lemma ProdPositiveWhenNonZero(dims: seq<int>)
    requires NonNegative(dims) && Prod(dims) != 0
    ensures Prod(dims) > 0
  {
    ProdNonNegative(dims);
  }

  /** `index[i] = (memPos / (dims[0] * ... * dims[i-1])) % dims[i]` */
  function IndexFromMemPos(memPos: int, dims: seq<int>): (index: seq<int>)
    requires Positive(dims)
    ensures |index| == |dims|
  {
    seq(|dims|, i requires 0 <= i < |dims| => ProdPositive(dims[..i]); (memPos / Prod(dims[..i])) % dims[i])
  }

  /** An index tuple inside the bounds of the array. */
  predicate InBounds(index: seq<int>, dims: seq<int>)
  {
    |index| == |dims| && forall i :: 0 <= i < |dims| ==> 0 <= index[i] < dims[i]
  }

  /** The flat position of an index tuple, dimension 0 varying fastest. */
  function MemPos(index: seq<int>, dims: seq<int>): int
    requires |index| == |dims|
  {
    if |dims| == 0 then 0 else index[0] + dims[0] * MemPos(index[1..], dims[1..])
  }

  /** The same index, peeled one dimension at a time. */
  function PeeledIndex(memPos: int, dims: seq<int>): (index: seq<int>)
    requires Positive(dims)
    ensures |index| == |dims|
    decreases |dims|
  {
    if |dims| == 0 then [] else [memPos % dims[0]] + PeeledIndex(memPos / dims[0], dims[1..])
  }

  // ------------------------------------------------------- arithmetic helpers

  lemma {:induction false} ProdSnoc(dims: seq<int>, d: int)
    ensures Prod(dims + [d]) == Prod(dims) * d
  {
    if |dims| > 0 {
      assert (dims + [d])[1..] == dims[1..] + [d];
      ProdSnoc(dims[1..], d);
    }
  }

  lemma DivUnique(p: int, d: int, q: int, r: int)
    requires d > 0 && 0 <= r < d && p == q * d + r
    ensures p / d == q && p % d == r
  {
    var k := p / d - q;
    assert d * k == r - p % d;
    MulGrows(d, k);
  }

  lemma MulStrict(a: int, x: int, y: int)
    requires a > 0
    ensures x < y <==> a * x < a * y
    ensures x <= y <==> a * x <= a * y
  {
    MulGrows(a, y - x);
    assert a * (y - x) == a * y - a * x;
  }

  lemma DivDiv(p: int, a: int, b: int)
    requires p >= 0 && a > 0 && b > 0
    ensures p / (a * b) == (p / a) / b
  {
    var q1, r1 := p / a, p % a;
    var q2, r2 := q1 / b, q1 % b;
    assert p == a * q1 + r1;
    assert q1 == b * q2 + r2;
    assert a * (b * q2 + r2) == a * (b * q2) + a * r2;
    assert a * (b * q2) == (a * b) * q2;
    MulStrict(a, r2, b - 1);
    MulStrict(a, 0, r2);
    assert a * (b - 1) == a * b - a;
    DivUnique(p, a * b, q2, a * r2 + r1);
  }

  /** A position below `d * n` has a quotient by `d` below `n`. */
  lemma QuotientBelow(p: int, d: int, n: int)
    requires 0 <= p && d > 0 && p < d * n
    ensures p / d < n
  {
    assert d * (p / d) <= p;
    MulStrict(d, p / d, n);
  }

  // -------------------------------------------------------------- the lemmas

  /** The closed form of the source and the peeled form agree. */
  lemma {:induction false} PeeledAgrees(memPos: int, dims: seq<int>)
    requires memPos >= 0 && Positive(dims)
    ensures IndexFromMemPos(memPos, dims) == PeeledIndex(memPos, dims)
    decreases |dims|
  {
    if |dims| > 0 {
      var rest := dims[1..];
      PeeledAgrees(memPos / dims[0], rest);
      var closed, peeled := IndexFromMemPos(memPos, dims), PeeledIndex(memPos, dims);
      forall i | 0 <= i < |dims| ensures closed[i] == peeled[i] {
        if i > 0 {
          assert dims[..i][1..] == rest[..i - 1];
          assert Prod(dims[..i]) == dims[0] * Prod(rest[..i - 1]);
          ProdPositive(rest[..i - 1]);
          DivDiv(memPos, dims[0], Prod(rest[..i - 1]));
          assert closed[i] == IndexFromMemPos(memPos / dims[0], rest)[i - 1];
        }
      }
    }
  }

  /** Every index tuple inside the bounds has a position inside the array. */
  lemma {:induction false} MemPosInRange(index: seq<int>, dims: seq<int>)
    requires InBounds(index, dims)
    ensures 0 <= MemPos(index, dims) < Prod(dims)
  {
    if |dims| > 0 {
      MemPosInRange(index[1..], dims[1..]);
      var m, p := MemPos(index[1..], dims[1..]), Prod(dims[1..]);
      MulStrict(dims[0], m, p - 1);
      MulStrict(dims[0], 0, m);
      assert dims[0] * (p - 1) == dims[0] * p - dims[0];
    }
  }

  /** Every position inside the array yields an index inside the bounds, and MemPos inverts it. */
  lemma {:induction false} PeeledRoundTrip(memPos: int, dims: seq<int>)
    requires Positive(dims) && 0 <= memPos < Prod(dims)
    ensures InBounds(PeeledIndex(memPos, dims), dims)
    ensures MemPos(PeeledIndex(memPos, dims), dims) == memPos
    decreases |dims|
  {
    if |dims| > 0 {
      var q := memPos / dims[0];
      QuotientBelow(memPos, dims[0], Prod(dims[1..]));
      PeeledRoundTrip(q, dims[1..]);
      assert PeeledIndex(memPos, dims)[1..] == PeeledIndex(q, dims[1..]);
    }
  }

  /** Every index tuple inside the bounds is recovered from its position. */
  lemma {:induction false} PeeledOfMemPos(index: seq<int>, dims: seq<int>)
    requires Positive(dims) && InBounds(index, dims)
    ensures PeeledIndex(MemPos(index, dims), dims) == index
  {
    if |dims| > 0 {
      var m := MemPos(index[1..], dims[1..]);
      MemPosInRange(index[1..], dims[1..]);
      DivUnique(MemPos(index, dims), dims[0], m, index[0]);
      PeeledOfMemPos(index[1..], dims[1..]);
      assert index == [index[0]] + index[1..];
    }
  }

  /** The position-to-index map of the source sends every position into the bounds and MemPos undoes it. */
  lemma IndexRoundTrip(memPos: int, dims: seq<int>)
    requires Positive(dims) && 0 <= memPos < Prod(dims)
    ensures InBounds(IndexFromMemPos(memPos, dims), dims)
    ensures MemPos(IndexFromMemPos(memPos, dims), dims) == memPos
  {
    PeeledAgrees(memPos, dims);
    PeeledRoundTrip(memPos, dims);
  }

  /** ... and it reaches every index tuple inside the bounds exactly once. */
  lemma PositionRoundTrip(index: seq<int>, dims: seq<int>)
    requires Positive(dims) && InBounds(index, dims)
    ensures 0 <= MemPos(index, dims) < Prod(dims)
    ensures IndexFromMemPos(MemPos(index, dims), dims) == index
  {
    MemPosInRange(index, dims);
    PeeledAgrees(MemPos(index, dims), dims);
    PeeledOfMemPos(index, dims);
  }

  /** Dimension 0 varies fastest: the next position bumps the first coordinate while it has room. */
  lemma FirstDimensionFastest(memPos: int, dims: seq<int>)
    requires Positive(dims) && 0 <= memPos && memPos + 1 < Prod(dims)
    requires IndexFromMemPos(memPos, dims)[0] + 1 < dims[0]
    ensures IndexFromMemPos(memPos + 1, dims)
         == IndexFromMemPos(memPos, dims)[0 := IndexFromMemPos(memPos, dims)[0] + 1]
  {
    var index := IndexFromMemPos(memPos, dims);
    var next := index[0 := index[0] + 1];
    IndexRoundTrip(memPos, dims);
    assert next[1..] == index[1..];
    assert MemPos(next, dims) == memPos + 1;
    PositionRoundTrip(next, dims);
  }

  /** The source's loop: for each dimension, the product of the earlier ones, then divide and reduce. */
  method NDArrayIndexFromMemPos(memPos: int, dims: array<int>) returns (index: array<int>)
    requires memPos >= 0 && Positive(dims[..])
    ensures fresh(index)
    ensures index[..] == IndexFromMemPos(memPos, dims[..])
  {
    index := new int[dims.Length];
    var i := 0;
    while i < dims.Length
      invariant 0 <= i <= dims.Length && index.Length == dims.Length
      invariant forall k :: 0 <= k < i ==> index[k] == IndexFromMemPos(memPos, dims[..])[k]
    {
      var elementsBefore := 1;
      var j := 0;
      while j < i
        modifies {}
        invariant 0 <= j <= i
        invariant elementsBefore == Prod(dims[..j])
      {
        assert dims[..j + 1] == dims[..j] + [dims[j]];
        ProdSnoc(dims[..j], dims[j]);
        elementsBefore := elementsBefore * dims[j];
        j := j + 1;
      }
      assert dims[..i] == dims[..][..i];
      ProdPositive(dims[..i]);
      index[i] := memPos / elementsBefore;
      index[i] := index[i] % dims[i];
      i := i + 1;
    }
    assert index[..] == IndexFromMemPos(memPos, dims[..]);
  }
}

=== FILE: paths.dfy ===
/**
 * Path naming and the YAML line prefix.
 *
 * A value is addressed by a dotted path. The text backend writes it on one line:
 * one tab per '.'-separated segment beyond the first, the last segment, ':' and the value.
 */
module Paths {
  import opened Failures
  import opened Text

  /** `BaseName != null ? $"{BaseName}.{name}" : name` */
  function FullName(baseName: Option<string>, name: string): string
  {
    match baseName
    case None => name
    case Some(b) => b + "." + name
  }

  /** The base name of a nested scope: the full name of the node that opens it. */
  function Extend(baseName: Option<string>, name: string): Option<string>
  {
    Some(FullName(baseName, name))
  }

  /** `PadLeft(1).PadRight(1)`: an empty name becomes one blank, any other is unchanged. */
  function PadToOne(s: string): string { if |s| == 0 then " " else s }

  /** `fullName.Split('.')[^1]` */
  function FieldName(fullName: string): string
  {
    var parts := Split(fullName, '.');
    parts[|parts| - 1]
  }

  /** The number of tabs: `fullName.PadLeft(1).PadRight(1).Split('.').Length - 1`. */
  function Depth(fullName: string): nat
  {
    |Split(PadToOne(fullName), '.')| - 1
  }

  function Tabs(n: nat): (s: string)
    ensures |s| == n && forall i :: 0 <= i < n ==> s[i] == '\t'
  {
    if n == 0 then "" else Tabs(n - 1) + "\t"
  }

  /** `lineStart`: the tabs, the field name and the colon, as both the writer and the reader compute it. */
  function LinePrefix(baseName: Option<string>, name: string): string
  {
    var fullName := FullName(baseName, name);
    Tabs(Depth(fullName)) + FieldName(fullName) + ":"
  }

  /** The text `WriteYAMLLine` hands to `WriteLine`. */
  function LineText(baseName: Option<string>, name: string, value: string): string
  {
    LinePrefix(baseName, name) + value
  }

  // ------------------------------------------------------------ path names

  function SizePath(name: string): string { name + ".Size" }
  function ItemPath(name: string, i: int): string { name + ".Item[" + IntText(i) + "]" }
  function NDItemPath(name: string, index: seq<int>): string { name + ".Item[" + JoinInts(index) + "]" }
  function KeyPath(name: string, i: int): string { name + ".Key[" + IntText(i) + "]" }
  function ValuePath(name: string, i: int): string { name + ".Value[" + IntText(i) + "]" }

  // ---------------------------------------------------------------- lemmas

  /** Padding an empty name to one blank does not change how many segments it has. */
  lemma PaddingKeepsSegmentCount(s: string)
    ensures |Split(PadToOne(s), '.')| == |Split(s, '.')|
  {
  }

  /** The segments of a nested full name are the base's segments followed by the name's. */
  lemma NestedSegments(baseName: string, name: string)
    ensures Split(FullName(Some(baseName), name), '.') == Split(baseName, '.') + Split(name, '.')
  {
    assert FullName(Some(baseName), name) == baseName + ['.'] + name;
    SplitAtSeparator(baseName, name, '.');
  }

  /**
   * A name written under a base sits (segments of the base) tabs deeper than it would
   * at the top level, and keeps its own last segment as field name.
   */
  lemma NestedDepth(baseName: string, name: string)
    ensures Depth(FullName(Some(baseName), name)) == Depth(baseName) + 1 + Depth(name)
    ensures FieldName(FullName(Some(baseName), name)) == FieldName(name)
  {
    NestedSegments(baseName, name);
    PaddingKeepsSegmentCount(FullName(Some(baseName), name));
    PaddingKeepsSegmentCount(baseName);
    PaddingKeepsSegmentCount(name);
  }

  /** Appending a dot-free suffix to a path goes one tab deeper and makes the suffix the field name. */
  lemma SuffixOneDeeper(baseName: Option<string>, name: string, suffix: string)
    requires '.' !in suffix
    ensures Depth(FullName(baseName, name + "." + suffix)) == Depth(FullName(baseName, name)) + 1
    ensures FieldName(FullName(baseName, name + "." + suffix)) == suffix
  {
    var full := FullName(baseName, name);
    assert FullName(baseName, name + "." + suffix) == full + ['.'] + suffix;
    SplitAtSeparator(full, suffix, '.');
    SplitNoSeparator(suffix, '.');
    PaddingKeepsSegmentCount(full + ['.'] + suffix);
    PaddingKeepsSegmentCount(full);
  }

  /** `x.Size` sits one tab deeper than `x`, with field name `Size`. */
  lemma SizeLineOneDeeper(baseName: Option<string>, name: string)
    ensures Depth(FullName(baseName, SizePath(name))) == Depth(FullName(baseName, name)) + 1
    ensures LinePrefix(baseName, SizePath(name)) == Tabs(Depth(FullName(baseName, name)) + 1) + "Size:"
  {
    assert SizePath(name) == name + "." + "Size";
    SuffixOneDeeper(baseName, name, "Size");
    assert "Size" + ":" == "Size:";
  }

  /** Element `i` of `x` sits one tab deeper than `x`, with field name `Item[i]`. */
  lemma ItemLineOneDeeper(baseName: Option<string>, name: string, i: int)
    ensures Depth(FullName(baseName, ItemPath(name, i))) == Depth(FullName(baseName, name)) + 1
    ensures FieldName(FullName(baseName, ItemPath(name, i))) == "Item[" + IntText(i) + "]"
  {
    var suffix := "Item[" + IntText(i) + "]";
    assert name + ".Item[" + IntText(i) + "]" == name + "." + suffix;
    SuffixOneDeeper(baseName, name, suffix);
  }

  /** The number of tabs a line starts with. */
  function LeadingTabs(s: string): nat
  {
    if |s| > 0 && s[0] == '\t' then 1 + LeadingTabs(s[1..]) else 0
  }

  lemma {:induction false} LeadingTabsOfPrefix(d: nat, rest: string)
    requires |rest| == 0 || rest[0] != '\t'
    ensures LeadingTabs(Tabs(d) + rest) == d
  {
    if d > 0 {
      var s := Tabs(d) + rest;
      assert s[0] == '\t';
      assert s[1..] == Tabs(d - 1) + rest;
      LeadingTabsOfPrefix(d - 1, rest);
    } else {
      assert Tabs(d) + rest == rest;
    }
  }

  /**
   * The reader's check looks only at depth and last segment: two paths give the same
   * prefix exactly when they agree on both (field names never start with a tab).
   */
  lemma PrefixComparesDepthAndField(b1: Option<string>, n1: string, b2: Option<string>, n2: string)
    requires var f1, f2 := FieldName(FullName(b1, n1)), FieldName(FullName(b2, n2));
      (|f1| == 0 || f1[0] != '\t') && (|f2| == 0 || f2[0] != '\t')
    ensures LinePrefix(b1, n1) == LinePrefix(b2, n2) <==>
              (Depth(FullName(b1, n1)) == Depth(FullName(b2, n2)) &&
               FieldName(FullName(b1, n1)) == FieldName(FullName(b2, n2)))
  {
    var d1, d2 := Depth(FullName(b1, n1)), Depth(FullName(b2, n2));
    var f1, f2 := FieldName(FullName(b1, n1)), FieldName(FullName(b2, n2));
    var p1, p2 := LinePrefix(b1, n1), LinePrefix(b2, n2);
    assert p1 == Tabs(d1) + (f1 + ":");
    assert p2 == Tabs(d2) + (f2 + ":");
    LeadingTabsOfPrefix(d1, f1 + ":");
    LeadingTabsOfPrefix(d2, f2 + ":");
    if p1 == p2 {
      assert d1 == d2;
      assert f1 == p1[d1..|p1| - 1];
      assert f2 == p2[d2..|p2| - 1];
    }
  }

  /**
   * So a line written for `a.x` passes the check made for `b.x`: any two scopes at the same depth
   * give a field the same prefix, though distinct scopes give it distinct full names.
   */
  lemma SiblingPathsShareAPrefix(b1: string, b2: string, name: string)
    requires Depth(b1) == Depth(b2)
    ensures LinePrefix(Some(b1), name) == LinePrefix(Some(b2), name)
    ensures b1 != b2 <==> FullName(Some(b1), name) != FullName(Some(b2), name)
  {
    NestedDepth(b1, name);
    NestedDepth(b2, name);
    var f1, f2 := FullName(Some(b1), name), FullName(Some(b2), name);
    if f1 == f2 {
      assert |b1| == |b2|;
      assert b1 == f1[..|b1|] == f2[..|b2|] == b2;
    }
  }

  /** A line whose field name and value have no line break has none either. */
  lemma WrittenLineIsOneLine(baseName: Option<string>, name: string, value: string)
    requires NoLineBreak(FieldName(FullName(baseName, name))) && NoLineBreak(value)
    ensures NoLineBreak(LineText(baseName, name, value))
  {
    var full := FullName(baseName, name);
    var text := LineText(baseName, name, value);
    var tabs, field := Tabs(Depth(full)), FieldName(full);
    assert text == tabs + field + ":" + value;
    forall i | 0 <= i < |text| ensures !IsLineBreak(text[i]) {
      if i < |tabs| {
        assert text[i] == tabs[i];
      } else if i < |tabs| + |field| {
        assert text[i] == field[i - |tabs|];
      } else if i == |tabs| + |field| {
        assert text[i] == ':';
      } else {
        assert text[i] == value[i - |tabs| - |field| - 1];
      }
    }
  }
}

=== FILE: roundtrip.dfy ===
/**
 * The codec's round trip: what the field dispatcher writes for a value, read back by the
 * field dispatcher at the same path and under the same base name, is that value again, and
 * the read consumes exactly the lines the write produced.
 */
module RoundTrip {
  import opened Failures
  import opened Text
  import opened Paths
  import opened Types
  import opened NDIndex
  import opened EnumText
  import opened Encoding
  import opened Decoding
  import opened Serialization
  import opened Deserialization

  /** `written` stands in `lines` from position `pos` on. */
  predicate At(lines: seq<string>, pos: nat, written: seq<string>)
    decreases |written|
  {
    if |written| == 0 then pos <= |lines|
    else pos < |lines| && lines[pos] == written[0] && At(lines, pos + 1, written[1..])
  }

  /** `a + b` stands at `pos` exactly when `a` does and `b` follows it at `mid`. */
  lemma {:induction false} AtAppend(lines: seq<string>, pos: nat, a: seq<string>, b: seq<string>, mid: nat)
    requires mid == pos + |a|
    ensures At(lines, pos, a + b) <==> At(lines, pos, a) && At(lines, mid, b)
    decreases |a|
  {
    if |a| == 0 {
      assert a + b == b;
    } else {
      assert (a + b)[1..] == a[1..] + b;
      AtAppend(lines, pos + 1, a[1..], b, mid);
    }
  }

  /** What a write that ran `a` and then `b` left at `pos`: the lines of `a`, then, unless `a` threw, those of `b`. */
  lemma AtThen(lines: seq<string>, pos: nat, a: Emitted, b: Emitted, mid: nat)
    requires At(lines, pos, Then(a, b).lines) && mid == pos + |a.lines|
    ensures At(lines, pos, a.lines)
    ensures a.failure.None? ==> At(lines, mid, b.lines)
  {
    AtAppend(lines, pos, a.lines, b.lines, mid);
  }

  /** The one line of a `WriteYAMLLine` is read back by `ReadYAMLLine` with the same name. */
  lemma AtLine(lines: seq<string>, pos: nat, base: Option<string>, name: string, text: string, next: nat)
    requires At(lines, pos, Line(base, name, text).lines) && next == pos + 1
    ensures ReadLineAt(lines, pos, base, name) == Ok((text, next))
  {
    ReadWrittenLine(lines, pos, base, name, text);
  }

  /** The marker line, the size line and the body of a non-null collection, where they were written. */
  lemma HeaderAt(lines: seq<string>, pos: nat, base: Option<string>, name: string, marker: string, size: string, body: Emitted)
    requires At(lines, pos, Then(Line(base, name, marker), Then(Line(base, SizePath(name), size), body)).lines)
    ensures ReadLineAt(lines, pos, base, name) == Ok((marker, pos + 1))
    ensures ReadLineAt(lines, pos + 1, base, SizePath(name)) == Ok((size, pos + 2))
    ensures At(lines, pos + 2, body.lines)
    ensures |Then(Line(base, name, marker), Then(Line(base, SizePath(name), size), body)).lines| == 2 + |body.lines|
    ensures Then(Line(base, name, marker), Then(Line(base, SizePath(name), size), body)).failure == body.failure
  {
    var m, s := Line(base, name, marker), Line(base, SizePath(name), size);
    AtThen(lines, pos, m, Then(s, body), pos + 1);
    AtThen(lines, pos + 1, s, body, pos + 2);
    AtLine(lines, pos, base, name, marker, pos + 1);
    AtLine(lines, pos + 1, base, SizePath(name), size, pos + 2);
  }

  // ------------------------------------------------------------ what comes back

  /**
   * The values the writer writes in a form the reader rebuilds: of the declared type, a
   * uint that `Convert.ToInt32` accepts, an enum whose declaration is well formed, collections
   * whose counts fit an int and whose dictionary keys are present and distinct, nodes whose
   * runtime type the reader resolves to the same fields. A null is written for reference types only.
   */
  predicate Representable(reg: Registry, t: Type, v: Value)
    decreases v, 1
  {
    match Classify(t)
    case IntField => v.IntV?
    case UIntField => v.UIntV? && v.u <= MaxInt32
    case FloatField => v.FloatV?
    case StringField => v.StrV?
    case BoolField => v.BoolV?
    case EnumField => v.EnumV? && WellFormedEnum(t.members)
    case ArrayField =>
      v.Null? || (v.ArrayV? && v.dims == [|v.cells|] && |v.cells| <= MaxInt32 && ItemsRepresentable(reg, t.elem, v.cells))
    case NDArrayField =>
      v.Null? ||
      (v.ArrayV? && |v.dims| == t.rank >= 2 && Shaped(v) && |v.cells| <= MaxInt32 &&
       (forall j :: 0 <= j < |v.dims| ==> v.dims[j] <= MaxInt32) && ItemsRepresentable(reg, t.elem, v.cells))
    case ListField => v.Null? || (v.ListV? && |v.items| <= MaxInt32 && ItemsRepresentable(reg, t.elem, v.items))
    case DictField => v.Null? || (v.DictV? && |v.pairs| <= MaxInt32 && EntriesRepresentable(reg, t.key, t.val, v))
    case NodeField =>
      v.Null? ||
      (v.ObjectV? && AsciiLower(v.typeName) != "null" && Assignable(reg, t.className, v.typeName) &&
       reg[v.typeName].fields == FieldsOf(v.slots) && SlotsRepresentable(reg, v))
    case Unsupported => v == Null && !IsValueType(t)
    case ConstraintFailure => false
  }

  predicate ItemsRepresentable(reg: Registry, elem: Type, items: seq<Value>)
    decreases items, 0
  {
    forall j :: 0 <= j < |items| ==> Representable(reg, elem, items[j])
  }

  predicate EntriesRepresentable(reg: Registry, kt: Type, vt: Type, d: Value)
    requires d.DictV?
    decreases d, 0
  {
    (forall j :: 0 <= j < |d.pairs| ==>
       d.pairs[j].key != Null && Representable(reg, kt, d.pairs[j].key) && Representable(reg, vt, d.pairs[j].val)) &&
    (KeyedByValue(kt) ==> forall i, j :: 0 <= i < j < |d.pairs| ==> d.pairs[i].key != d.pairs[j].key)
  }

  /** A field of a node comes back when its value is representable, or when it is unsupported and at its default. */
  predicate SlotsRepresentable(reg: Registry, obj: Value)
    requires obj.ObjectV?
    decreases obj, 0
  {
    forall j :: 0 <= j < |obj.slots| ==>
      Representable(reg, obj.slots[j].field.ftype, obj.slots[j].value) ||
      (Classify(obj.slots[j].field.ftype) == Unsupported && obj.slots[j].value == Default(obj.slots[j].field.ftype))
  }

  /** A field of a node can be read back when its value is representable or its type is unsupported, whatever it holds. */
  predicate SlotsReadable(reg: Registry, obj: Value)
    requires obj.ObjectV?
  {
    forall j :: 0 <= j < |obj.slots| ==>
      Representable(reg, obj.slots[j].field.ftype, obj.slots[j].value) || Classify(obj.slots[j].field.ftype) == Unsupported
  }

  /** The node a read rebuilds from what was written: the same fields, the unsupported ones back at `default`. */
  function Restore(obj: Value): (r: Value)
    requires obj.ObjectV?
    ensures r.ObjectV? && r.typeName == obj.typeName && |r.slots| == |obj.slots|
    ensures FieldsOf(r.slots) == FieldsOf(obj.slots)
    ensures forall k :: 0 <= k < |obj.slots| && Classify(obj.slots[k].field.ftype) != Unsupported ==> r.slots[k] == obj.slots[k]
    ensures forall k :: 0 <= k < |obj.slots| && Classify(obj.slots[k].field.ftype) == Unsupported ==>
      r.slots[k] == Slot(obj.slots[k].field, Default(obj.slots[k].field.ftype))
  {
    var slots := seq(|obj.slots|, k requires 0 <= k < |obj.slots| =>
      if Classify(obj.slots[k].field.ftype) == Unsupported then Slot(obj.slots[k].field, Default(obj.slots[k].field.ftype))
      else obj.slots[k]);
    assert FieldsOf(slots) == FieldsOf(obj.slots);
    ObjectV(obj.typeName, slots)
  }

  /** A node whose fields are all representable, or unsupported and at their default, is rebuilt as it was. */
  lemma RestoreRepresentable(reg: Registry, obj: Value)
    requires obj.ObjectV? && SlotsRepresentable(reg, obj)
    ensures SlotsReadable(reg, obj)
    ensures Restore(obj) == obj
  {
    forall k | 0 <= k < |obj.slots|
      ensures Restore(obj).slots[k] == obj.slots[k]
    {
      var s := obj.slots[k];
      assert Representable(reg, s.field.ftype, s.value) || (Classify(s.field.ftype) == Unsupported && s.value == Default(s.field.ftype));
    }
  }

  // ------------------------------------------------------------ one line

  /** A primitive value is written as one line holding its text. */
  lemma ScalarWritten(reg: Registry, base: Option<string>, t: Type, name: string, v: Value)
    requires IsScalar(Classify(t)) && Representable(reg, t, v)
    ensures ScalarText(t, v).Ok? && EncodeField(base, t, name, v) == Line(base, name, ScalarText(t, v).value)
  {
  }

  /** A primitive value's text reads back as the value. */
  lemma ScalarReads(reg: Registry, base: Option<string>, t: Type, name: string, v: Value, lines: seq<string>, pos: nat, next: nat)
    requires IsScalar(Classify(t)) && Representable(reg, t, v) && ScalarText(t, v).Ok?
    requires ReadLineAt(lines, pos, base, name) == Ok((ScalarText(t, v).value, next))
    ensures DecodeField(reg, base, t, name, lines, pos) == Ok((v, next))
  {
    match Classify(t)
    case IntField => ParseIntText(v.i);
    case UIntField => ParseIntText(v.u);
    case FloatField =>
    case StringField =>
    case BoolField => ParseBoolText(v.b);
    case EnumField => EnumTextRoundTrip(t.members, v.k);
  }

  lemma ScalarRoundTrip(reg: Registry, base: Option<string>, t: Type, name: string, v: Value, lines: seq<string>, pos: nat, end: nat)
    requires IsScalar(Classify(t)) && Representable(reg, t, v)
    requires At(lines, pos, EncodeField(base, t, name, v).lines) && end == pos + |EncodeField(base, t, name, v).lines|
    ensures EncodeField(base, t, name, v).failure == None
    ensures DecodeField(reg, base, t, name, lines, pos) == Ok((v, end))
  {
    ScalarWritten(reg, base, t, name, v);
    AtLine(lines, pos, base, name, ScalarText(t, v).value, end);
    ScalarReads(reg, base, t, name, v, lines, pos, end);
  }

  /** An unsupported field writes nothing and reads back as its (null) default without moving. */
  lemma UnsupportedRoundTrip(reg: Registry, base: Option<string>, t: Type, name: string, v: Value, lines: seq<string>, pos: nat, end: nat)
    requires Classify(t) == Unsupported && Representable(reg, t, v)
    requires end == pos + |EncodeField(base, t, name, v).lines|
    ensures EncodeField(base, t, name, v).failure == None
    ensures DecodeField(reg, base, t, name, lines, pos) == Ok((v, end))
  {
  }

  // ------------------------------------------------------------ lists

  lemma ListFieldRoundTrip(reg: Registry, base: Option<string>, t: Type, name: string, v: Value, lines: seq<string>, pos: nat, end: nat)
    requires Classify(t) == ListField && Representable(reg, t, v)
    requires At(lines, pos, EncodeField(base, t, name, v).lines) && end == pos + |EncodeField(base, t, name, v).lines|
    ensures EncodeField(base, t, name, v).failure == None
    ensures DecodeField(reg, base, t, name, lines, pos) == Ok((v, end))
    decreases v, 2
  {
    ListShape(base, t.elem, name, v);
    if v.Null? {
      AtLine(lines, pos, base, name, "null", end);
    } else {
      ListRoundTrip(reg, base, t.elem, name, v, lines, pos, end);
    }
  }

  lemma ListRoundTrip(reg: Registry, base: Option<string>, elem: Type, name: string, v: Value, lines: seq<string>, pos: nat, end: nat)
    requires v.ListV? && |v.items| <= MaxInt32 && ItemsRepresentable(reg, elem, v.items)
    requires At(lines, pos, EncodeList(base, elem, name, v).lines) && end == pos + |EncodeList(base, elem, name, v).lines|
    ensures EncodeList(base, elem, name, v).failure == None
    ensures DecodeList(reg, base, elem, name, lines, pos) == Ok((v, end))
    decreases v, 1
  {
    var items := v.items;
    ListHeader(lines, pos, base, elem, name, items);
    var acc: seq<Value> := [];
    ItemsRoundTrip(reg, base, elem, name, items, 0, acc, lines, pos + 2, end);
    ListReads(reg, base, elem, name, lines, pos, CollectionMarker(List(elem)), |items|, acc, items, end);
  }

  lemma ListHeader(lines: seq<string>, pos: nat, base: Option<string>, elem: Type, name: string, items: seq<Value>)
    requires |items| <= MaxInt32
    requires At(lines, pos, EncodeList(base, elem, name, ListV(items)).lines)
    ensures ReadLineAt(lines, pos, base, name) == Ok((CollectionMarker(List(elem)), pos + 1))
    ensures ReadIntAt(lines, pos + 1, base, SizePath(name)) == Ok((|items|, pos + 2))
    ensures At(lines, pos + 2, EncodeItems(base, elem, name, items, 0).lines)
    ensures |EncodeList(base, elem, name, ListV(items)).lines| == 2 + |EncodeItems(base, elem, name, items, 0).lines|
    ensures EncodeList(base, elem, name, ListV(items)).failure == EncodeItems(base, elem, name, items, 0).failure
  {
    ListShape(base, elem, name, ListV(items));
    HeaderAt(lines, pos, base, name, CollectionMarker(List(elem)), IntText(|items|), EncodeItems(base, elem, name, items, 0));
    ParseIntText(|items|);
  }

  lemma ListReads(reg: Registry, base: Option<string>, elem: Type, name: string, lines: seq<string>, pos: nat,
                  m: string, n: int32, acc: seq<Value>, items: seq<Value>, end: nat)
    requires ReadLineAt(lines, pos, base, name) == Ok((m, pos + 1)) && m != "null"
    requires ReadIntAt(lines, pos + 1, base, SizePath(name)) == Ok((n, pos + 2)) && n >= 0
    requires acc == [] && DecodeItems(reg, base, elem, name, n, lines, pos + 2, acc) == Ok((items, end))
    ensures DecodeList(reg, base, elem, name, lines, pos) == Ok((ListV(items), end))
  {
  }

  // ------------------------------------------------------------ elements

  /** Elements `i ..` come back in order, each from `name.Item[i]`, after the `i` read before them. */
  lemma {:induction false} ItemsRoundTrip(reg: Registry, base: Option<string>, elem: Type, name: string, items: seq<Value>,
                                          i: nat, acc: seq<Value>, lines: seq<string>, pos: nat, end: nat)
    requires i <= |items| && ItemsRepresentable(reg, elem, items) && acc == items[..i]
    requires At(lines, pos, EncodeItems(base, elem, name, items, i).lines)
    requires end == pos + |EncodeItems(base, elem, name, items, i).lines|
    ensures EncodeItems(base, elem, name, items, i).failure == None
    ensures DecodeItems(reg, base, elem, name, |items|, lines, pos, acc) == Ok((items, end))
    decreases items, 0, |items| - i, 1
  {
    if i == |items| {
      assert acc == items;
    } else {
      ItemsRoundTripStep(reg, base, elem, name, items, i, acc, lines, pos, end);
    }
  }

  lemma ItemsRoundTripStep(reg: Registry, base: Option<string>, elem: Type, name: string, items: seq<Value>,
                           i: nat, acc: seq<Value>, lines: seq<string>, pos: nat, end: nat)
    requires i < |items| && ItemsRepresentable(reg, elem, items) && acc == items[..i]
    requires At(lines, pos, EncodeItems(base, elem, name, items, i).lines)
    requires end == pos + |EncodeItems(base, elem, name, items, i).lines|
    ensures EncodeItems(base, elem, name, items, i).failure == None
    ensures DecodeItems(reg, base, elem, name, |items|, lines, pos, acc) == Ok((items, end))
    decreases items, 0, |items| - i, 0
  {
    var next := pos + |EncodeField(base, elem, ItemPath(name, i), items[i]).lines|;
    ItemsAt(lines, pos, base, elem, name, items, i, next);
    FieldGenericRoundTrip(reg, base, elem, ItemPath(name, i), items[i], lines, pos, next);
    TakeOneMore(items, i, acc);
    ItemReadOk(reg, base, elem, name, |items|, lines, pos, acc, i, items[i], next);
    ItemsRoundTrip(reg, base, elem, name, items, i + 1, items[..i + 1], lines, next, end);
  }

  lemma TakeOneMore<T>(s: seq<T>, i: nat, acc: seq<T>)
    requires i < |s| && acc == s[..i]
    ensures acc + [s[i]] == s[..i + 1]
  {
  }

  /** Where element `i` and the elements after it were written. */
  lemma ItemsAt(lines: seq<string>, pos: nat, base: Option<string>, elem: Type, name: string, items: seq<Value>, i: nat, next: nat)
    requires i < |items| && At(lines, pos, EncodeItems(base, elem, name, items, i).lines)
    requires next == pos + |EncodeField(base, elem, ItemPath(name, i), items[i]).lines|
    ensures At(lines, pos, EncodeField(base, elem, ItemPath(name, i), items[i]).lines)
    ensures EncodeField(base, elem, ItemPath(name, i), items[i]).failure.None? ==>
      At(lines, next, EncodeItems(base, elem, name, items, i + 1).lines) &&
      EncodeItems(base, elem, name, items, i).failure == EncodeItems(base, elem, name, items, i + 1).failure &&
      |EncodeItems(base, elem, name, items, i).lines|
        == |EncodeField(base, elem, ItemPath(name, i), items[i]).lines| + |EncodeItems(base, elem, name, items, i + 1).lines|
  {
    AtThen(lines, pos, EncodeField(base, elem, ItemPath(name, i), items[i]), EncodeItems(base, elem, name, items, i + 1), next);
  }

  lemma ItemReadOk(reg: Registry, base: Option<string>, elem: Type, name: string, n: int,
                   lines: seq<string>, pos: nat, acc: seq<Value>, k: nat, v: Value, next: nat)
    requires k == |acc| < n && DecodeFieldGeneric(reg, base, elem, ItemPath(name, k), lines, pos) == Ok((v, next))
    ensures DecodeItems(reg, base, elem, name, n, lines, pos, acc) == DecodeItems(reg, base, elem, name, n, lines, next, acc + [v])
  {
    ItemReadStep(reg, base, elem, name, n, lines, pos, acc);
  }

  // ------------------------------------------------------------ one-dimensional arrays

  lemma ArrayFieldRoundTrip(reg: Registry, base: Option<string>, t: Type, name: string, v: Value, lines: seq<string>, pos: nat, end: nat)
    requires Classify(t) == ArrayField && Representable(reg, t, v)
    requires At(lines, pos, EncodeField(base, t, name, v).lines) && end == pos + |EncodeField(base, t, name, v).lines|
    ensures EncodeField(base, t, name, v).failure == None
    ensures DecodeField(reg, base, t, name, lines, pos) == Ok((v, end))
    decreases v, 2
  {
    ArrayShape(base, t.elem, name, v);
    if v.Null? {
      AtLine(lines, pos, base, name, "null", end);
    } else {
      ArrayRoundTrip(reg, base, t.elem, name, v, lines, pos, end);
    }
  }

  lemma ArrayRoundTrip(reg: Registry, base: Option<string>, elem: Type, name: string, v: Value, lines: seq<string>, pos: nat, end: nat)
    requires v.ArrayV? && v.dims == [|v.cells|] && |v.cells| <= MaxInt32 && ItemsRepresentable(reg, elem, v.cells)
    requires At(lines, pos, EncodeArray(base, elem, name, v).lines) && end == pos + |EncodeArray(base, elem, name, v).lines|
    ensures EncodeArray(base, elem, name, v).failure == None
    ensures DecodeArray(reg, base, elem, name, lines, pos) == Ok((v, end))
    decreases v, 1
  {
    var items := v.cells;
    ArrayHeader(lines, pos, base, elem, name, items);
    var acc: seq<Value> := [];
    ItemsRoundTrip(reg, base, elem, name, items, 0, acc, lines, pos + 2, end);
    ArrayReads(reg, base, elem, name, lines, pos, CollectionMarker(Array(1, elem)), |items|, acc, items, end);
  }

  lemma ArrayHeader(lines: seq<string>, pos: nat, base: Option<string>, elem: Type, name: string, items: seq<Value>)
    requires |items| <= MaxInt32
    requires At(lines, pos, EncodeArray(base, elem, name, ArrayV([|items|], items)).lines)
    ensures ReadLineAt(lines, pos, base, name) == Ok((CollectionMarker(Array(1, elem)), pos + 1))
    ensures ReadIntAt(lines, pos + 1, base, SizePath(name)) == Ok((|items|, pos + 2))
    ensures At(lines, pos + 2, EncodeItems(base, elem, name, items, 0).lines)
    ensures |EncodeArray(base, elem, name, ArrayV([|items|], items)).lines| == 2 + |EncodeItems(base, elem, name, items, 0).lines|
    ensures EncodeArray(base, elem, name, ArrayV([|items|], items)).failure == EncodeItems(base, elem, name, items, 0).failure
  {
    ArrayShape(base, elem, name, ArrayV([|items|], items));
    HeaderAt(lines, pos, base, name, CollectionMarker(Array(1, elem)), IntText(|items|), EncodeItems(base, elem, name, items, 0));
    ParseIntText(|items|);
  }

  lemma ArrayReads(reg: Registry, base: Option<string>, elem: Type, name: string, lines: seq<string>, pos: nat,
                   m: string, n: int32, acc: seq<Value>, items: seq<Value>, end: nat)
    requires ReadLineAt(lines, pos, base, name) == Ok((m, pos + 1)) && m != "null"
    requires ReadIntAt(lines, pos + 1, base, SizePath(name)) == Ok((n, pos + 2)) && n >= 0
    requires acc == [] && DecodeItems(reg, base, elem, name, n, lines, pos + 2, acc) == Ok((items, end))
    ensures DecodeArray(reg, base, elem, name, lines, pos) == Ok((ArrayV([|items|], items), end))
  {
  }

  // ------------------------------------------------------------ N-dimensional arrays

  lemma NDArrayFieldRoundTrip(reg: Registry, base: Option<string>, t: Type, name: string, v: Value, lines: seq<string>, pos: nat, end: nat)
    requires Classify(t) == NDArrayField && Representable(reg, t, v)
    requires At(lines, pos, EncodeField(base, t, name, v).lines) && end == pos + |EncodeField(base, t, name, v).lines|
    ensures EncodeField(base, t, name, v).failure == None
    ensures DecodeField(reg, base, t, name, lines, pos) == Ok((v, end))
    decreases v, 2
  {
    NDArrayShape(base, t.rank, t.elem, name, v);
    if v.Null? {
      AtLine(lines, pos, base, name, "null", end);
    } else {
      NDArrayRoundTrip(reg, base, t.rank, t.elem, name, v, lines, pos, end);
    }
  }

  lemma NDArrayRoundTrip(reg: Registry, base: Option<string>, rank: nat, elem: Type, name: string, v: Value,
                         lines: seq<string>, pos: nat, end: nat)
    requires v.ArrayV? && |v.dims| == rank >= 1 && Shaped(v) && |v.cells| <= MaxInt32
    requires (forall j :: 0 <= j < |v.dims| ==> v.dims[j] <= MaxInt32) && ItemsRepresentable(reg, elem, v.cells)
    requires At(lines, pos, EncodeNDArray(base, rank, elem, name, v).lines) && end == pos + |EncodeNDArray(base, rank, elem, name, v).lines|
    ensures EncodeNDArray(base, rank, elem, name, v).failure == None
    ensures DecodeNDArray(reg, base, elem, name, lines, pos) == Ok((v, end))
    decreases v, 1
  {
    NDArrayShape(base, rank, elem, name, v);
    HeaderAt(lines, pos, base, name, CollectionMarker(Array(rank, elem)), JoinInts(v.dims), EncodeCells(base, elem, name, v, 0));
    ShapeParses(v.dims);
    ShapedReads(reg, base, elem, name, v, lines, pos + 2, end);
  }

  /** The ", "-joined dimensions parse back to the dimensions. */
  lemma ShapeParses(dims: seq<int>)
    requires |dims| >= 1 && NonNegative(dims) && forall j :: 0 <= j < |dims| ==> dims[j] <= MaxInt32
    ensures ParseInts(Split(JoinInts(dims), ',')) == Ok(dims)
  {
    var xs: seq<int32> := dims;
    ParseJoinedInts(xs);
  }

  /** Once the dimensions are known, a fresh array of that shape is filled with every cell written. */
  lemma ShapedReads(reg: Registry, base: Option<string>, elem: Type, name: string, v: Value, lines: seq<string>, pos: nat, end: nat)
    requires Shaped(v) && |v.cells| <= MaxInt32 && ItemsRepresentable(reg, elem, v.cells)
    requires ParseInts(Split(JoinInts(v.dims), ',')) == Ok(v.dims)
    requires At(lines, pos, EncodeCells(base, elem, name, v, 0).lines) && end == pos + |EncodeCells(base, elem, name, v, 0).lines|
    ensures EncodeCells(base, elem, name, v, 0).failure == None
    ensures DecodeShaped(reg, base, elem, name, JoinInts(v.dims), lines, pos) == Ok((v, end))
    decreases v, 0, |v.cells| + 1, 0
  {
    var empty := seq(Prod(v.dims), _ => Default(elem));
    CellsRoundTrip(reg, base, elem, name, v, 0, empty, lines, pos, end);
  }

  /** Cells `i ..` come back in flat order; each is stored at its own position, over the fresh array's defaults. */
  lemma {:induction false} CellsRoundTrip(reg: Registry, base: Option<string>, elem: Type, name: string, arr: Value,
                                          i: nat, acc: seq<Value>, lines: seq<string>, pos: nat, end: nat)
    requires Shaped(arr) && i <= |arr.cells| && |acc| == |arr.cells| && acc[..i] == arr.cells[..i]
    requires ItemsRepresentable(reg, elem, arr.cells)
    requires At(lines, pos, EncodeCells(base, elem, name, arr, i).lines) && end == pos + |EncodeCells(base, elem, name, arr, i).lines|
    ensures EncodeCells(base, elem, name, arr, i).failure == None
    ensures DecodeCells(reg, base, elem, name, arr.dims, lines, pos, i, acc) == Ok((arr.cells, end))
    decreases arr, 0, |arr.cells| - i, 1
  {
    if i == |arr.cells| {
      assert acc == arr.cells;
    } else {
      CellsRoundTripStep(reg, base, elem, name, arr, i, acc, lines, pos, end);
    }
  }

  lemma CellsRoundTripStep(reg: Registry, base: Option<string>, elem: Type, name: string, arr: Value,
                           i: nat, acc: seq<Value>, lines: seq<string>, pos: nat, end: nat)
    requires Shaped(arr) && i < |arr.cells| && |acc| == |arr.cells| && acc[..i] == arr.cells[..i]
    requires ItemsRepresentable(reg, elem, arr.cells)
    requires At(lines, pos, EncodeCells(base, elem, name, arr, i).lines) && end == pos + |EncodeCells(base, elem, name, arr, i).lines|
    ensures EncodeCells(base, elem, name, arr, i).failure == None
    ensures DecodeCells(reg, base, elem, name, arr.dims, lines, pos, i, acc) == Ok((arr.cells, end))
    decreases arr, 0, |arr.cells| - i, 0
  {
    CellIs(base, elem, name, arr, i);
    var path := NDItemPath(name, IndexFromMemPos(i, arr.dims));
    var next := pos + |EncodeField(base, elem, path, arr.cells[i]).lines|;
    CellsAt(lines, pos, base, elem, name, arr, i, next);
    FieldGenericRoundTrip(reg, base, elem, path, arr.cells[i], lines, pos, next);
    var stored := acc[CellPos(arr.dims, i) := arr.cells[i]];
    StoreOneMore(arr.cells, i, acc, CellPos(arr.dims, i));
    CellReadOk(reg, base, elem, name, arr.dims, lines, pos, i, acc, arr.cells[i], next);
    CellsRoundTrip(reg, base, elem, name, arr, i + 1, stored, lines, next, end);
  }

  /** The cell written at flat position `i` is the cell at `i`, under the path of its index tuple, and is read back into `i`. */
  lemma CellIs(base: Option<string>, elem: Type, name: string, arr: Value, i: nat)
    requires Shaped(arr) && i < |arr.cells|
    ensures Positive(arr.dims)
    ensures EncodeCell(base, elem, name, arr, i) == EncodeField(base, elem, NDItemPath(name, IndexFromMemPos(i, arr.dims)), arr.cells[i])
    ensures CellPos(arr.dims, i) == i
  {
    PositiveWhenNonEmpty(arr.dims);
    IndexRoundTrip(i, arr.dims);
  }

  lemma StoreOneMore<T>(s: seq<T>, i: nat, acc: seq<T>, p: nat)
    requires i < |s| && |acc| == |s| && acc[..i] == s[..i] && p == i
    ensures acc[p := s[i]][..i + 1] == s[..i + 1] && |acc[p := s[i]]| == |s|
  {
    assert forall j :: 0 <= j < i ==> acc[j] == s[j] by {
      forall j | 0 <= j < i ensures acc[j] == s[j] { assert acc[..i][j] == s[..i][j]; }
    }
  }

  lemma CellsAt(lines: seq<string>, pos: nat, base: Option<string>, elem: Type, name: string, arr: Value, i: nat, next: nat)
    requires Shaped(arr) && i < |arr.cells| && At(lines, pos, EncodeCells(base, elem, name, arr, i).lines)
    requires next == pos + |EncodeCell(base, elem, name, arr, i).lines|
    ensures At(lines, pos, EncodeCell(base, elem, name, arr, i).lines)
    ensures EncodeCell(base, elem, name, arr, i).failure.None? ==>
      At(lines, next, EncodeCells(base, elem, name, arr, i + 1).lines) &&
      EncodeCells(base, elem, name, arr, i).failure == EncodeCells(base, elem, name, arr, i + 1).failure &&
      |EncodeCells(base, elem, name, arr, i).lines|
        == |EncodeCell(base, elem, name, arr, i).lines| + |EncodeCells(base, elem, name, arr, i + 1).lines|
  {
    AtThen(lines, pos, EncodeCell(base, elem, name, arr, i), EncodeCells(base, elem, name, arr, i + 1), next);
  }

  lemma CellReadOk(reg: Registry, base: Option<string>, elem: Type, name: string, dims: seq<int>,
                   lines: seq<string>, pos: nat, i: nat, acc: seq<Value>, v: Value, next: nat)
    requires NonNegative(dims) && Positive(dims) && |acc| == Prod(dims) && i < |acc|
    requires DecodeFieldGeneric(reg, base, elem, NDItemPath(name, IndexFromMemPos(i, dims)), lines, pos) == Ok((v, next))
    ensures DecodeCells(reg, base, elem, name, dims, lines, pos, i, acc)
         == DecodeCells(reg, base, elem, name, dims, lines, next, i + 1, acc[CellPos(dims, i) := v])
  {
    CellReadStep(reg, base, elem, name, dims, lines, pos, i, acc);
  }

  // ------------------------------------------------------------ dictionaries

  lemma DictFieldRoundTrip(reg: Registry, base: Option<string>, t: Type, name: string, v: Value, lines: seq<string>, pos: nat, end: nat)
    requires Classify(t) == DictField && Representable(reg, t, v)
    requires At(lines, pos, EncodeField(base, t, name, v).lines) && end == pos + |EncodeField(base, t, name, v).lines|
    ensures EncodeField(base, t, name, v).failure == None
    ensures DecodeField(reg, base, t, name, lines, pos) == Ok((v, end))
    decreases v, 2
  {
    DictShape(base, t.key, t.val, name, v);
    if v.Null? {
      AtLine(lines, pos, base, name, "null", end);
    } else {
      DictRoundTrip(reg, base, t.key, t.val, name, v, lines, pos, end);
    }
  }

  lemma DictRoundTrip(reg: Registry, base: Option<string>, kt: Type, vt: Type, name: string, v: Value, lines: seq<string>, pos: nat, end: nat)
    requires v.DictV? && |v.pairs| <= MaxInt32 && EntriesRepresentable(reg, kt, vt, v)
    requires At(lines, pos, EncodeDict(base, kt, vt, name, v).lines) && end == pos + |EncodeDict(base, kt, vt, name, v).lines|
    ensures EncodeDict(base, kt, vt, name, v).failure == None
    ensures DecodeDict(reg, base, kt, vt, name, lines, pos) == Ok((v, end))
    decreases v, 1
  {
    DictShape(base, kt, vt, name, v);
    HeaderAt(lines, pos, base, name, CollectionMarker(Dict(kt, vt)), IntText(|v.pairs|), EncodePairs(base, kt, vt, name, v, 0));
    ParseIntText(|v.pairs|);
    var acc: seq<Pair> := [];
    PairsRoundTrip(reg, base, kt, vt, name, v, 0, acc, lines, pos + 2, end);
    DictReads(reg, base, kt, vt, name, lines, pos, CollectionMarker(Dict(kt, vt)), |v.pairs|, acc, v.pairs, end);
  }

  lemma DictReads(reg: Registry, base: Option<string>, kt: Type, vt: Type, name: string, lines: seq<string>, pos: nat,
                  m: string, n: int32, acc: seq<Pair>, pairs: seq<Pair>, end: nat)
    requires ReadLineAt(lines, pos, base, name) == Ok((m, pos + 1)) && m != "null"
    requires ReadIntAt(lines, pos + 1, base, SizePath(name)) == Ok((n, pos + 2))
    requires acc == [] && DecodePairs(reg, base, kt, vt, name, n, lines, pos + 2, acc) == Ok((pairs, end))
    ensures DecodeDict(reg, base, kt, vt, name, lines, pos) == Ok((DictV(pairs), end))
  {
  }

  /** Entries `i ..` come back in enumeration order; `Dictionary.Add` rejects none of them. */
  lemma {:induction false} PairsRoundTrip(reg: Registry, base: Option<string>, kt: Type, vt: Type, name: string, d: Value,
                                          i: nat, acc: seq<Pair>, lines: seq<string>, pos: nat, end: nat)
    requires d.DictV? && i <= |d.pairs| && EntriesRepresentable(reg, kt, vt, d) && acc == d.pairs[..i]
    requires At(lines, pos, EncodePairs(base, kt, vt, name, d, i).lines) && end == pos + |EncodePairs(base, kt, vt, name, d, i).lines|
    ensures EncodePairs(base, kt, vt, name, d, i).failure == None
    ensures DecodePairs(reg, base, kt, vt, name, |d.pairs|, lines, pos, acc) == Ok((d.pairs, end))
    decreases d, 0, |d.pairs| - i, 1
  {
    if i == |d.pairs| {
      assert acc == d.pairs;
    } else {
      PairsRoundTripStep(reg, base, kt, vt, name, d, i, acc, lines, pos, end);
    }
  }

  lemma PairsRoundTripStep(reg: Registry, base: Option<string>, kt: Type, vt: Type, name: string, d: Value,
                           i: nat, acc: seq<Pair>, lines: seq<string>, pos: nat, end: nat)
    requires d.DictV? && i < |d.pairs| && EntriesRepresentable(reg, kt, vt, d) && acc == d.pairs[..i]
    requires At(lines, pos, EncodePairs(base, kt, vt, name, d, i).lines) && end == pos + |EncodePairs(base, kt, vt, name, d, i).lines|
    ensures EncodePairs(base, kt, vt, name, d, i).failure == None
    ensures DecodePairs(reg, base, kt, vt, name, |d.pairs|, lines, pos, acc) == Ok((d.pairs, end))
    decreases d, 0, |d.pairs| - i, 0
  {
    var p := d.pairs[i];
    var mid := pos + |EncodeField(base, kt, KeyPath(name, i), p.key).lines|;
    var next := mid + |EncodeField(base, vt, ValuePath(name, i), p.val).lines|;
    PairsAt(lines, pos, base, kt, vt, name, d, i, mid, next);
    FieldGenericRoundTrip(reg, base, kt, KeyPath(name, i), p.key, lines, pos, mid);
    FieldGenericRoundTrip(reg, base, vt, ValuePath(name, i), p.val, lines, mid, next);
    KeyIsNew(reg, kt, vt, d, i, acc);
    TakeOneMore(d.pairs, i, acc);
    EntryReadOk(reg, base, kt, vt, name, |d.pairs|, lines, pos, acc, i, p, mid, next);
    PairsRoundTrip(reg, base, kt, vt, name, d, i + 1, d.pairs[..i + 1], lines, next, end);
  }

  /** The key of entry `i` is not among the keys before it, when keys compare by value. */
  lemma KeyIsNew(reg: Registry, kt: Type, vt: Type, d: Value, i: nat, acc: seq<Pair>)
    requires d.DictV? && i < |d.pairs| && EntriesRepresentable(reg, kt, vt, d) && acc == d.pairs[..i]
    ensures d.pairs[i].key != Null
    ensures KeyedByValue(kt) ==> !HasKey(acc, d.pairs[i].key)
  {
    if KeyedByValue(kt) {
      forall j | 0 <= j < |acc| ensures acc[j].key != d.pairs[i].key {
        assert acc[j] == d.pairs[j];
      }
    }
  }

  lemma PairsAt(lines: seq<string>, pos: nat, base: Option<string>, kt: Type, vt: Type, name: string, d: Value, i: nat, mid: nat, next: nat)
    requires d.DictV? && i < |d.pairs| && At(lines, pos, EncodePairs(base, kt, vt, name, d, i).lines)
    requires mid == pos + |EncodeField(base, kt, KeyPath(name, i), d.pairs[i].key).lines|
    requires next == mid + |EncodeField(base, vt, ValuePath(name, i), d.pairs[i].val).lines|
    ensures At(lines, pos, EncodeField(base, kt, KeyPath(name, i), d.pairs[i].key).lines)
    ensures EncodeField(base, kt, KeyPath(name, i), d.pairs[i].key).failure.None? ==>
      At(lines, mid, EncodeField(base, vt, ValuePath(name, i), d.pairs[i].val).lines)
    ensures EncodeField(base, kt, KeyPath(name, i), d.pairs[i].key).failure.None? &&
            EncodeField(base, vt, ValuePath(name, i), d.pairs[i].val).failure.None? ==>
      At(lines, next, EncodePairs(base, kt, vt, name, d, i + 1).lines) &&
      EncodePairs(base, kt, vt, name, d, i).failure == EncodePairs(base, kt, vt, name, d, i + 1).failure &&
      |EncodePairs(base, kt, vt, name, d, i).lines|
        == |EncodeField(base, kt, KeyPath(name, i), d.pairs[i].key).lines|
         + |EncodeField(base, vt, ValuePath(name, i), d.pairs[i].val).lines|
         + |EncodePairs(base, kt, vt, name, d, i + 1).lines|
  {
    var k := EncodeField(base, kt, KeyPath(name, i), d.pairs[i].key);
    var v := EncodeField(base, vt, ValuePath(name, i), d.pairs[i].val);
    var rest := EncodePairs(base, kt, vt, name, d, i + 1);
    AtThen(lines, pos, k, Then(v, rest), mid);
    if k.failure.None? {
      AtThen(lines, mid, v, rest, next);
    }
  }

  lemma EntryReadOk(reg: Registry, base: Option<string>, kt: Type, vt: Type, name: string, n: int,
                    lines: seq<string>, pos: nat, acc: seq<Pair>, j: nat, p: Pair, mid: nat, next: nat)
    requires j == |acc| < n
    requires DecodeFieldGeneric(reg, base, kt, KeyPath(name, j), lines, pos) == Ok((p.key, mid))
    requires DecodeFieldGeneric(reg, base, vt, ValuePath(name, j), lines, mid) == Ok((p.val, next))
    requires p.key != Null && (KeyedByValue(kt) ==> !HasKey(acc, p.key))
    ensures DecodePairs(reg, base, kt, vt, name, n, lines, pos, acc) == DecodePairs(reg, base, kt, vt, name, n, lines, next, acc + [p])
  {
    EntryReadStep(reg, base, kt, vt, name, n, lines, pos, acc);
  }

  // ------------------------------------------------------------ nodes

  lemma NodeFieldRoundTrip(reg: Registry, base: Option<string>, t: Type, name: string, v: Value, lines: seq<string>, pos: nat, end: nat)
    requires Classify(t) == NodeField && Representable(reg, t, v)
    requires At(lines, pos, EncodeField(base, t, name, v).lines) && end == pos + |EncodeField(base, t, name, v).lines|
    ensures EncodeField(base, t, name, v).failure == None
    ensures DecodeField(reg, base, t, name, lines, pos) == Ok((v, end))
    decreases v, 2
  {
    NodeShape(base, name, v);
    if v.Null? {
      AtLine(lines, pos, base, name, "null", end);
      NodeNullReads(reg, base, t.className, name, lines, pos, end);
    } else {
      RestoreRepresentable(reg, v);
      NodeRoundTrip(reg, base, t.className, name, v, lines, pos, end);
    }
  }

  lemma NodeRoundTrip(reg: Registry, base: Option<string>, declared: string, name: string, v: Value, lines: seq<string>, pos: nat, end: nat)
    requires v.ObjectV? && AsciiLower(v.typeName) != "null" && Assignable(reg, declared, v.typeName)
    requires reg[v.typeName].fields == FieldsOf(v.slots) && SlotsReadable(reg, v)
    requires At(lines, pos, EncodeNode(base, name, v).lines) && end == pos + |EncodeNode(base, name, v).lines|
    ensures EncodeNode(base, name, v).failure == None
    ensures DecodeNode(reg, base, declared, name, lines, pos) == Ok((Restore(v), end))
    decreases v, 1
  {
    var fields := FieldsOf(v.slots);
    var body := EncodeFields(Extend(base, name), v, WalkOrder(fields), 0);
    NodeShape(base, name, v);
    AtThen(lines, pos, Line(base, name, v.typeName), body, pos + 1);
    AtLine(lines, pos, base, name, v.typeName, pos + 1);
    FieldsRoundTrip(reg, Extend(base, name), v, WalkOrder(fields), 0, Blank(fields), lines, pos + 1, end);
    StoredInWalkOrder(Restore(v), Blank(fields));
    NodeReads(reg, base, declared, name, lines, pos, v.typeName, fields, Restore(v).slots, end);
  }

  /** A node written as null reads back as null: its tag is "null" in every letter case. */
  lemma NodeNullReads(reg: Registry, base: Option<string>, declared: string, name: string, lines: seq<string>, pos: nat, end: nat)
    requires ReadLineAt(lines, pos, base, name) == Ok(("null", end))
    ensures DecodeNode(reg, base, declared, name, lines, pos) == Ok((Null, end))
  {
    assert AsciiLower("null") == "null";
  }

  lemma NodeReads(reg: Registry, base: Option<string>, declared: string, name: string, lines: seq<string>, pos: nat,
                  tag: string, fields: seq<FieldDecl>, slots: seq<Slot>, end: nat)
    requires ReadLineAt(lines, pos, base, name) == Ok((tag, pos + 1))
    requires AsciiLower(tag) != "null" && Assignable(reg, declared, tag) && reg[tag].fields == fields
    requires DecodeFields(reg, Extend(base, name), fields, WalkOrder(fields), lines, pos + 1, 0, Blank(fields)) == Ok((slots, end))
    ensures DecodeNode(reg, base, declared, name, lines, pos) == Ok((ObjectV(tag, slots), end))
  {
  }

  /** `slots` after the fields `order[i..]` of `obj` have been stored into it, one after the other. */
  function Stored(slots: seq<Slot>, obj: Value, order: seq<nat>, i: nat): (r: seq<Slot>)
    requires SlotOrder(obj, order) && i <= |order| && |slots| == |obj.slots|
    ensures |r| == |slots|
    ensures forall k :: 0 <= k < |r| ==> r[k] == if k in order[i..] then obj.slots[k] else slots[k]
    decreases |order| - i
  {
    if i >= |order| then slots
    else
      var r := Stored(slots[order[i] := obj.slots[order[i]]], obj, order, i + 1);
      assert forall k :: k in order[i..] <==> k == order[i] || k in order[i + 1..] by {
        assert order[i..] == [order[i]] + order[i + 1..];
      }
      r
  }

  /** The walk visits every field, so storing all of it leaves exactly the fields of `obj`, whatever was there before. */
  lemma StoredInWalkOrder(obj: Value, slots: seq<Slot>)
    requires obj.ObjectV? && |slots| == |obj.slots|
    ensures Stored(slots, obj, WalkOrder(FieldsOf(obj.slots)), 0) == obj.slots
  {
    var order := WalkOrder(FieldsOf(obj.slots));
    WalkOrderVisitsEachFieldOnce(FieldsOf(obj.slots));
    assert order[0..] == order;
  }

  /** `Deserialize` from the `i`-th field of the walk on, over what `Serialize` wrote from there. */
  lemma {:induction false} FieldsRoundTrip(reg: Registry, base: Option<string>, obj: Value, order: seq<nat>,
                                           i: nat, slots: seq<Slot>, lines: seq<string>, pos: nat, end: nat)
    requires SlotOrder(obj, order) && i <= |order| && SlotsReadable(reg, obj) && |slots| == |obj.slots|
    requires At(lines, pos, EncodeFields(base, obj, order, i).lines) && end == pos + |EncodeFields(base, obj, order, i).lines|
    ensures EncodeFields(base, obj, order, i).failure == None
    ensures DecodeFields(reg, base, FieldsOf(obj.slots), order, lines, pos, i, slots) == Ok((Stored(slots, Restore(obj), order, i), end))
    decreases obj, 0, |order| - i, 1
  {
    if i < |order| {
      FieldsRoundTripStep(reg, base, obj, order, i, slots, lines, pos, end);
    }
  }

  lemma FieldsRoundTripStep(reg: Registry, base: Option<string>, obj: Value, order: seq<nat>,
                            i: nat, slots: seq<Slot>, lines: seq<string>, pos: nat, end: nat)
    requires SlotOrder(obj, order) && i < |order| && SlotsReadable(reg, obj) && |slots| == |obj.slots|
    requires At(lines, pos, EncodeFields(base, obj, order, i).lines) && end == pos + |EncodeFields(base, obj, order, i).lines|
    ensures EncodeFields(base, obj, order, i).failure == None
    ensures DecodeFields(reg, base, FieldsOf(obj.slots), order, lines, pos, i, slots) == Ok((Stored(slots, Restore(obj), order, i), end))
    decreases obj, 0, |order| - i, 0
  {
    var next := pos + |EncodeMember(base, obj, order, i).lines|;
    MembersAt(lines, pos, base, obj, order, i, next);
    MemberRoundTrip(reg, base, obj, order, i, lines, pos, next);
    var s := obj.slots[order[i]];
    MemberReadOk(reg, base, FieldsOf(obj.slots), order, lines, pos, i, slots, ReadBack(s), next);
    SlotReadBack(reg, obj, order[i], FieldsOf(obj.slots));
    FieldsRoundTrip(reg, base, obj, order, i + 1, slots[order[i] := Restore(obj).slots[order[i]]], lines, next, end);
  }

  /** What reading a field back yields: its value, or the null an unsupported field reads as. */
  function ReadBack(s: Slot): (v: Value)
    ensures Classify(s.field.ftype) != Unsupported ==> v == s.value
  {
    if Classify(s.field.ftype) == Unsupported then Null else s.value
  }

  /** Storing what was read back into a field gives the field its value in the rebuilt node. */
  lemma SlotReadBack(reg: Registry, obj: Value, k: nat, fields: seq<FieldDecl>)
    requires obj.ObjectV? && k < |obj.slots| && SlotsReadable(reg, obj) && fields == FieldsOf(obj.slots)
    ensures Slot(fields[k], Assign(fields[k].ftype, ReadBack(obj.slots[k]))) == Restore(obj).slots[k]
  {
    var s := obj.slots[k];
    assert Representable(reg, s.field.ftype, s.value) || Classify(s.field.ftype) == Unsupported;
    if s.value == Null && Classify(s.field.ftype) != Unsupported {
      assert !IsValueType(s.field.ftype);
    }
  }

  lemma MembersAt(lines: seq<string>, pos: nat, base: Option<string>, obj: Value, order: seq<nat>, i: nat, next: nat)
    requires SlotOrder(obj, order) && i < |order| && At(lines, pos, EncodeFields(base, obj, order, i).lines)
    requires next == pos + |EncodeMember(base, obj, order, i).lines|
    ensures At(lines, pos, EncodeMember(base, obj, order, i).lines)
    ensures EncodeMember(base, obj, order, i).failure.None? ==>
      At(lines, next, EncodeFields(base, obj, order, i + 1).lines) &&
      EncodeFields(base, obj, order, i).failure == EncodeFields(base, obj, order, i + 1).failure &&
      |EncodeFields(base, obj, order, i).lines| == |EncodeMember(base, obj, order, i).lines| + |EncodeFields(base, obj, order, i + 1).lines|
  {
    AtThen(lines, pos, EncodeMember(base, obj, order, i), EncodeFields(base, obj, order, i + 1), next);
  }

  lemma MemberReadOk(reg: Registry, base: Option<string>, fields: seq<FieldDecl>, order: seq<nat>,
                     lines: seq<string>, pos: nat, i: nat, slots: seq<Slot>, v: Value, next: nat)
    requires |slots| == |fields| && Indices(fields, order) && i < |order|
    requires DecodeMember(reg, base, fields, order, i, lines, pos) == Ok((v, next))
    ensures DecodeFields(reg, base, fields, order, lines, pos, i, slots)
         == DecodeFields(reg, base, fields, order, lines, next, i + 1,
                         slots[order[i] := Slot(fields[order[i]], Assign(fields[order[i]].ftype, v))])
  {
    FieldReadStep(reg, base, fields, order, lines, pos, i, slots);
  }

  /** One field: it reads back as the value written, or as null when it is unsupported. */
  lemma MemberRoundTrip(reg: Registry, base: Option<string>, obj: Value, order: seq<nat>, i: nat,
                        lines: seq<string>, pos: nat, next: nat)
    requires SlotOrder(obj, order) && i < |order| && SlotsReadable(reg, obj)
    requires At(lines, pos, EncodeMember(base, obj, order, i).lines) && next == pos + |EncodeMember(base, obj, order, i).lines|
    ensures EncodeMember(base, obj, order, i).failure == None
    ensures DecodeMember(reg, base, FieldsOf(obj.slots), order, i, lines, pos) == Ok((ReadBack(obj.slots[order[i]]), next))
    decreases obj, 0, 0, 0
  {
    var s := obj.slots[order[i]];
    var t := s.field.ftype;
    assert FieldsOf(obj.slots)[order[i]] == s.field;
    if Representable(reg, t, s.value) {
      FieldRoundTrip(reg, base, t, Sanitize(s.field.name), s.value, lines, pos, next);
    } else {
      assert Classify(t) == Unsupported;
    }
  }

  // ------------------------------------------------------------ the dispatcher

  /** The same through `DeserializeFieldGeneric`: a representable value is never a null the cast would reject. */
  lemma FieldGenericRoundTrip(reg: Registry, base: Option<string>, t: Type, name: string, v: Value,
                              lines: seq<string>, pos: nat, end: nat)
    requires Representable(reg, t, v)
    requires At(lines, pos, EncodeField(base, t, name, v).lines) && end == pos + |EncodeField(base, t, name, v).lines|
    ensures EncodeField(base, t, name, v).failure == None
    ensures DecodeFieldGeneric(reg, base, t, name, lines, pos) == Ok((v, end))
    decreases v, 4
  {
    FieldRoundTrip(reg, base, t, name, v, lines, pos, end);
    assert v == Null ==> !IsValueType(t);
  }

  /** `DeserializeField` over the lines `SerializeField` wrote gives the value back and stops right after them. */
  lemma FieldRoundTrip(reg: Registry, base: Option<string>, t: Type, name: string, v: Value,
                       lines: seq<string>, pos: nat, end: nat)
    requires Representable(reg, t, v)
    requires At(lines, pos, EncodeField(base, t, name, v).lines) && end == pos + |EncodeField(base, t, name, v).lines|
    ensures EncodeField(base, t, name, v).failure == None
    ensures DecodeField(reg, base, t, name, lines, pos) == Ok((v, end))
    decreases v, 3
  {
    match Classify(t)
    case ArrayField => ArrayFieldRoundTrip(reg, base, t, name, v, lines, pos, end);
    case NDArrayField => NDArrayFieldRoundTrip(reg, base, t, name, v, lines, pos, end);
    case ListField => ListFieldRoundTrip(reg, base, t, name, v, lines, pos, end);
    case DictField => DictFieldRoundTrip(reg, base, t, name, v, lines, pos, end);
    case NodeField => NodeFieldRoundTrip(reg, base, t, name, v, lines, pos, end);
    case Unsupported => UnsupportedRoundTrip(reg, base, t, name, v, lines, pos, end);
    case IntField => ScalarRoundTrip(reg, base, t, name, v, lines, pos, end);
    case UIntField => ScalarRoundTrip(reg, base, t, name, v, lines, pos, end);
    case FloatField => ScalarRoundTrip(reg, base, t, name, v, lines, pos, end);
    case StringField => ScalarRoundTrip(reg, base, t, name, v, lines, pos, end);
    case BoolField => ScalarRoundTrip(reg, base, t, name, v, lines, pos, end);
    case EnumField => ScalarRoundTrip(reg, base, t, name, v, lines, pos, end);
  }

  // ------------------------------------------------------------ the headline

  /**
   * `Serialize` then `Deserialize`: reading the walk `Serialize` wrote for `obj` into any
   * instance with the same fields (the blank one `GetUninitializedObject` makes, say) sets
   * every supported field to the value `obj` holds and every unsupported one to `default`,
   * and consumes exactly the lines written.
   */
  lemma SerializeThenDeserialize(reg: Registry, base: Option<string>, obj: Value, target: seq<Slot>,
                                 lines: seq<string>, pos: nat, end: nat)
    requires obj.ObjectV? && SlotsReadable(reg, obj) && |target| == |obj.slots|
    requires At(lines, pos, EncodeFields(base, obj, WalkOrder(FieldsOf(obj.slots)), 0).lines)
    requires end == pos + |EncodeFields(base, obj, WalkOrder(FieldsOf(obj.slots)), 0).lines|
    ensures EncodeFields(base, obj, WalkOrder(FieldsOf(obj.slots)), 0).failure == None
    ensures DecodeFields(reg, base, FieldsOf(obj.slots), WalkOrder(FieldsOf(obj.slots)), lines, pos, 0, target) == Ok((Restore(obj).slots, end))
  {
    FieldsRoundTrip(reg, base, obj, WalkOrder(FieldsOf(obj.slots)), 0, target, lines, pos, end);
    StoredInWalkOrder(Restore(obj), target);
  }

  /** So a field of an unsupported type that does not hold its `default` (a `long` holding 5) is lost by the round trip. */
  lemma UnsupportedFieldIsReset(reg: Registry, base: Option<string>, obj: Value, target: seq<Slot>,
                                lines: seq<string>, pos: nat, end: nat, k: nat)
    requires obj.ObjectV? && SlotsReadable(reg, obj) && |target| == |obj.slots|
    requires At(lines, pos, EncodeFields(base, obj, WalkOrder(FieldsOf(obj.slots)), 0).lines)
    requires end == pos + |EncodeFields(base, obj, WalkOrder(FieldsOf(obj.slots)), 0).lines|
    requires k < |obj.slots| && Classify(obj.slots[k].field.ftype) == Unsupported
    ensures var r := DecodeFields(reg, base, FieldsOf(obj.slots), WalkOrder(FieldsOf(obj.slots)), lines, pos, 0, target);
      r.Ok? && r.value.0[k].value == Default(obj.slots[k].field.ftype) &&
      (obj.slots[k].value != Default(obj.slots[k].field.ftype) ==> r.value.0 != obj.slots)
  {
    SerializeThenDeserialize(reg, base, obj, target, lines, pos, end);
  }

  /** The lines from `k` on stand at `k`. */
  lemma {:induction false} AtSuffix(lines: seq<string>, k: nat)
    requires k <= |lines|
    ensures At(lines, k, lines[k..])
    decreases |lines| - k
  {
    if k < |lines| {
      assert lines[k..][1..] == lines[k + 1..];
      AtSuffix(lines, k + 1);
    }
  }

  /**
   * The same through the file: when no written line holds a line break, `ReadLine` over the
   * text the writer left returns the written lines, and the field read from the top comes back.
   */
  lemma FileRoundTrip(reg: Registry, t: Type, name: string, v: Value)
    requires Representable(reg, t, v)
    requires forall j :: 0 <= j < |EncodeField(None, t, name, v).lines| ==> NoLineBreak(EncodeField(None, t, name, v).lines[j])
    ensures EncodeField(None, t, name, v).failure == None
    ensures DecodeField(reg, None, t, name, TextLines(FileText(EncodeField(None, t, name, v).lines)), 0)
         == Ok((v, |EncodeField(None, t, name, v).lines|))
  {
    var w := EncodeField(None, t, name, v).lines;
    ReadBackRecords(w);
    AtSuffix(w, 0);
    assert w[0..] == w;
    FieldRoundTrip(reg, None, t, name, v, w, 0, |w|);
  }
}

=== FILE: serialization.dfy ===
/**
 * The reflection serializer and the collection writers, as methods that append to a
 * `YamlSerializer`. Each one writes exactly the lines the matching `Encoding` function
 * describes and stops with the same exception.
 */
module Serialization {
  import opened Failures
  import opened Text
  import opened Paths
  import opened Types
  import opened NDIndex
  import opened EnumText
  import opened Encoding
  import opened YamlWriter

  lemma Appended(a: seq<string>, b: seq<string>, c: seq<string>)
    ensures (a + b) + c == a + (b + c)
  {
  }

  /** Two header lines, then a body: what the writer holds is what the specification emits. */
  lemma AfterTwoLines(start: seq<string>, a: Emitted, b: Emitted, body: Emitted)
    requires a.failure.None? && b.failure.None?
    ensures var e := Then(a, Then(b, body));
      ((start + a.lines) + b.lines) + body.lines == start + e.lines && e.failure == body.failure
  {
    Appended(start, a.lines, b.lines);
    Appended(start + a.lines, b.lines, body.lines);
    Appended(start, a.lines, b.lines + body.lines);
    Appended(a.lines, b.lines, body.lines);
  }

  /** What `WriteArray` emits for a null or a well-formed value. */
  lemma ArrayShape(base: Option<string>, elem: Type, name: string, v: Value)
    requires v.Null? || (v.ArrayV? && v.dims == [|v.cells|])
    ensures v.Null? ==> EncodeArray(base, elem, name, v) == Line(base, name, "null")
    ensures !v.Null? ==> EncodeArray(base, elem, name, v) == Then(Line(base, name, CollectionMarker(Array(1, elem))), Then(Line(base, SizePath(name), IntText(|v.cells|)), EncodeItems(base, elem, name, v.cells, 0)))
  {
  }

  /** What `WriteList` emits for a null or a well-formed value. */
  lemma ListShape(base: Option<string>, elem: Type, name: string, v: Value)
    requires v.Null? || v.ListV?
    ensures v.Null? ==> EncodeList(base, elem, name, v) == Line(base, name, "null")
    ensures !v.Null? ==> EncodeList(base, elem, name, v) == Then(Line(base, name, CollectionMarker(List(elem))), Then(Line(base, SizePath(name), IntText(|v.items|)), EncodeItems(base, elem, name, v.items, 0)))
  {
  }

  /** What `WriteNDArray` emits for a null or a well-formed value. */
  lemma NDArrayShape(base: Option<string>, rank: nat, elem: Type, name: string, v: Value)
    requires v.Null? || (v.ArrayV? && |v.dims| == rank && Shaped(v))
    ensures v.Null? ==> EncodeNDArray(base, rank, elem, name, v) == Line(base, name, "null")
    ensures !v.Null? ==> EncodeNDArray(base, rank, elem, name, v) == Then(Line(base, name, CollectionMarker(Array(rank, elem))), Then(Line(base, SizePath(name), JoinInts(v.dims)), EncodeCells(base, elem, name, v, 0)))
  {
  }

  /** What `WriteDict` emits for a null or a well-formed value. */
  lemma DictShape(base: Option<string>, kt: Type, vt: Type, name: string, v: Value)
    requires v.Null? || v.DictV?
    ensures v.Null? ==> EncodeDict(base, kt, vt, name, v) == Line(base, name, "null")
    ensures !v.Null? ==> EncodeDict(base, kt, vt, name, v) == Then(Line(base, name, CollectionMarker(Dict(kt, vt))), Then(Line(base, SizePath(name), IntText(|v.pairs|)), EncodePairs(base, kt, vt, name, v, 0)))
  {
  }

  /** What `WriteSerializable` emits for a null or a node. */
  lemma NodeShape(base: Option<string>, name: string, v: Value)
    requires v.Null? || v.ObjectV?
    ensures v.Null? ==> EncodeNode(base, name, v) == Line(base, name, "null")
    ensures v.ObjectV? ==>
      EncodeNode(base, name, v) ==
      Then(Line(base, name, v.typeName), EncodeFields(Extend(base, name), v, WalkOrder(FieldsOf(v.slots)), 0))
  {
  }

  /** A walk whose whole output is `total` has written `done` so far and has `rest` still to do. */
  ghost predicate Resumes(total: Emitted, done: seq<string>, rest: Emitted)
  {
    total == Then(Emitted(done, None), rest)
  }

  /** One step `e` of a walk: the walk ends with it when it throws, and resumes after it otherwise. */
  lemma Step(total: Emitted, done: seq<string>, e: Emitted, rest: Emitted)
    requires Resumes(total, done, Then(e, rest))
    ensures if e.failure.Some? then total == Emitted(done + e.lines, e.failure) else Resumes(total, done + e.lines, rest)
  {
    if e.failure.None? {
      assert done + (e.lines + rest.lines) == (done + e.lines) + rest.lines;
    }
  }

  lemma Finished(total: Emitted, done: seq<string>)
    requires Resumes(total, done, Done())
    ensures total == Emitted(done, None)
  {
    assert done + [] == done;
  }

  /** One element of a list or array walk: the walk stops with it or resumes after it. */
  lemma ItemStep(base: Option<string>, elem: Type, name: string, items: seq<Value>, i: nat, done: seq<string>)
    requires i < |items|
    requires Resumes(EncodeItems(base, elem, name, items, 0), done, EncodeItems(base, elem, name, items, i))
    ensures var e := EncodeField(base, elem, ItemPath(name, i), items[i]);
      if e.failure.Some? then EncodeItems(base, elem, name, items, 0) == Emitted(done + e.lines, e.failure)
      else Resumes(EncodeItems(base, elem, name, items, 0), done + e.lines, EncodeItems(base, elem, name, items, i + 1))
  {
    var e := EncodeField(base, elem, ItemPath(name, i), items[i]);
    var rest := EncodeItems(base, elem, name, items, i + 1);
    assert EncodeItems(base, elem, name, items, i) == Then(e, rest);
    Step(EncodeItems(base, elem, name, items, 0), done, e, rest);
  }

  /** One cell of an N-dimensional walk. */
  lemma CellStep(base: Option<string>, elem: Type, name: string, v: Value, i: nat, done: seq<string>)
    requires Shaped(v) && i < |v.cells|
    requires Resumes(EncodeCells(base, elem, name, v, 0), done, EncodeCells(base, elem, name, v, i))
    ensures var e := EncodeCell(base, elem, name, v, i);
      if e.failure.Some? then EncodeCells(base, elem, name, v, 0) == Emitted(done + e.lines, e.failure)
      else Resumes(EncodeCells(base, elem, name, v, 0), done + e.lines, EncodeCells(base, elem, name, v, i + 1))
  {
    var e := EncodeCell(base, elem, name, v, i);
    var rest := EncodeCells(base, elem, name, v, i + 1);
    assert EncodeCells(base, elem, name, v, i) == Then(e, rest);
    Step(EncodeCells(base, elem, name, v, 0), done, e, rest);
  }

  /** The key of one dictionary entry: the walk stops with it or goes on to the entry's value. */
  lemma KeyStep(base: Option<string>, kt: Type, vt: Type, name: string, d: Value, i: nat, done: seq<string>)
    requires d.DictV? && i < |d.pairs|
    requires Resumes(EncodePairs(base, kt, vt, name, d, 0), done, EncodePairs(base, kt, vt, name, d, i))
    ensures var e := EncodeField(base, kt, KeyPath(name, i), d.pairs[i].key);
      if e.failure.Some? then EncodePairs(base, kt, vt, name, d, 0) == Emitted(done + e.lines, e.failure)
      else Resumes(EncodePairs(base, kt, vt, name, d, 0), done + e.lines,
                   Then(EncodeField(base, vt, ValuePath(name, i), d.pairs[i].val), EncodePairs(base, kt, vt, name, d, i + 1)))
  {
    var e := EncodeField(base, kt, KeyPath(name, i), d.pairs[i].key);
    var rest := Then(EncodeField(base, vt, ValuePath(name, i), d.pairs[i].val), EncodePairs(base, kt, vt, name, d, i + 1));
    assert EncodePairs(base, kt, vt, name, d, i) == Then(e, rest);
    Step(EncodePairs(base, kt, vt, name, d, 0), done, e, rest);
  }

  /** One field of a node's walk. */
  lemma MemberStep(base: Option<string>, obj: Value, order: seq<nat>, i: nat, done: seq<string>)
    requires SlotOrder(obj, order) && i < |order|
    requires Resumes(EncodeFields(base, obj, order, 0), done, EncodeFields(base, obj, order, i))
    ensures var e := EncodeMember(base, obj, order, i);
      if e.failure.Some? then EncodeFields(base, obj, order, 0) == Emitted(done + e.lines, e.failure)
      else Resumes(EncodeFields(base, obj, order, 0), done + e.lines, EncodeFields(base, obj, order, i + 1))
  {
    var e := EncodeMember(base, obj, order, i);
    var rest := EncodeFields(base, obj, order, i + 1);
    assert EncodeFields(base, obj, order, i) == Then(e, rest);
    Step(EncodeFields(base, obj, order, 0), done, e, rest);
  }

  /** `SerializeField(type, name, value, serializer)`. */
  method SerializeField(s: YamlSerializer, t: Type, name: string, v: Value) returns (failure: Option<Failure>)
    modifies s
    ensures var e := EncodeField(old(s.baseName), t, name, v);
      s.lines == old(s.lines) + e.lines && failure == e.failure
    ensures failure.None? ==> s.baseName == old(s.baseName)
    decreases v, 3
  {
    match Classify(t)
    case IntField =>
      if !v.IntV? { return Some(InvalidCast); }
      s.WriteInt(name, v.i);
      failure := None;
    case UIntField =>
      if !v.UIntV? { return Some(InvalidCast); }
      if v.u > MaxInt32 { return Some(Overflow); }
      s.WriteInt(name, v.u);
      failure := None;
    case FloatField =>
      if !v.FloatV? { return Some(InvalidCast); }
      s.WriteFloat(name, v.token);
      failure := None;
    case StringField =>
      if v.StrV? {
        s.WriteString(name, v.s);
      } else if v == Null {
        s.WriteString(name, "");
      } else {
        return Some(InvalidCast);
      }
      failure := None;
    case BoolField =>
      if !v.BoolV? { return Some(InvalidCast); }
      s.WriteBool(name, v.b);
      failure := None;
    case EnumField =>
      if !v.EnumV? { return Some(InvalidCast); }
      s.WriteString(name, EnumToString(t.members, v.k));
      failure := None;
    case ArrayField =>
      failure := WriteArray(s, t.elem, name, v);
    case NDArrayField =>
      failure := WriteNDArray(s, t.rank, t.elem, name, v);
    case ListField =>
      failure := WriteList(s, t.elem, name, v);
    case DictField =>
      failure := WriteDict(s, t.key, t.val, name, v);
    case NodeField =>
      failure := WriteSerializable(s, name, v);
    case Unsupported =>
      failure := None;  // logged, nothing written
  }

  /** `WriteArray`: the type name or `null`; for a null array nothing more. */
  method WriteArray(s: YamlSerializer, elem: Type, name: string, v: Value) returns (failure: Option<Failure>)
    modifies s
    ensures var e := EncodeArray(old(s.baseName), elem, name, v);
      s.lines == old(s.lines) + e.lines && failure == e.failure
    ensures failure.None? ==> s.baseName == old(s.baseName)
    decreases v, 2
  {
    if !(v.Null? || (v.ArrayV? && v.dims == [|v.cells|])) {
      return Some(InvalidCast);
    }
    ghost var base := s.baseName;
    ArrayShape(base, elem, name, v);
    s.WriteString(name, NameOrNull(v, CollectionMarker(Array(1, elem))));
    if v.Null? {
      return None;
    }
    s.WriteInt(SizePath(name), |v.cells|);
    failure := WriteItems(s, elem, name, v, v.cells);
    AfterTwoLines(old(s.lines), Line(base, name, CollectionMarker(Array(1, elem))),
                  Line(base, SizePath(name), IntText(|v.cells|)), EncodeItems(base, elem, name, v.cells, 0));
  }

  /** `WriteList`: the type name or `null`; for a null list nothing more. */
  method WriteList(s: YamlSerializer, elem: Type, name: string, v: Value) returns (failure: Option<Failure>)
    modifies s
    ensures var e := EncodeList(old(s.baseName), elem, name, v);
      s.lines == old(s.lines) + e.lines && failure == e.failure
    ensures failure.None? ==> s.baseName == old(s.baseName)
    decreases v, 2
  {
    if !(v.Null? || v.ListV?) {
      return Some(InvalidCast);
    }
    ghost var base := s.baseName;
    ListShape(base, elem, name, v);
    s.WriteString(name, NameOrNull(v, CollectionMarker(List(elem))));
    if v.Null? {
      return None;
    }
    s.WriteInt(SizePath(name), |v.items|);
    failure := WriteItems(s, elem, name, v, v.items);
    AfterTwoLines(old(s.lines), Line(base, name, CollectionMarker(List(elem))),
                  Line(base, SizePath(name), IntText(|v.items|)), EncodeItems(base, elem, name, v.items, 0));
  }

  /** The `for` loop shared by `WriteList` and `WriteArray`: `writeElement($"{name}.Item[{i}]", items[i])`. */
  method WriteItems(s: YamlSerializer, elem: Type, name: string, ghost v: Value, items: seq<Value>)
    returns (failure: Option<Failure>)
    requires (v.ListV? && v.items == items) || (v.ArrayV? && v.cells == items)
    modifies s
    ensures var e := EncodeItems(old(s.baseName), elem, name, items, 0);
      s.lines == old(s.lines) + e.lines && failure == e.failure
    ensures failure.None? ==> s.baseName == old(s.baseName)
    decreases v, 1
  {
    ghost var base := s.baseName;
    ghost var done: seq<string> := [];
    var i := 0;
    while i < |items|
      invariant i <= |items| && s.baseName == base && s.lines == old(s.lines) + done
      invariant Resumes(EncodeItems(base, elem, name, items, 0), done, EncodeItems(base, elem, name, items, i))
    {
      ghost var e := EncodeField(base, elem, ItemPath(name, i), items[i]);
      failure := SerializeField(s, elem, ItemPath(name, i), items[i]);
      ItemStep(base, elem, name, items, i, done);
      Appended(old(s.lines), done, e.lines);
      if failure.Some? {
        return;
      }
      done := done + e.lines;
      i := i + 1;
    }
    Finished(EncodeItems(base, elem, name, items, 0), done);
    failure := None;
  }

  /** `WriteNDArray`: the type name or `null`, the dimensions, then every flat position through `NDArrayIndexFromMemPos`. */
  method WriteNDArray(s: YamlSerializer, rank: nat, elem: Type, name: string, v: Value) returns (failure: Option<Failure>)
    modifies s
    ensures var e := EncodeNDArray(old(s.baseName), rank, elem, name, v);
      s.lines == old(s.lines) + e.lines && failure == e.failure
    ensures failure.None? ==> s.baseName == old(s.baseName)
    decreases v, 2
  {
    if !(v.Null? || (v.ArrayV? && |v.dims| == rank && Shaped(v))) {
      return Some(InvalidCast);
    }
    ghost var base := s.baseName;
    NDArrayShape(base, rank, elem, name, v);
    s.WriteString(name, NameOrNull(v, CollectionMarker(Array(rank, elem))));
    if v.Null? {
      return None;
    }
    s.WriteString(SizePath(name), JoinInts(v.dims));
    var dimParams := new int[|v.dims|](k requires 0 <= k < |v.dims| => v.dims[k]);
    failure := WriteCells(s, elem, name, v, dimParams);
    AfterTwoLines(old(s.lines), Line(base, name, CollectionMarker(Array(rank, elem))),
                  Line(base, SizePath(name), JoinInts(v.dims)), EncodeCells(base, elem, name, v, 0));
  }

  /** The `for` loop of `WriteNDArray`: `writeElement($"{name}.Item[{string.Join(", ", index)}]", array.GetValue(index))`. */
  method WriteCells(s: YamlSerializer, elem: Type, name: string, v: Value, dimParams: array<int>)
    returns (failure: Option<Failure>)
    requires Shaped(v) && dimParams[..] == v.dims
    modifies s
    ensures var e := EncodeCells(old(s.baseName), elem, name, v, 0);
      s.lines == old(s.lines) + e.lines && failure == e.failure
    ensures failure.None? ==> s.baseName == old(s.baseName)
    decreases v, 1
  {
    ghost var base := s.baseName;
    ghost var total := EncodeCells(base, elem, name, v, 0);
    ghost var done: seq<string> := [];
    var i := 0;
    while i < |v.cells|
      invariant 0 <= i <= |v.cells|
      invariant s.baseName == base && s.lines == old(s.lines) + done
      invariant Resumes(total, done, EncodeCells(base, elem, name, v, i))
    {
      ghost var e := EncodeCell(base, elem, name, v, i);
      failure := WriteCell(s, elem, name, v, dimParams, i);
      CellStep(base, elem, name, v, i, done);
      Appended(old(s.lines), done, e.lines);
      if failure.Some? {
        return;
      }
      done := done + e.lines;
      i := i + 1;
    }
    Finished(total, done);
    failure := None;
  }

  /** One turn of that loop: `NDArrayIndexFromMemPos(i, dimParams)`, then that cell under its index. */
  method WriteCell(s: YamlSerializer, elem: Type, name: string, v: Value, dimParams: array<int>, i: nat)
    returns (failure: Option<Failure>)
    requires Shaped(v) && dimParams[..] == v.dims && i < |v.cells|
    modifies s
    ensures var e := EncodeCell(old(s.baseName), elem, name, v, i);
      s.lines == old(s.lines) + e.lines && failure == e.failure
    ensures failure.None? ==> s.baseName == old(s.baseName)
    decreases v, 0
  {
    PositiveWhenNonEmpty(v.dims);
    IndexRoundTrip(i, v.dims);
    var index := NDArrayIndexFromMemPos(i, dimParams);
    failure := SerializeField(s, elem, NDItemPath(name, index[..]), v.cells[MemPos(index[..], v.dims)]);
  }

  /** `WriteDict`: the type name or `null`; for a null dictionary nothing more. */
  method WriteDict(s: YamlSerializer, kt: Type, vt: Type, name: string, v: Value) returns (failure: Option<Failure>)
    modifies s
    ensures var e := EncodeDict(old(s.baseName), kt, vt, name, v);
      s.lines == old(s.lines) + e.lines && failure == e.failure
    ensures failure.None? ==> s.baseName == old(s.baseName)
    decreases v, 2
  {
    if !(v.Null? || v.DictV?) {
      return Some(InvalidCast);
    }
    ghost var base := s.baseName;
    DictShape(base, kt, vt, name, v);
    s.WriteString(name, NameOrNull(v, CollectionMarker(Dict(kt, vt))));
    if v.Null? {
      return None;
    }
    s.WriteInt(SizePath(name), |v.pairs|);
    failure := WritePairs(s, kt, vt, name, v);
    AfterTwoLines(old(s.lines), Line(base, name, CollectionMarker(Dict(kt, vt))),
                  Line(base, SizePath(name), IntText(|v.pairs|)), EncodePairs(base, kt, vt, name, v, 0));
  }

  /** The `foreach` of `WriteDict`: key `{name}.Key[{i}]`, then value `{name}.Value[{i}]`. */
  method WritePairs(s: YamlSerializer, kt: Type, vt: Type, name: string, v: Value) returns (failure: Option<Failure>)
    requires v.DictV?
    modifies s
    ensures var e := EncodePairs(old(s.baseName), kt, vt, name, v, 0);
      s.lines == old(s.lines) + e.lines && failure == e.failure
    ensures failure.None? ==> s.baseName == old(s.baseName)
    decreases v, 1
  {
    ghost var base := s.baseName;
    ghost var done: seq<string> := [];
    var i := 0;
    while i < |v.pairs|
      invariant 0 <= i <= |v.pairs|
      invariant s.baseName == base && s.lines == old(s.lines) + done
      invariant Resumes(EncodePairs(base, kt, vt, name, v, 0), done, EncodePairs(base, kt, vt, name, v, i))
    {
      var pair := v.pairs[i];
      ghost var ek := EncodeField(base, kt, KeyPath(name, i), pair.key);
      ghost var ev := EncodeField(base, vt, ValuePath(name, i), pair.val);
      failure := SerializeField(s, kt, KeyPath(name, i), pair.key);
      KeyStep(base, kt, vt, name, v, i, done);
      Appended(old(s.lines), done, ek.lines);
      if failure.Some? {
        return;
      }
      done := done + ek.lines;
      failure := SerializeField(s, vt, ValuePath(name, i), pair.val);
      Step(EncodePairs(base, kt, vt, name, v, 0), done, ev, EncodePairs(base, kt, vt, name, v, i + 1));
      Appended(old(s.lines), done, ev.lines);
      if failure.Some? {
        return;
      }
      done := done + ev.lines;
      i := i + 1;
    }
    Finished(EncodePairs(base, kt, vt, name, v, 0), done);
    failure := None;
  }

  /**
   * `ISerializer.WriteSerializable`: the runtime type's full name (or `null`), then the
   * node's fields under the extended base name, which is restored afterwards. An exception
   * from a field leaves the extended base name in place.
   */
  method WriteSerializable(s: YamlSerializer, name: string, v: Value) returns (failure: Option<Failure>)
    modifies s
    ensures var e := EncodeNode(old(s.baseName), name, v);
      s.lines == old(s.lines) + e.lines && failure == e.failure
    ensures failure.None? ==> s.baseName == old(s.baseName)
    decreases v, 2
  {
    if !(v.Null? || v.ObjectV?) {
      return Some(InvalidCast);
    }
    var oldBaseName := s.baseName;
    NodeShape(oldBaseName, name, v);
    s.WriteString(name, NameOrNull(v, if v.ObjectV? then v.typeName else ""));
    s.baseName := Extend(s.baseName, name);
    failure := None;
    if v.ObjectV? {
      ghost var fields := EncodeFields(s.baseName, v, WalkOrder(FieldsOf(v.slots)), 0);
      Appended(old(s.lines), [LineText(old(s.baseName), name, v.typeName)], fields.lines);
      failure := Serialize(s, v);
      if failure.Some? {
        return;
      }
    }
    s.baseName := oldBaseName;
  }

  /** `ReflectionSerializer.Serialize`: every field in metadata-token order, under its sanitized name. */
  method Serialize(s: YamlSerializer, obj: Value) returns (failure: Option<Failure>)
    requires obj.ObjectV?
    modifies s
    ensures var e := EncodeFields(old(s.baseName), obj, WalkOrder(FieldsOf(obj.slots)), 0);
      s.lines == old(s.lines) + e.lines && failure == e.failure
    ensures failure.None? ==> s.baseName == old(s.baseName)
    decreases obj, 1
  {
    var members := WalkOrder(FieldsOf(obj.slots));
    ghost var base := s.baseName;
    ghost var total := EncodeFields(base, obj, members, 0);
    ghost var done: seq<string> := [];
    var i := 0;
    while i < |members|
      invariant 0 <= i <= |members|
      invariant s.baseName == base && s.lines == old(s.lines) + done
      invariant Resumes(total, done, EncodeFields(base, obj, members, i))
    {
      ghost var e := EncodeMember(base, obj, members, i);
      failure := SerializeMember(s, obj, members, i);
      MemberStep(base, obj, members, i, done);
      Appended(old(s.lines), done, e.lines);
      if failure.Some? {
        return;
      }
      done := done + e.lines;
      i := i + 1;
    }
    Finished(total, done);
    failure := None;
  }

  /** One turn of that loop: the field's value under its sanitized name. */
  method SerializeMember(s: YamlSerializer, obj: Value, members: seq<nat>, i: nat) returns (failure: Option<Failure>)
    requires SlotOrder(obj, members) && i < |members|
    modifies s
    ensures var e := EncodeMember(old(s.baseName), obj, members, i);
      s.lines == old(s.lines) + e.lines && failure == e.failure
    ensures failure.None? ==> s.baseName == old(s.baseName)
    decreases obj, 0
  {
    var field := obj.slots[members[i]];
    var fieldName := Sanitize(field.field.name);
    failure := SerializeField(s, field.field.ftype, fieldName, field.value);
  }
}

=== FILE: text.dfy ===
/**
 * The pieces of the .NET text library the codec relies on, written out:
 * invariant-culture integer and boolean text, int.Parse and bool.Parse,
 * String.Split on one character, String.Join of integers with ", ",
 * and the way StreamReader.ReadLine cuts a text into lines.
 */
module Text {
  import opened Failures

  const MinInt32: int := -0x8000_0000
  const MaxInt32: int := 0x7FFF_FFFF
  const MaxUInt32: int := 0xFFFF_FFFF

  /** C#'s `int` */
  type int32 = x: int | MinInt32 <= x <= MaxInt32
  /** C#'s `uint` */
  type uint32 = x: int | 0 <= x <= MaxUInt32

  // ---------------------------------------------------------------- digits

  predicate IsDigit(c: char) { '0' <= c <= '9' }

  predicate AllDigits(s: string) { forall i :: 0 <= i < |s| ==> IsDigit(s[i]) }

  function DigitChar(d: nat): (c: char)
    requires d < 10
    ensures IsDigit(c) && c as int - '0' as int == d
  {
    ('0' as int + d) as char
  }

  /** The decimal digits of `n`, without leading zeros. */
  function NatText(n: nat): (s: string)
    ensures |s| >= 1 && AllDigits(s)
    ensures n < 10 <==> |s| == 1
  {
    if n < 10 then [DigitChar(n)] else NatText(n / 10) + [DigitChar(n % 10)]
  }

  /** The value of a string of decimal digits, most significant first. */
  function DigitsValue(s: string): nat
    requires AllDigits(s)
  {
    if |s| == 0 then 0 else DigitsValue(s[..|s| - 1]) * 10 + (s[|s| - 1] as int - '0' as int)
  }

  lemma {:induction false} DigitsValueOfNatText(n: nat)
    ensures DigitsValue(NatText(n)) == n
  {
    if n >= 10 {
      var s := NatText(n);
      assert s[..|s| - 1] == NatText(n / 10);
      DigitsValueOfNatText(n / 10);
    }
  }

  /** Int32.ToString(CultureInfo.InvariantCulture). */
  function IntText(i: int): (s: string)
    ensures |s| >= 1 && IsDigit(s[|s| - 1]) && (IsDigit(s[0]) || s[0] == '-')
    ensures ',' !in s && '.' !in s
  {
    if i < 0 then "-" + NatText(-i) else NatText(i)
  }

  // ------------------------------------------------------------ whitespace

  /** The white space that NumberStyles.Integer lets int.Parse skip: U+0009 to U+000D and U+0020. */
  predicate IsWhite(c: char) { c == ' ' || '\t' <= c <= '\r' }

  function TrimStart(s: string): (r: string)
    ensures |r| <= |s| && r == s[|s| - |r|..]
    ensures |r| > 0 ==> !IsWhite(r[0])
  {
    if |s| > 0 && IsWhite(s[0]) then TrimStart(s[1..]) else s
  }

  function TrimEnd(s: string): (r: string)
    ensures |r| <= |s| && r == s[..|r|]
    ensures |r| > 0 ==> !IsWhite(r[|r| - 1])
  {
    if |s| > 0 && IsWhite(s[|s| - 1]) then TrimEnd(s[..|s| - 1]) else s
  }

  function Trim(s: string): string { TrimEnd(TrimStart(s)) }

  lemma TrimUnpadded(s: string)
    requires |s| > 0 && !IsWhite(s[0]) && !IsWhite(s[|s| - 1])
    ensures Trim(s) == s
  {
  }

  // --------------------------------------------------------------- parsing

  /**
   * int.Parse(s, CultureInfo.InvariantCulture): optional surrounding white space,
   * an optional sign, one or more decimal digits, and a value that fits in 32 bits.
   */
  function ParseInt(s: string): (r: Result<int32>)
    ensures r.Ok? ==> |Trim(s)| > 0
    ensures r.Err? ==> r.failure == Format || r.failure == Overflow
  {
    ParseTrimmed(Trim(s))
  }

  /** int.Parse once the surrounding white space is gone. */
  function ParseTrimmed(t: string): (r: Result<int32>)
    ensures r.Ok? ==> |t| > 0
    ensures r.Err? ==> r.failure == Format || r.failure == Overflow
  {
    if |t| == 0 then Err(Format)
    else
      var signed := t[0] == '-' || t[0] == '+';
      var digits := if signed then t[1..] else t;
      if |digits| == 0 || !AllDigits(digits) then Err(Format)
      else
        var magnitude := DigitsValue(digits);
        var v: int := if t[0] == '-' then -(magnitude as int) else magnitude;
        if v < MinInt32 || MaxInt32 < v then Err(Overflow) else Ok(v)
  }

  /** The integer text of a 32-bit value parses back to that value. */
  lemma ParseIntText(i: int32)
    ensures ParseInt(IntText(i)) == Ok(i)
  {
    if i < 0 {
      ParseNegativeText(0 - i);
    } else {
      ParseNonNegativeText(i);
    }
  }

  lemma ParseNonNegativeText(n: nat)
    requires n <= MaxInt32
    ensures ParseInt(NatText(n)) == Ok(n)
  {
    DigitsValueOfNatText(n);
    ParseDigits(NatText(n), n);
  }

  lemma ParseNegativeText(n: nat)
    requires 0 < n <= -MinInt32
    ensures ParseInt("-" + NatText(n)) == Ok(0 - n)
  {
    DigitsValueOfNatText(n);
    ParseNegativeDigits(NatText(n), n);
  }

  /** int.Parse of a run of digits. */
  lemma ParseDigits(s: string, n: nat)
    requires |s| > 0 && AllDigits(s) && DigitsValue(s) == n && n <= MaxInt32
    ensures ParseInt(s) == Ok(n)
  {
    TrimUnpadded(s);
  }

  /** int.Parse of a minus sign followed by a run of digits. */
  lemma ParseNegativeDigits(d: string, n: nat)
    requires |d| > 0 && AllDigits(d) && DigitsValue(d) == n && 0 < n <= -MinInt32
    ensures ParseInt("-" + d) == Ok(0 - n)
  {
    var s := "-" + d;
    assert s[0] == '-' && s[1..] == d;
    assert s[|s| - 1] == d[|d| - 1];
    TrimUnpadded(s);
    ParseSignedDigits(s, n);
  }

  /** Once trimmed, a minus sign and a run of digits parse to the negated value. */
  lemma ParseSignedDigits(t: string, n: nat)
    requires |t| > 1 && t[0] == '-' && AllDigits(t[1..]) && DigitsValue(t[1..]) == n && 0 < n <= -MinInt32
    ensures ParseTrimmed(t) == Ok(0 - n)
  {
  }

  /** int.Parse skips a leading blank, as in the ", "-joined dimension list. */
  lemma ParseIntSpacedText(i: int32)
    ensures ParseInt(" " + IntText(i)) == Ok(i)
  {
    var t := IntText(i);
    assert (" " + t)[1..] == t;
    assert TrimStart(" " + t) == TrimStart(t);
    SameTrimSameInt(" " + t, t);
    ParseIntText(i);
  }

  /** A text that starts with neither a sign nor a digit is not an integer. */
  lemma ParseIntRejectsNonNumber(s: string)
    requires |s| > 0 && !IsWhite(s[0]) && !IsWhite(s[|s| - 1])
    requires !IsDigit(s[0]) && s[0] != '-' && s[0] != '+'
    ensures ParseInt(s) == Err(Format)
  {
    TrimUnpadded(s);
    assert !AllDigits(s);
  }

  /** int.Parse only sees the trimmed text. */
  lemma SameTrimSameInt(a: string, b: string)
    requires Trim(a) == Trim(b)
    ensures ParseInt(a) == ParseInt(b)
  {
  }

  /** Element-wise int.Parse, failing at the first text that does not parse (Select(int.Parse).ToArray()). */
  function ParseInts(parts: seq<string>): (r: Result<seq<int32>>)
    ensures r.Ok? ==> |r.value| == |parts|
    ensures r.Err? ==> r.failure == Format || r.failure == Overflow
  {
    if |parts| == 0 then Ok([])
    else
      match ParseInt(parts[0])
      case Err(f) => Err(f)
      case Ok(v) =>
        match ParseInts(parts[1..])
        case Err(f) => Err(f)
        case Ok(vs) => Ok([v] + vs)
  }

  // --------------------------------------------------------------- booleans

  /** Boolean.ToString(CultureInfo.InvariantCulture). */
  function BoolText(b: bool): string { if b then "True" else "False" }

  function LowerChar(c: char): char { if 'A' <= c <= 'Z' then (c as int + 32) as char else c }

  /** Lower-casing of the ASCII letters; other characters are left as they are. */
  function AsciiLower(s: string): (r: string)
    ensures |r| == |s|
    ensures forall i :: 0 <= i < |s| ==> r[i] == LowerChar(s[i])
  {
    if |s| == 0 then [] else [LowerChar(s[0])] + AsciiLower(s[1..])
  }

  /** bool.Parse: "true" or "false" in any ASCII letter case, ASCII white space around it allowed. */
  function ParseBool(s: string): Result<bool>
  {
    var t := AsciiLower(Trim(s));
    if t == "true" then Ok(true) else if t == "false" then Ok(false) else Err(Format)
  }

  lemma ParseBoolText(b: bool)
    ensures ParseBool(BoolText(b)) == Ok(b)
  {
    var s := BoolText(b);
    TrimUnpadded(s);
    assert AsciiLower(s) == if b then "true" else "false";
  }

  // -------------------------------------------------------- split and join

  /** String.Split(sep): the texts between separators; never empty. */
  function Split(s: string, sep: char): (parts: seq<string>)
    ensures |parts| >= 1
  {
    if |s| == 0 then [""]
    else
      var rest := Split(s[1..], sep);
      if s[0] == sep then [""] + rest else [[s[0]] + rest[0]] + rest[1..]
  }

  lemma {:induction false} SplitNoSeparator(s: string, sep: char)
    requires sep !in s
    ensures Split(s, sep) == [s]
  {
    if |s| > 0 {
      assert sep !in s[1..] by {
        forall i | 0 <= i < |s[1..]| ensures s[1..][i] != sep { assert s[1..][i] == s[i + 1]; }
      }
      SplitNoSeparator(s[1..], sep);
      assert [s[0]] + s[1..] == s;
    }
  }

  /** Splitting at a separator splits each side on its own. */
  lemma {:induction false} SplitAtSeparator(a: string, b: string, sep: char)
    ensures Split(a + [sep] + b, sep) == Split(a, sep) + Split(b, sep)
  {
    if |a| > 0 {
      assert (a + [sep] + b)[1..] == a[1..] + [sep] + b;
      SplitAtSeparator(a[1..], b, sep);
    }
  }

  /** String.Join(", ", xs) over integers. */
  function JoinInts(xs: seq<int>): (s: string)
    ensures '.' !in s
  {
    if |xs| == 0 then ""
    else if |xs| == 1 then IntText(xs[0])
    else IntText(xs[0]) + ", " + JoinInts(xs[1..])
  }

  /** Splitting a ", "-joined list at ',' gives the numbers, every one after the first with a leading blank. */
  lemma {:induction false} SplitJoinInts(xs: seq<int>)
    requires |xs| >= 1
    ensures var parts := Split(JoinInts(xs), ',');
      && |parts| == |xs|
      && parts[0] == IntText(xs[0])
      && forall i :: 1 <= i < |xs| ==> parts[i] == " " + IntText(xs[i])
  {
    if |xs| == 1 {
      SplitNoSeparator(IntText(xs[0]), ',');
    } else {
      var head, tail := IntText(xs[0]), JoinInts(xs[1..]);
      assert JoinInts(xs) == head + [','] + (" " + tail);
      SplitAtSeparator(head, " " + tail, ',');
      SplitNoSeparator(head, ',');
      SplitJoinInts(xs[1..]);
      SplitLeadingBlank(tail);
      var rest := Split(tail, ',');
      var parts := Split(JoinInts(xs), ',');
      assert parts == [head] + ([" " + rest[0]] + rest[1..]);
      BlankedParts(parts, head, rest, xs[1..]);
      forall i | 1 <= i < |xs| ensures parts[i] == " " + IntText(xs[i]) {
        assert xs[1..][i - 1] == xs[i];
      }
    }
  }

  lemma BlankedParts(parts: seq<string>, head: string, rest: seq<string>, ys: seq<int>)
    requires |rest| == |ys| >= 1 && rest[0] == IntText(ys[0])
    requires forall i :: 1 <= i < |ys| ==> rest[i] == " " + IntText(ys[i])
    requires parts == [head] + ([" " + rest[0]] + rest[1..])
    ensures |parts| == |ys| + 1 && parts[0] == head
    ensures forall i :: 1 <= i < |parts| ==> parts[i] == " " + IntText(ys[i - 1])
  {
    forall i | 1 <= i < |parts| ensures parts[i] == " " + IntText(ys[i - 1]) {
      if i > 1 {
        assert parts[i] == rest[1..][i - 2] == rest[i - 1];
      }
    }
  }

  lemma SplitLeadingBlank(t: string)
    ensures Split(" " + t, ',') == [" " + Split(t, ',')[0]] + Split(t, ',')[1..]
  {
    assert (" " + t)[1..] == t;
  }

  /** The ", "-joined list of 32-bit numbers parses back, element by element, to the numbers. */
  lemma ParseJoinedInts(xs: seq<int32>)
    requires |xs| >= 1
    ensures ParseInts(Split(JoinInts(xs), ',')) == Ok(xs)
  {
    SplitJoinInts(xs);
    var parts := Split(JoinInts(xs), ',');
    forall j | 0 <= j < |xs| ensures ParseInt(parts[j]) == Ok(xs[j]) {
      if j == 0 { ParseIntText(xs[0]); } else { ParseIntSpacedText(xs[j]); }
    }
    ParseIntsEach(parts, xs);
  }

  lemma {:induction false} ParseIntsEach(parts: seq<string>, xs: seq<int32>)
    requires |parts| == |xs|
    requires forall j :: 0 <= j < |parts| ==> ParseInt(parts[j]) == Ok(xs[j])
    ensures ParseInts(parts) == Ok(xs)
  {
    if |parts| > 0 {
      ParseIntsEach(parts[1..], xs[1..]);
      assert [xs[0]] + xs[1..] == xs;
    }
  }

  // ----------------------------------------------------------------- lines

  predicate IsLineBreak(c: char) { c == '\n' || c == '\r' }

  predicate NoLineBreak(s: string) { forall i :: 0 <= i < |s| ==> !IsLineBreak(s[i]) }

  /** The position of the first line break, or |t| when there is none. */
  function BreakAt(t: string): (k: nat)
    ensures k <= |t|
    ensures forall i :: 0 <= i < k ==> !IsLineBreak(t[i])
    ensures k < |t| ==> IsLineBreak(t[k])
  {
    if |t| == 0 || IsLineBreak(t[0]) then 0 else 1 + BreakAt(t[1..])
  }

  /**
   * The lines StreamReader.ReadLine returns, one after the other, for the text `t`:
   * a line ends at "\r\n", at "\r" or at "\n", and a last line needs no terminator.
   */
  function TextLines(t: string): seq<string>
    decreases |t|
  {
    if |t| == 0 then []
    else
      var k := BreakAt(t);
      if k == |t| then [t]
      else
        var next := if t[k] == '\r' && k + 1 < |t| && t[k + 1] == '\n' then k + 2 else k + 1;
        [t[..k]] + TextLines(t[next..])
  }

  /** The text a sequence of `StreamWriter.WriteLine` calls leaves in the file: each record, then "\n". */
  function FileText(records: seq<string>): (t: string)
    ensures |t| >= |records|
  {
    if |records| == 0 then "" else records[0] + "\n" + FileText(records[1..])
  }

  /** A record without line breaks, then "\n": `ReadLine` returns the record and goes on after the "\n". */
  lemma FirstLineBack(s: string, rest: string)
    requires NoLineBreak(s)
    ensures TextLines(s + ("\n" + rest)) == [s] + TextLines(rest)
  {
    var t := s + ("\n" + rest);
    assert forall i :: 0 <= i < |s| ==> t[i] == s[i];
    assert t[|s|] == '\n';
    assert BreakAt(t) == |s|;
    assert t[..|s|] == s;
    assert t[|s| + 1..] == rest;
  }

  /** Records without line breaks are read back by `ReadLine`, one per call, exactly as written. */
  lemma {:induction false} ReadBackRecords(records: seq<string>)
    requires forall i :: 0 <= i < |records| ==> NoLineBreak(records[i])
    ensures TextLines(FileText(records)) == records
  {
    if |records| > 0 {
      var tail := records[1..];
      assert records == [records[0]] + tail;
      assert FileText(records) == records[0] + ("\n" + FileText(tail));
      FirstLineBack(records[0], FileText(tail));
      forall i | 0 <= i < |tail|
        ensures NoLineBreak(tail[i])
      {
        assert tail[i] == records[i + 1];
      }
      ReadBackRecords(tail);
    }
  }

  /** A record that holds a line break is read back as more than one line. */
  lemma TextLinesOfBrokenLine(s: string, i: nat)
    requires i < |s| && s[i] == '\n'
    ensures |TextLines(FileText([s]))| >= 2
  {
    var t := FileText([s]);
    assert t == s + "\n" + FileText([]);
    var k := BreakAt(t);
    assert t[i] == '\n';
    assert k <= i;
    var next := if t[k] == '\r' && k + 1 < |t| && t[k + 1] == '\n' then k + 2 else k + 1;
    assert next <= |s|;
    assert |t[next..]| > 0;
    var rest := TextLines(t[next..]);
    assert |rest| >= 1;
  }
}

=== FILE: types.dfy ===
/**
 * The data the reflection serializer walks: declared field types, runtime values,
 * the field descriptors of node types, and the order in which fields are visited.
 */
module Types {
  import opened Failures
  import opened Text

  datatype EnumMember = EnumMember(name: string, value: int32)

  /** The declared type of a field, element, key or value, as the dispatcher distinguishes it. */
  datatype Type =
    | Int                                          // int
    | UInt                                         // uint
    | Float                                        // float
    | Str                                          // string
    | Bool                                         // bool
    | Enum(enumName: string, members: seq<EnumMember>)  // an enum with an int underlying type
    | Array(rank: nat, elem: Type)                 // T[], T[,], ...
    | List(elem: Type)                             // List<T>
    | Dict(key: Type, val: Type)                   // Dictionary<K, V>
    | Class(className: string, selfSerializable: bool)  // a class; selfSerializable: it implements ISerializable<itself>
    | Other(otherName: string, valueType: bool)    // any other type (long, double, a plain struct, ...)

  /** A field as reflection reports it: name, declared type and metadata token. */
  datatype FieldDecl = FieldDecl(name: string, ftype: Type, token: int)

  /**
   * A runtime value. Floats are carried as their invariant-culture text. An N-dimensional
   * array keeps its cells flat, the cell at index tuple `idx` at position `MemPos(idx, dims)`.
   */
  datatype Value =
    | IntV(i: int32)
    | UIntV(u: uint32)
    | FloatV(token: string)
    | StrV(s: string)
    | BoolV(b: bool)
    | EnumV(k: int32)
    | ArrayV(dims: seq<int>, cells: seq<Value>)
    | ListV(items: seq<Value>)
    | DictV(pairs: seq<Pair>)
    | ObjectV(typeName: string, slots: seq<Slot>)  // an ISerializable node: runtime type and its fields
    | OpaqueV(bits: int)                           // a value of an unsupported value type (a long, a struct)
    | Null

  /** One entry of a dictionary, in enumeration order. */
  datatype Pair = Pair(key: Value, val: Value)

  /** One field of a node together with its current value. */
  datatype Slot = Slot(field: FieldDecl, value: Value)

  /** What the reader learns about a type from its name: its supertypes and its fields. */
  datatype TypeDecl = TypeDecl(supertypes: set<string>, fields: seq<FieldDecl>)

  /** The types the running program can resolve by full name. */
  type Registry = map<string, TypeDecl>

  /** `typeof(T).IsAssignableFrom(type)` for the node type named `rt`. */
  predicate Assignable(reg: Registry, declared: string, rt: string)
  {
    rt in reg && (rt == declared || declared in reg[rt].supertypes)
  }

  function FieldsOf(slots: seq<Slot>): (fields: seq<FieldDecl>)
    ensures |fields| == |slots| && forall k :: 0 <= k < |slots| ==> fields[k] == slots[k].field
  {
    seq(|slots|, k requires 0 <= k < |slots| => slots[k].field)
  }

  // ------------------------------------------------------------- dispatch

  /** The branch of the field dispatcher a declared type takes. */
  datatype Category =
    | IntField | UIntField | FloatField | StringField | BoolField | EnumField
    | ArrayField | NDArrayField | ListField | DictField | NodeField
    | Unsupported        // logged and skipped
    | ConstraintFailure  // the runtime rejects the generic instantiation

  /** The branches that write or read a single line. */
  predicate IsScalar(c: Category)
  {
    c.IntField? || c.UIntField? || c.FloatField? || c.StringField? || c.BoolField? || c.EnumField?
  }

  /**
   * The dispatcher's chain of tests, with the node test read as intended: a type that is
   * none of the supported kinds is logged and skipped.
   */
  function Classify(t: Type): (c: Category)
    ensures c != ConstraintFailure
    ensures c == Unsupported <==> t.Other? || (t.Class? && !t.selfSerializable)
  {
    match t
    case Int => IntField
    case UInt => UIntField
    case Float => FloatField
    case Str => StringField
    case Bool => BoolField
    case Enum(_, _) => EnumField
    case Array(rank, _) => if rank == 1 then ArrayField else NDArrayField
    case List(_) => ListField
    case Dict(_, _) => DictField
    case Class(_, self) => if self then NodeField else Unsupported
    case Other(_, _) => Unsupported
  }

  /**
   * The chain as written: the node test instantiates `ISerializable<type>`, whose type
   * parameter is constrained to `ISerializable<T>`, so for every type outside the
   * supported kinds the instantiation itself throws and the logging branch is never reached.
   */
  function ClassifyAsWritten(t: Type): (c: Category)
    ensures c != Unsupported
  {
    match t
    case Class(_, self) => if self then NodeField else ConstraintFailure
    case Other(_, _) => ConstraintFailure
    case _ => Classify(t)
  }

  /** The two readings differ exactly on the unsupported types. */
  lemma AsWrittenThrowsWhereIntendedSkips(t: Type)
    ensures Classify(t) == Unsupported <==> ClassifyAsWritten(t) == ConstraintFailure
    ensures Classify(t) != Unsupported ==> ClassifyAsWritten(t) == Classify(t)
  {
  }

  /** A `long` field: intended to be logged and skipped, as written an exception. */
  lemma LongFieldIsRejected()
    ensures Classify(Other("System.Int64", true)) == Unsupported
    ensures ClassifyAsWritten(Other("System.Int64", true)) == ConstraintFailure
  {
  }

  /** Types whose `default` is not null. Node classes are reference types in this model. */
  predicate IsValueType(t: Type)
  {
    t.Int? || t.UInt? || t.Float? || t.Bool? || t.Enum? || (t.Other? && t.valueType)
  }

  /** `default(T)` for a field of type `t`. */
  function Default(t: Type): (v: Value)
    ensures v == Null <==> !IsValueType(t)
  {
    match t
    case Int => IntV(0)
    case UInt => UIntV(0)
    case Float => FloatV("0")
    case Bool => BoolV(false)
    case Enum(_, _) => EnumV(0)
    case Other(_, valueType) => if valueType then OpaqueV(0) else Null
    case _ => Null
  }

  /** `FieldInfo.SetValue`: a null stored into a value-type field leaves the field at its default. */
  function Assign(t: Type, v: Value): (r: Value)
    ensures v != Null ==> r == v
    ensures v == Null ==> r == Default(t)
  {
    if v == Null then Default(t) else v
  }

  /** Keys that a dictionary compares by value; other keys are compared by reference. */
  predicate KeyedByValue(t: Type)
  {
    t.Int? || t.UInt? || t.Float? || t.Str? || t.Bool? || t.Enum?
  }

  // ---------------------------------------------------------- marker names

  /** The text of `s` before its first `[` (a generic type's argument list). */
  function BeforeBracket(s: string): (r: string)
    ensures '[' !in r && |r| <= |s| && r == s[..|r|]
  {
    if |s| == 0 || s[0] == '[' then ""
    else
      var rest := BeforeBracket(s[1..]);
      assert s[..|rest| + 1] == [s[0]] + s[1..][..|rest|];
      [s[0]] + rest
  }

  /** The text of `s` after its last `.` or `+` (namespace and enclosing-type separators). */
  function AfterLastSeparator(s: string): (r: string)
    ensures '.' !in r && '+' !in r && |r| <= |s| && r == s[|s| - |r|..]
  {
    if |s| == 0 || s[|s| - 1] == '.' || s[|s| - 1] == '+' then ""
    else AfterLastSeparator(s[..|s| - 1]) + [s[|s| - 1]]
  }

  /** `Type.Name` from `Type.FullName`: no namespace, no enclosing type, no generic arguments. */
  function ShortName(fullName: string): (r: string)
    ensures '.' !in r && '+' !in r && '[' !in r
  {
    AfterLastSeparator(BeforeBracket(fullName))
  }

  /** A simple name keeps itself under any namespace or enclosing type. */
  lemma {:induction false} ShortNameOfQualified(qualifier: string, sep: char, n: string)
    requires sep == '.' || sep == '+'
    requires '[' !in qualifier
    requires '.' !in n && '+' !in n && '[' !in n
    ensures ShortName(qualifier + [sep] + n) == n
  {
    var q := qualifier + [sep] + n;
    assert '[' !in q by {
      forall i | 0 <= i < |q| ensures q[i] != '[' {
        if i < |qualifier| { assert q[i] == qualifier[i]; }
        else if i > |qualifier| { assert q[i] == n[i - |qualifier| - 1]; }
      }
    }
    NoBracketBefore(q);
    SeparatorThenName(qualifier + [sep], n);
  }

  lemma {:induction false} NoBracketBefore(s: string)
    requires '[' !in s
    ensures BeforeBracket(s) == s
    decreases |s|
  {
    if |s| > 0 {
      assert '[' !in s[1..] by {
        forall i | 0 <= i < |s[1..]| ensures s[1..][i] != '[' {
          assert s[1..][i] == s[i + 1];
        }
      }
      NoBracketBefore(s[1..]);
      assert s == [s[0]] + s[1..];
    }
  }

  lemma {:induction false} SeparatorThenName(p: string, n: string)
    requires |p| > 0 && (p[|p| - 1] == '.' || p[|p| - 1] == '+')
    requires '.' !in n && '+' !in n
    ensures AfterLastSeparator(p + n) == n
    decreases |n|
  {
    if |n| == 0 {
      assert p + n == p;
    } else {
      var m := n[..|n| - 1];
      assert (p + n)[..|p + n| - 1] == p + m;
      assert '.' !in m && '+' !in m by {
        forall i | 0 <= i < |m| ensures m[i] != '.' && m[i] != '+' {
          assert m[i] == n[i];
        }
      }
      SeparatorThenName(p, m);
      assert m + [n[|n| - 1]] == n;
    }
  }

  /** The name the runtime gives `long`. */
  lemma LongShortName()
    ensures ShortName("System.Int64") == "Int64"
  {
    assert "System.Int64" == "System" + ['.'] + "Int64";
    ShortNameOfQualified("System", '.', "Int64");
  }

  /** The name the runtime gives a nested class. */
  lemma NestedShortName()
    ensures ShortName("Game.Outer+Inner") == "Inner"
  {
    assert "Game.Outer+Inner" == "Game.Outer" + ['+'] + "Inner";
    ShortNameOfQualified("Game.Outer", '+', "Inner");
  }

  /** `Type.Name` of the types a collection marker can name. */
  function TypeName(t: Type): string
    decreases t, 1
  {
    match t
    case Int => "Int32"
    case UInt => "UInt32"
    case Float => "Single"
    case Str => "String"
    case Bool => "Boolean"
    case Enum(n, _) => ShortName(n)
    case Array(rank, elem) => ArrayTypeName(rank, elem)
    case List(_) => "List`1"
    case Dict(_, _) => "Dictionary`2"
    case Class(n, _) => ShortName(n)
    case Other(n, _) => ShortName(n)
  }

  /** `T[]`, `T[,]`, ...: the element name, then brackets around rank - 1 commas. */
  function ArrayTypeName(rank: nat, elem: Type): (s: string)
    ensures |s| > 0 && s[|s| - 1] == ']'
    decreases elem, 2
  {
    TypeName(elem) + "[" + seq(if rank == 0 then 0 else rank - 1, _ => ',') + "]"
  }

  /** The marker line of a non-null collection: the collection's type name, never the text "null". */
  function CollectionMarker(t: Type): (s: string)
    requires t.Array? || t.List? || t.Dict?
    ensures s != "null"
  {
    match t
    case Array(rank, elem) => ArrayTypeName(rank, elem)
    case List(_) => "List`1"
    case Dict(_, _) => "Dictionary`2"
  }

  /**
    * An array whose element type is declared as `qualifier.n` or `qualifier+n` is
    * marked with `n` alone, as `Type.Name` gives it: `long[]` is marked `Int64[]`.
    */
  lemma {:induction false} QualifiedElementMarker(qualifier: string, sep: char, n: string, rank: nat, elem: Type)
    requires sep == '.' || sep == '+'
    requires '[' !in qualifier
    requires '.' !in n && '+' !in n && '[' !in n
    requires (elem.Enum? && elem.enumName == qualifier + [sep] + n) || (elem.Class? && elem.className == qualifier + [sep] + n)
      || (elem.Other? && elem.otherName == qualifier + [sep] + n)
    ensures CollectionMarker(Array(rank, elem)) == n + "[" + seq(if rank == 0 then 0 else rank - 1, _ => ',') + "]"
  {
    ShortNameOfQualified(qualifier, sep, n);
    assert TypeName(elem) == n;
  }

  // ---------------------------------------------------- field name sanitiser

  /** The position of the last `c` in `s`, or -1. */
  function LastIndexOf(s: string, c: char): (r: int)
    ensures -1 <= r < |s|
    ensures r >= 0 ==> s[r] == c
    ensures forall j :: r < j < |s| ==> s[j] != c
  {
    if |s| == 0 then -1
    else if s[|s| - 1] == c then |s| - 1
    else LastIndexOf(s[..|s| - 1], c)
  }

  /**
   * The regular expression `.*<(.*)>.*` applied to a one-line field name: when some '<'
   * precedes the last '>', the name becomes the text between the last such '<' and that '>'.
   */
  function Sanitize(name: string): string
  {
    var close := LastIndexOf(name, '>');
    if close < 0 then name
    else
      var open := LastIndexOf(name[..close], '<');
      if open < 0 then name else name[open + 1..close]
  }

  /** An auto-property's backing field `<P>k__BackingField` is written under the property's name P. */
  lemma SanitizeBackingField(p: string)
    requires '<' !in p && '>' !in p
    ensures Sanitize("<" + p + ">k__BackingField") == p
  {
    var s := "<" + p + ">k__BackingField";
    var close := LastIndexOf(s, '>');
    assert s[|p| + 1] == '>';
    assert forall j :: |p| + 1 < j < |s| ==> s[j] != '>';
    assert close == |p| + 1;
    var head := s[..close];
    assert head == "<" + p;
    assert head[0] == '<';
    assert forall j :: 0 < j < |head| ==> head[j] != '<';
    assert LastIndexOf(head, '<') == 0;
    assert s[1..close] == p;
  }

  /** A name without '<' is written unchanged. */
  lemma SanitizePlainName(name: string)
    requires '<' !in name
    ensures Sanitize(name) == name
  {
    var close := LastIndexOf(name, '>');
    if close >= 0 {
      var head := name[..close];
      assert forall j :: 0 <= j < |head| ==> head[j] == name[j];
    }
  }

  // ----------------------------------------------------------- walk order

  /** Field `a` is visited before field `b`: smaller metadata token, ties kept in declaration order. */
  predicate VisitedBefore(fields: seq<FieldDecl>, a: nat, b: nat)
    requires a < |fields| && b < |fields|
  {
    fields[a].token < fields[b].token || (fields[a].token == fields[b].token && a < b)
  }

  predicate Indices(fields: seq<FieldDecl>, order: seq<nat>)
  {
    forall j :: 0 <= j < |order| ==> order[j] < |fields|
  }

  predicate InVisitOrder(fields: seq<FieldDecl>, order: seq<nat>)
    requires Indices(fields, order)
  {
    forall i, j :: 0 <= i < j < |order| ==> VisitedBefore(fields, order[i], order[j])
  }

  /** Insert field `k` after every field whose token is not larger. */
  function InsertByToken(fields: seq<FieldDecl>, order: seq<nat>, k: nat): (r: seq<nat>)
    requires k < |fields| && Indices(fields, order)
    ensures Indices(fields, r) && |r| == |order| + 1
    ensures multiset(r) == multiset(order) + multiset{k}
    decreases |order|
  {
    if |order| == 0 then [k]
    else
      var last := order[|order| - 1];
      if fields[last].token <= fields[k].token then order + [k]
      else
        var front := order[..|order| - 1];
        assert order == front + [last];
        InsertByToken(fields, front, k) + [last]
  }

  /** The first `n` fields, stably sorted by metadata token. */
  function SortedPrefix(fields: seq<FieldDecl>, n: nat): (order: seq<nat>)
    requires n <= |fields|
    ensures Indices(fields, order) && |order| == n
  {
    if n == 0 then [] else InsertByToken(fields, SortedPrefix(fields, n - 1), n - 1)
  }

  /** `fields.OrderBy(m => m.MetadataToken)`, as indices into the declared fields. */
  function WalkOrder(fields: seq<FieldDecl>): (order: seq<nat>)
    ensures Indices(fields, order) && |order| == |fields|
  {
    SortedPrefix(fields, |fields|)
  }

  lemma {:induction false} InsertKeepsOrder(fields: seq<FieldDecl>, order: seq<nat>, k: nat)
    requires k < |fields| && Indices(fields, order) && InVisitOrder(fields, order)
    requires forall j :: 0 <= j < |order| ==> order[j] < k
    ensures InVisitOrder(fields, InsertByToken(fields, order, k))
    decreases |order|
  {
    if |order| > 0 {
      var last := order[|order| - 1];
      if fields[k].token < fields[last].token {
        var front := order[..|order| - 1];
        InsertKeepsOrder(fields, front, k);
        var ins := InsertByToken(fields, front, k);
        forall e | e in ins ensures VisitedBefore(fields, e, last) {
          assert e in multiset(ins);
          if e != k {
            assert e in multiset(front);
            var j :| 0 <= j < |front| && front[j] == e;
            assert order[j] == e;
          }
        }
        var r := ins + [last];
        forall i, j | 0 <= i < j < |r| ensures VisitedBefore(fields, r[i], r[j]) {
          if j == |r| - 1 {
            assert r[i] in ins;
          } else {
            assert r[i] == ins[i] && r[j] == ins[j];
          }
        }
      }
    }
  }

  /** The indices `0 .. n - 1` in increasing order. */
  function Range(n: nat): (r: seq<nat>)
    ensures |r| == n && forall i :: 0 <= i < n ==> r[i] == i
  {
    if n == 0 then [] else Range(n - 1) + [n - 1]
  }

  lemma BelowRange(order: seq<nat>, n: nat)
    requires multiset(order) == multiset(Range(n))
    ensures forall j :: 0 <= j < |order| ==> order[j] < n
  {
    forall j | 0 <= j < |order| ensures order[j] < n {
      assert order[j] in multiset(Range(n));
    }
  }

  lemma {:induction false} SortedPrefixPermutes(fields: seq<FieldDecl>, n: nat)
    requires n <= |fields|
    ensures multiset(SortedPrefix(fields, n)) == multiset(Range(n))
  {
    if n > 0 {
      var last: nat := n - 1;
      var prev := SortedPrefix(fields, last);
      SortedPrefixPermutes(fields, last);
      RangeSnoc(last);
      calc {
        multiset(SortedPrefix(fields, n));
        multiset(InsertByToken(fields, prev, last));
        multiset(prev) + multiset{last};
        multiset(Range(last)) + multiset{last};
      }
    }
  }

  lemma RangeSnoc(n: nat)
    ensures multiset(Range(n + 1)) == multiset(Range(n)) + multiset{n}
  {
    assert Range(n + 1) == Range(n) + [n];
  }

  lemma {:induction false} SortedPrefixOrdered(fields: seq<FieldDecl>, n: nat)
    requires n <= |fields|
    ensures InVisitOrder(fields, SortedPrefix(fields, n))
  {
    if n > 0 {
      var last: nat := n - 1;
      var prev := SortedPrefix(fields, last);
      assert SortedPrefix(fields, n) == InsertByToken(fields, prev, last);
      SortedPrefixOrdered(fields, last);
      SortedPrefixPermutes(fields, last);
      BelowRange(prev, last);
      InsertKeepsOrder(fields, prev, last);
    }
  }

  /**
   * The walk visits every field exactly once, in increasing metadata-token order, fields
   * with equal tokens in declaration order.
   */
  lemma WalkOrderVisitsEachFieldOnce(fields: seq<FieldDecl>)
    ensures var order := WalkOrder(fields);
      (forall k :: 0 <= k < |fields| ==> k in order) &&
      (forall i, j :: 0 <= i < j < |order| ==> order[i] != order[j]) &&
      InVisitOrder(fields, order)
  {
    var order := WalkOrder(fields);
    SortedPrefixOrdered(fields, |fields|);
    SortedPrefixPermutes(fields, |fields|);
    forall k | 0 <= k < |fields| ensures k in order {
      assert Range(|fields|)[k] == k;
      assert k in multiset(Range(|fields|));
    }
  }
}

=== FILE: yamlreader.dfy ===
/** The YAML backend's reader: each primitive read consumes one line and checks its prefix. */
module YamlReader {
  import opened Failures
  import opened Text
  import opened Paths
  import opened Decoding

  /**
   * A read method agrees with its specification function: on success it returns the value
   * and leaves the cursor where the function says; on failure it returns the same exception,
   * and the stream is disposed exactly when that exception is a line mismatch.
   */
  ghost predicate Follows<T>(spec: Result<(T, nat)>, r: Result<T>, cursor: nat, disposed: bool)
  {
    match spec
    case Ok((v, next)) => r == Ok(v) && cursor == next && !disposed
    case Err(f) => r == Err(f) && (disposed <==> f.LineMismatch?)
  }

  /**
   * The file is its sequence of lines; `cursor` is the next one `ReadLine` returns and
   * `disposed` records that the reader closed the stream.
   */
  class YamlDeserializer {
    const lines: seq<string>
    var cursor: nat
    var disposed: bool
    var baseName: Option<string>

    ghost predicate Valid()
      reads this
    {
      cursor <= |lines|
    }

    constructor (fileLines: seq<string>)
      ensures lines == fileLines && cursor == 0 && !disposed && baseName == None
      ensures Valid()
    {
      lines := fileLines;
      cursor := 0;
      disposed := false;
      baseName := None;
    }

    /** `ReadYAMLLine`: take the next line; if it does not start with the expected prefix, dispose and throw. */
    method ReadYamlLine(name: string) returns (r: Result<string>)
      requires Valid()
      modifies this`cursor, this`disposed
      ensures Valid()
      ensures !old(disposed) ==> Follows(ReadLineAt(lines, old(cursor), baseName, name), r, cursor, disposed)
      ensures !old(disposed) ==> cursor == if old(cursor) < |lines| then old(cursor) + 1 else old(cursor)
      ensures old(disposed) ==> r == Err(ObjectDisposed) && disposed && cursor == old(cursor)
    {
      if disposed {
        return Err(ObjectDisposed);
      }
      var fullName := FullName(baseName, name);
      var fieldName := FieldName(fullName);
      var lineStart := Tabs(Depth(fullName)) + fieldName + ":";
      var line: Option<string> := None;
      if cursor < |lines| {
        line := Some(lines[cursor]);
        cursor := cursor + 1;
      }
      if !(line.Some? && lineStart <= line.value) {
        disposed := true;
        return Err(LineMismatch(lineStart));
      }
      r := Ok(line.value[|lineStart|..]);
    }

    method ReadInt(name: string) returns (r: Result<int32>)
      requires Valid()
      modifies this`cursor, this`disposed
      ensures Valid()
      ensures !old(disposed) ==> Follows(ReadIntAt(lines, old(cursor), baseName, name), r, cursor, disposed)
      ensures old(disposed) ==> r == Err(ObjectDisposed) && disposed && cursor == old(cursor)
    {
      var text := ReadYamlLine(name);
      if text.Err? {
        return Err(text.failure);
      }
      r := ParseInt(text.value);
    }

    method ReadBool(name: string) returns (r: Result<bool>)
      requires Valid()
      modifies this`cursor, this`disposed
      ensures Valid()
      ensures !old(disposed) ==> Follows(ReadBoolAt(lines, old(cursor), baseName, name), r, cursor, disposed)
      ensures old(disposed) ==> r == Err(ObjectDisposed) && disposed && cursor == old(cursor)
    {
      var text := ReadYamlLine(name);
      if text.Err? {
        return Err(text.failure);
      }
      r := ParseBool(text.value);
    }

    /** The float's text; its value is not interpreted. */
    method ReadFloat(name: string) returns (r: Result<string>)
      requires Valid()
      modifies this`cursor, this`disposed
      ensures Valid()
      ensures !old(disposed) ==> Follows(ReadLineAt(lines, old(cursor), baseName, name), r, cursor, disposed)
      ensures old(disposed) ==> r == Err(ObjectDisposed) && disposed && cursor == old(cursor)
    {
      r := ReadYamlLine(name);
    }

    method ReadString(name: string) returns (r: Result<string>)
      requires Valid()
      modifies this`cursor, this`disposed
      ensures Valid()
      ensures !old(disposed) ==> Follows(ReadLineAt(lines, old(cursor), baseName, name), r, cursor, disposed)
      ensures old(disposed) ==> r == Err(ObjectDisposed) && disposed && cursor == old(cursor)
    {
      r := ReadYamlLine(name);
    }
  }
}

=== FILE: yamlwriter.dfy ===
/** The YAML backend's writer: one `name:value` line per primitive write. */
module YamlWriter {
  import opened Failures
  import opened Text
  import opened Paths

  /**
   * `lines` holds the records handed to `StreamWriter.WriteLine` so far, in order (the file's
   * text is `FileText(lines)`); `baseName` is the dotted path of the node whose fields are
   * being written.
   */
  class YamlSerializer {
    var lines: seq<string>
    var baseName: Option<string>

    constructor ()
      ensures lines == [] && baseName == None
    {
      lines := [];
      baseName := None;
    }

    /** `WriteYAMLLine`: indent by path depth, label with the last path segment, then the value. */
    method WriteYamlLine(name: string, value: string)
      modifies this`lines
      ensures lines == old(lines) + [LineText(baseName, name, value)]
    {
      var fullName := FullName(baseName, name);
      var fieldName := FieldName(fullName);
      var lineStart := Tabs(Depth(fullName)) + fieldName + ":";
      lines := lines + [lineStart + value];
    }

    method WriteBool(name: string, b: bool)
      modifies this`lines
      ensures lines == old(lines) + [LineText(baseName, name, BoolText(b))]
    {
      WriteYamlLine(name, BoolText(b));
    }

    /** Floats arrive as their invariant-culture text. */
    method WriteFloat(name: string, token: string)
      modifies this`lines
      ensures lines == old(lines) + [LineText(baseName, name, token)]
    {
      WriteYamlLine(name, token);
    }

    method WriteInt(name: string, i: int)
      modifies this`lines
      ensures lines == old(lines) + [LineText(baseName, name, IntText(i))]
    {
      WriteYamlLine(name, IntText(i));
    }

    method WriteString(name: string, s: string)
      modifies this`lines
      ensures lines == old(lines) + [LineText(baseName, name, s)]
    {
      WriteYamlLine(name, s);
    }
  }
}
